=== FILE: README.md ===
# EMF publish/subscribe core, modelled in Dafny

EMF is a thin publish/subscribe layer over ZeroMQ with three bindings (Java, C++, Go) that behave alike:

- **API singleton.** A process-wide `EMFAPI` singleton owns the ZeroMQ context.
- **Publisher.** An `EMFPublisher` binds a PUB socket on `tcp://*:<port>`. It sends an event either as one payload frame, or as two frames: the normalised topic flagged "more", then the payload.
- **Subscriber.** An `EMFSubscriber` connects a SUB socket to `tcp://<ip>:<port>`. It sets prefix subscriptions on that socket and runs a receiver. For each message the receiver calls the plain callback or the topic callback. Java and C++ also use an in-process PAIR pair so that stop can wake the receiver.

## Modules

- **Topic validation** (`Topic`): a topic must fully match `[a-zA-Z0-9-_./]+`. An accepted topic gets a trailing `/` if it lacks one. The model proves:
  - the four normalisers (Java validateTopic, C++ publisher and subscriber sanitizeTopic, Go sanitizeTopic) accept the same topics and return the same normal topic;
  - normalisation is unique and idempotent;
  - on the wire, byte-prefix filtering coincides with string-prefix filtering of the normalised topics.
- **Endpoints** (`Address`): the TCP and in-process addresses, with decimal printing of ports proved invertible and injective.
- **Context and singleton** (`Context`): the three `EMFAPI` classes with their initialize/terminate/status state machines, and the singleton holders.
- **Publishing** (`PublishSteps`, `Publisher`): the publish operations are pure step functions on the PUB socket state (socket handle, frames sent so far). The send outcome of the network is an oracle `Link` indexed by wire position. The publisher classes are proved to implement these functions:
  - their list publish loops are proved against a fold that stops at the first failure;
  - the close-and-wait-for-"closed" protocol of `syncClose` is a loop proved against a specification function of the monitor events.
- **Subscribing** (`SubscribeSteps`, `Subscriber`): subscribe and unsubscribe are functions on an abstract SUB socket whose subscriptions form a multiset of byte prefixes, as in ZeroMQ. The outcome of each `setsockopt` is an oracle indexed by how many options were set before. The subscriber classes keep their handles, poller and receiver flags as fields and are proved to:
  - implement these functions;
  - keep a class invariant;
  - deliver, in their receive loop, exactly the callbacks a specification function assigns to the queued frames, up to the first read that fails (C++ and Go).
- **End to end** (`Framing`, `PubSub`): the frames a sequence of successful publications puts on the wire are read back by the receive loop as one callback per publication, in order, carrying the normalised topic. A C++ or Go list publish is delivered topic by topic.

Wherever the bindings differ, the model follows the code of each one. The one exception is Java unSubscribe(topic) and unSubscribe(list). There the operations the classes use are the corrected ones, and the code as written is modelled beside them (see Findings):

- **Java publish(list, event):** returns the first failing code.
- **Go PublishOnTopicList:** reports any failure, including an invalid topic inside the list, as `EMF_ERROR`. Go's subscribe lists pass the failing code through.
- **syncClose monitor:** the result of starting the socket monitor is overwritten before it is checked (Java and Go), so it decides nothing.
- **C++ start failure:** when connecting fails, C++ `start` calls `stop`. `stop` joins a receiver thread that was never started and returns before closing anything. The sockets therefore stay open, and the next `start` returns OK with a receiver that finds no poll items and delivers nothing. This is shown by `Subscriber.CppRestartAfterFailedStartScenario`.
- **Go Start failure:** Go `Start` stores the socket handle before it checks the error. A failed connect keeps the unconnected socket, and so does a failed creation that hands back a handle. The next Start then returns OK without connecting (`Subscriber.GoStartAfterFailedCreateScenario`). Go `Initialize` stores the context the same way (`Context.GoInitializeAfterFailureScenario`).
- **Java start on a terminated context:** creating the first socket throws. The handler runs stop, so everything is closed again and start returns ERROR.
- **Stop with data pending (Java and C++):** stop takes the subscriber lock, sends the shutdown request and joins the receiver while it still holds the lock. The receiver checks the SUB socket before the shutdown socket, and it needs the same lock to read. So when a message is still queued as stop begins, the receiver waits for the lock and stop waits in the join, and stop never returns. The model records this as `hung` (`Subscriber.JavaStopWithPendingMessageScenario`, `Subscriber.CppStopWithPendingMessageScenario`). A stop called after the receiver has read everything returns normally (`Subscriber.JavaStopAfterReceiveScenario`).
- **Java stop whose teardown throws:** the exception comes after the join, so the receiver thread has ended, but `mThread` stays set. A later start reports OK and starts no new receiver (`Subscriber.JavaStartAfterFailedTeardownScenario`).
- **C++ receive failure:** when a read throws, the receiver clears `isReceiverStarted` and its thread ends, still joinable. The unread frames stay queued. The next `start` assigns a new thread over the joinable one, which ends the process in `std::terminate` (`Subscriber.CppStartAfterFailedReadScenario`).
- **Go receive failure:** when a read fails, the goroutine ends but `isReceiverStarted` stays set. The next Start therefore returns OK without starting a new goroutine, and nothing reads the queue any more (`Subscriber.GoStartAfterFailedReadScenario`).

## Model

| member | source | states |
|---|---|---|
| Topic.JavaValidateTopic | EMF/java/edgex-emf/src/main/java/org/edgexfoundry/emf/EMFSubscriber.java:489-506 | a topic is accepted exactly when it is non-null and fully matches the pattern; an accepted topic is normalised (ends in '/', extends the input by at most the one '/', unchanged if it already ended in '/') |
| Topic.CppSanitizeTopic | EMF/cpp/src/EMFSubscriber.cpp:396-417 | non-empty result exactly for topics matching the pattern, and then a normalisation of the input |
| Topic.CppPublisherSanitizeTopic | EMF/cpp/src/EMFPublisher.cpp:230-251 | same acceptance and normalisation as the subscriber, including the empty-topic case that hands back its argument |
| Topic.LastIndexOf | EMF/go/emf/emfpublisher.go:203-211 | the index is -1 or holds the character, and no later position holds it |
| Topic.GoSanitizeTopic | EMF/go/emf/emfpublisher.go:193-212 | accepted exactly for anchored-pattern matches; result is the normalisation, with the trailing '/' detected through the last '/' |
| Topic.NormalisationUnique | EMF/java/edgex-emf/src/main/java/org/edgexfoundry/emf/EMFSubscriber.java:500-505 | a topic has exactly one normalisation |
| Topic.BindingsAgree | EMF/go/emf/emfpublisher.go:193-212 | Java, C++ publisher, C++ subscriber and Go normalisers accept the same topics and return the same normal topic |
| Topic.NormalTopicIsFixedPoint | java/edgex-emf/src/main/java/org/edgexfoundry/emf/EMFPublisher.java:257-274 | an already normal topic is returned unchanged by validation |
| Topic.ValidateIdempotent | java/edgex-emf/src/main/java/org/edgexfoundry/emf/EMFPublisher.java:257-274 | validating a validated topic changes nothing |
| Topic.SameNormalTopic | EMF/cpp/src/EMFSubscriber.cpp:396-417 | two valid topics share a normal form exactly when equal or differing only by the missing trailing '/' |
| Topic.TopicBytes | EMF/cpp/src/EMFPublisher.cpp:135-136 | the topic frame has one byte per character, each with the character's code |
| Topic.BytesText | EMF/cpp/src/EMFSubscriber.cpp:73-77 | the received topic text has one character per byte, each with the byte's value |
| Topic.TopicBytesRoundTrip | EMF/cpp/src/EMFSubscriber.cpp:73-77 | a topic sent as a frame is read back as the same text |
| Topic.TopicBytesPrefix | EMF/cpp/src/EMFSubscriber.cpp:191-219 | byte prefix of topic frames coincides with string prefix of the topics |
| Topic.JavaTopicText | EMF/java/edgex-emf/src/main/java/org/edgexfoundry/emf/EMFSubscriber.java:489-506 | a null entry reads as the empty text, which validation rejects just as it rejects null |
| Topic.JavaTopicTexts | EMF/java/edgex-emf/src/main/java/org/edgexfoundry/emf/EMFSubscriber.java:257-271 | one text per list entry |
| Topic.JavaTopicsValid | EMF/java/edgex-emf/src/main/java/org/edgexfoundry/emf/EMFSubscriber.java:489-506 | a list whose every entry validates is a list of valid texts |
| Topic.FirstSlash | EMF/cpp/src/EMFSubscriber.cpp:396-417 | the first '/' of a text that holds one |
| Topic.Segments | EMF/cpp/src/EMFSubscriber.cpp:396-417 | the path segments of a normal topic, never more than its characters |
| Topic.PrefixSegments | EMF/cpp/src/EMFSubscriber.cpp:396-417 | a normal topic that is a prefix of another has a prefix of its segments |
| Topic.SegmentsPrefix | EMF/cpp/src/EMFSubscriber.cpp:396-417 | the converse: a prefix of the segments is a prefix of the text |
| Topic.SegmentPrefix | EMF/cpp/src/EMFSubscriber.cpp:396-417 | for normal topics, text prefix and segment prefix coincide |
| Address.NatToDecimal | EMF/cpp/src/EMFPublisher.cpp:225-228 | non-empty digit string, without a leading zero unless the number is 0 |
| Address.DecimalRoundTrip | EMF/cpp/src/EMFPublisher.cpp:225-228 | reading the printed decimal gives the number back |
| Address.IntToDecimal | EMF/go/emf/emfpublisher.go:189-191 | non-empty text without ':' |
| Address.IntRoundTrip | EMF/go/emf/emfpublisher.go:189-191 | parsing the printed integer (sign included) gives it back |
| Address.IntToDecimalInjective | EMF/go/emf/emfsubscriber.go:252-254 | distinct ports print differently |
| Address.DecimalLength | EMF/go/emf/emfpublisher.go:214-219 | a number below 10^k prints in at most k digits |
| Address.PubSocketAddress | java/edgex-emf/src/main/java/org/edgexfoundry/emf/EMFPublisher.java:276-278 | starts with "tcp://*:" and the rest parses back to the port |
| Address.SubSocketAddress | EMF/java/edgex-emf/src/main/java/org/edgexfoundry/emf/EMFSubscriber.java:183-185 | starts with "tcp://" |
| Address.LastColonSplit | EMF/cpp/src/EMFSubscriber.cpp:384-387 | the ':' before the port is the last ':' of the endpoint |
| Address.SubSocketAddressInjective | EMF/cpp/src/EMFSubscriber.cpp:384-387 | the subscriber endpoint determines both the host and the port |
| Address.ShutdownAddress | EMF/java/edgex-emf/src/main/java/org/edgexfoundry/emf/EMFSubscriber.java:187-190 | "inproc://shutdown-" followed by exactly the random suffix |
| Address.MonitorAddress | java/edgex-emf/src/main/java/org/edgexfoundry/emf/EMFPublisher.java:280-283 | "inproc://monitor-" followed by exactly the random suffix |
| Address.GoMonitorAddress | EMF/go/emf/emfpublisher.go:214-219 | the Go monitor suffix is one to four decimal digits |
| Context.ZmqContext.constructor | go/emf/emfapi.go:31 | a new context is live |
| Context.ZmqContext.Failed | go/emf/emfapi.go:31 | the context object handed back with a creation error cannot create sockets |
| Context.JavaEmfApi.constructor | java/edgex-emf/src/main/java/org/edgexfoundry/emf/EMFAPI.java:21-23 | status Constructed, no context |
| Context.JavaEmfApi.Initialize | java/edgex-emf/src/main/java/org/edgexfoundry/emf/EMFAPI.java:43-48 | always OK; a fresh live context and status Initialized |
| Context.JavaEmfApi.Terminate | java/edgex-emf/src/main/java/org/edgexfoundry/emf/EMFAPI.java:55-63 | always OK; terminates and drops an existing context and sets Terminated; without a context the status is untouched (term waiting for open sockets is not modelled) |
| Context.CppEmfApi.constructor | cpp/include/EMFAPI.h:60 | status Constructed, no context |
| Context.CppEmfApi.Initialize | cpp/src/EMFAPI.cpp:17-32 | always OK, Initialized; an existing context is kept, otherwise a fresh one is made |
| Context.CppEmfApi.Terminate | cpp/src/EMFAPI.cpp:34-40 | always OK; the reference is released and status is Terminated whatever it was |
| Context.GoEmfApi.constructor | go/emf/emfapi.go:17-24 | status Constructed, no context |
| Context.GoEmfApi.Initialize | go/emf/emfapi.go:28-42 | creation failure gives ERROR with the status unchanged, storing the unusable context handed back if there is one; otherwise OK, Initialized, with the existing or a fresh live context |
| Context.GoEmfApi.Terminate | go/emf/emfapi.go:45-58 | a failed term gives ERROR and keeps the context and status; otherwise OK, no context, Terminated (term waiting for open sockets is not modelled) |
| Context.JavaEmfApiHolder.GetInstance | java/edgex-emf/src/main/java/org/edgexfoundry/emf/EMFAPI.java:30-35 | the first call creates a Constructed instance, later calls return the same one |
| Context.CppEmfApiHolder.GetInstance | cpp/src/EMFAPI.cpp:11-15 | the first call creates a Constructed instance, later calls return the same one |
| Context.GoEmfApiHolder.GetInstance | go/emf/emfapi.go:17-24 | the first call creates a Constructed instance, later calls return the same one |
| Context.SingletonScenario | java/edgex-emf/src/test/java/org/edgexfoundry/emf/EMFAPITest.java:10-28 | two getInstance calls give one object; initialize through one is seen through the other |
| Context.CppLifecycleScenario | EMF/cpp/unittests/EMFAPITest.cpp:23-50 | Constructed, then Initialized (initialize twice keeps the context), then Terminated |
| Context.JavaTerminateWithoutContextScenario | java/edgex-emf/src/main/java/org/edgexfoundry/emf/EMFAPI.java:55-63 | terminate before initialize is OK and leaves the status Constructed |
| Context.GoTerminateWithoutContextScenario | go/emf/emfapi.go:45-58 | terminate before initialize is OK and sets Terminated |
| Context.GoInitializeAfterFailureScenario | go/emf/emfapi.go:28-42 | after a failed initialize that was handed a context, the next initialize reports OK and Initialized over an unusable context |
| EmfTypes.Arrive | EMF/cpp/src/EMFSubscriber.cpp:191-219 | a message is queued whole exactly when the socket is connected and a subscribed prefix starts its first frame; otherwise dropped |
| EmfTypes.SubscribeThenUnsubscribe | EMF/cpp/src/EMFSubscriber.cpp:261-288 | subscribing then unsubscribing a prefix restores the subscriptions |
| EmfTypes.EmptyPrefixAdmitsAll | EMF/cpp/src/EMFSubscriber.cpp:172-176 | subscribe() (empty prefix) admits every message |
| EmfTypes.ArriveKeepsFraming | EMF/cpp/src/EMFSubscriber.cpp:48-109 | arrivals keep the queue free of half messages |
| Framing.PlainMessage | java/edgex-emf/src/main/java/org/edgexfoundry/emf/EMFPublisher.java:91-121 | one frame holding the payload, a complete message |
| Framing.TaggedMessage | java/edgex-emf/src/main/java/org/edgexfoundry/emf/EMFPublisher.java:137-180 | two frames: the topic flagged "more", then the payload; the topic frame reads back as the topic |
| Framing.ReadOne | EMF/cpp/src/EMFSubscriber.cpp:70-79 | reads a topic frame exactly when the first frame has "more"; the rest is shorter and well framed |
| Framing.ReadOneSuffix | EMF/cpp/src/EMFSubscriber.cpp:70-79 | what is left after one message is a suffix of the queue |
| Framing.JavaCallbacks | EMF/java/edgex-emf/src/main/java/org/edgexfoundry/emf/EMFSubscriber.java:302-311 | a callback exactly when the converter returns an event; the topic callback exactly when a topic frame was read |
| Framing.ParsedCallback | EMF/go/emf/emfsubscriber.go:77-87 | always one callback with the parsed event; the topic callback exactly when a topic frame was read |
| Framing.ParsedDeliveriesUntil | EMF/cpp/src/EMFSubscriber.cpp:48-109 | a run of the C++/Go loop leaves a well-framed queue, and leaves nothing unless it stopped at a failed read |
| Framing.ParsedDeliveriesUntilFails | EMF/go/emf/emfsubscriber.go:52-90 | a run that stopped early stopped at a read that failed, with frames left, and never leaves more frames than it was given |
| Framing.ParsedDeliveriesUntilSplit | EMF/cpp/src/EMFSubscriber.cpp:48-109 | the callbacks made before the failed read, followed by those of the frames left queued, are all the callbacks of the queue |
| Framing.ParsedDeliveriesUntilReads | EMF/go/emf/emfsubscriber.go:64-71 | every read before the one that failed succeeded |
| Framing.ParsedDeliveriesUntilAllOk | EMF/cpp/src/EMFSubscriber.cpp:69-86 | when every read succeeds the loop drains the queue and makes all its callbacks |
| Framing.MessageOf | EMF/cpp/src/EMFPublisher.cpp:74-172 | every publication is a complete message |
| Framing.Wire | EMF/cpp/src/EMFPublisher.cpp:74-172 | a run of successful publications leaves the wire well framed |
| Framing.ExpectedParsed | EMF/cpp/src/EMFSubscriber.cpp:48-109 | one expected callback per publication |
| Framing.ExpectedJava | EMF/java/edgex-emf/src/main/java/org/edgexfoundry/emf/EMFSubscriber.java:273-320 | at most one expected callback per publication |
| Framing.ReadOneOfWire | EMF/cpp/src/EMFSubscriber.cpp:70-79 | reading the wire gives back the first publication's topic and payload and the rest of the wire |
| Framing.ParsedRoundTrip | EMF/cpp/src/EMFSubscriber.cpp:48-109 | C++/Go receive: the wire of publications yields one callback per publication, in order, with its topic |
| Framing.JavaRoundTrip | EMF/java/edgex-emf/src/main/java/org/edgexfoundry/emf/EMFSubscriber.java:273-320 | Java receive: the same, dropping publications whose payload does not decode |
| Framing.ExpectedJavaOne | EMF/java/edgex-emf/src/main/java/org/edgexfoundry/emf/EMFSubscriber.java:302-311 | at most one expected callback for one publication |
| Framing.JavaFirstCallbacks | EMF/java/edgex-emf/src/main/java/org/edgexfoundry/emf/EMFSubscriber.java:286-311 | the Java callbacks for the first message on the wire are the expected ones for the first publication |
| Framing.AppendWellFramed | EMF/cpp/src/EMFSubscriber.cpp:48-109 | two well-framed queues concatenate to a well-framed queue |
| Framing.ReadOneAppend | EMF/cpp/src/EMFSubscriber.cpp:70-79 | the first message of a + b is the first message of a |
| Framing.ParsedDeliveriesAppend | EMF/go/emf/emfsubscriber.go:52-90 | draining a + b delivers a's callbacks then b's |
| Framing.JavaDeliveriesUnfold | EMF/java/edgex-emf/src/main/java/org/edgexfoundry/emf/EMFSubscriber.java:273-320 | one step of the Java receive loop |
| Framing.JavaDeliveriesAppend | EMF/java/edgex-emf/src/main/java/org/edgexfoundry/emf/EMFSubscriber.java:273-320 | draining a + b delivers a's callbacks then b's |
| TopicList.ApplySplit | java/edgex-emf/src/main/java/org/edgexfoundry/emf/EMFPublisher.java:199-218 | running a list in two parts equals running it whole |
| TopicList.ApplyCons | EMF/cpp/src/EMFPublisher.cpp:174-192 | an OK first topic passes its state to the rest of the list |
| TopicList.ApplySnoc | EMF/cpp/src/EMFSubscriber.cpp:221-240 | after an all-OK prefix, one more topic gives that topic's result |
| TopicList.FoldStep | EMF/go/emf/emfsubscriber.go:161-172 | one loop iteration either extends the OK prefix or ends with the result of the whole list |
| TopicList.OkPrefixes | EMF/cpp/src/EMFSubscriber.cpp:290-308 | every prefix of an OK run is OK |
| TopicList.AllStepsOk | EMF/cpp/src/EMFSubscriber.cpp:290-308 | in an OK run every single topic step returned OK |
| TopicList.FirstFailure | java/edgex-emf/src/main/java/org/edgexfoundry/emf/EMFPublisher.java:199-218 | a failing run returns the code and state of its first failing topic, earlier topics having run OK |
| TopicList.ApplyPreserves | EMF/java/edgex-emf/src/main/java/org/edgexfoundry/emf/EMFSubscriber.java:257-271 | an invariant of every step holds after the whole list |
| TopicList.ApplySameSteps | EMF/go/emf/emfsubscriber.go:161-172 | steps that agree give the same list result |
| TopicList.ApplyAllOk | EMF/cpp/src/EMFPublisher.cpp:174-192 | a list whose every item makes the step OK from every state of an invariant the step keeps runs OK whole |
| TopicList.ApplyMapped | EMF/java/edgex-emf/src/main/java/org/edgexfoundry/emf/EMFSubscriber.java:257-271 | running a list with one step equals running its image with a step that agrees through the mapping |
| PublishSteps.JavaPublish | java/edgex-emf/src/main/java/org/edgexfoundry/emf/EMFPublisher.java:91-121 | OK exactly with a socket, an event, a serialisation and a working send; then exactly the plain message is appended, otherwise nothing changes |
| PublishSteps.JavaPublishOnTopic | java/edgex-emf/src/main/java/org/edgexfoundry/emf/EMFPublisher.java:137-180 | INVALID_TOPIC exactly for a rejected topic; OK exactly when both frames go out, appending the tagged message of the normalised topic; an ERROR that changed the wire left exactly the dangling topic frame |
| PublishSteps.JavaPublishOnTopicList | java/edgex-emf/src/main/java/org/edgexfoundry/emf/EMFPublisher.java:199-218 | null event ERROR, null list INVALID_TOPIC, empty list OK; the wire only grows |
| PublishSteps.CppPublish | EMF/cpp/src/EMFPublisher.cpp:74-117 | OK exactly with a socket, a serialisation and a working send; then the plain message is appended, otherwise nothing changes |
| PublishSteps.CppPublishOnTopic | EMF/cpp/src/EMFPublisher.cpp:119-172 | INVALID_TOPIC exactly for a rejected topic with a socket; OK appends the tagged message; failures leave the wire unchanged and well framed |
| PublishSteps.CppPublishOnTopicList | EMF/cpp/src/EMFPublisher.cpp:174-192 | an empty list is INVALID_TOPIC; the wire only grows and stays well framed |
| PublishSteps.CppListIsFold | EMF/cpp/src/EMFPublisher.cpp:174-192 | a non-empty list publish is the stop-at-first-failure fold of publish(topic) |
| PublishSteps.GoPublish | EMF/go/emf/emfpublisher.go:89-109 | OK exactly with a socket, a serialisation and a working send; then the plain message is appended, otherwise nothing changes |
| PublishSteps.GoPublishOnTopic | EMF/go/emf/emfpublisher.go:116-146 | INVALID_TOPIC exactly for a rejected topic with a socket; OK appends the tagged message; an ERROR that changed the wire sent only the topic frame, because marshalling or the payload send failed |
| PublishSteps.GoPublishOnTopicList | EMF/go/emf/emfpublisher.go:155-166 | INVALID_TOPIC exactly for an empty list; OK exactly when the fold is OK; every other failure is ERROR |
| PublishSteps.JavaOpenMessage | java/edgex-emf/src/main/java/org/edgexfoundry/emf/EMFPublisher.java:158-164 | a payload send failing after the topic frame leaves the wire ending inside a message |
| PublishSteps.GoMarshalFailureOpenMessage | EMF/go/emf/emfpublisher.go:127-138 | a marshalling error after the topic frame leaves the wire ending inside a message |
| PublishSteps.CppPublications | EMF/cpp/src/EMFPublisher.cpp:174-192 | one publication per topic |
| PublishSteps.CppPublicationsPublishable | EMF/cpp/src/EMFPublisher.cpp:230-251 | valid topics give publishable (normal-topic) publications |
| PublishSteps.CppPublicationsCons | EMF/cpp/src/EMFPublisher.cpp:174-192 | the wire of a list is the first topic's message followed by the wire of the rest |
| PublishSteps.CppFoldPublishes | EMF/cpp/src/EMFPublisher.cpp:174-192 | an OK fold over valid topics appended one tagged message per topic, in order |
| PublishSteps.CppTopicStepSends | EMF/cpp/src/EMFPublisher.cpp:119-172 | an OK topic step had a valid topic and appended its tagged message |
| PublishSteps.CppPublicationsPublishable_IfValid | EMF/cpp/src/EMFPublisher.cpp:174-192 | every topic of an OK list publish was valid |
| PublishSteps.CppListPublishes | EMF/cpp/src/EMFPublisher.cpp:174-192 | OK means a non-empty list of valid topics and a serialised event, and the wire gained exactly one tagged message per topic, in list order |
| PublishSteps.CppListSucceeds | EMF/cpp/src/EMFPublisher.cpp:174-192 | the converse: with a socket, a non-empty list of valid topics, a serialisable event and a working link, the list publish is OK |
| PublishSteps.JavaListFirstFailure | java/edgex-emf/src/main/java/org/edgexfoundry/emf/EMFPublisher.java:199-218 | a non-OK list result is the result of the first failing topic, after the earlier topics were published |
| PublishSteps.GoTopicStepSends | EMF/go/emf/emfpublisher.go:116-146 | an OK Go topic step appended the same tagged message as C++ |
| PublishSteps.GoFoldPublishes | EMF/go/emf/emfpublisher.go:155-166 | an OK Go fold appended one tagged message per topic, in order |
| PublishSteps.GoListPublishes | EMF/go/emf/emfpublisher.go:155-166 | OK means a non-empty list of valid topics, and the wire is the same as for the C++ list publish |
| PublishSteps.GoListSucceeds | EMF/go/emf/emfpublisher.go:155-166 | the converse for the Go list publish |
| PublishSteps.JavaListAllValid | java/edgex-emf/src/main/java/org/edgexfoundry/emf/EMFPublisher.java:199-218 | OK means every topic of the list validated and (for a non-empty list) the event serialised |
| PublishSteps.JavaTopicStepSends | java/edgex-emf/src/main/java/org/edgexfoundry/emf/EMFPublisher.java:137-180 | an OK Java topic step had a valid topic and appended the tagged message of its normalisation |
| PublishSteps.JavaFoldPublishes | java/edgex-emf/src/main/java/org/edgexfoundry/emf/EMFPublisher.java:199-218 | an OK Java fold over valid entries appended one tagged message per entry, in order |
| PublishSteps.JavaListPublishes | java/edgex-emf/src/main/java/org/edgexfoundry/emf/EMFPublisher.java:199-218 | an OK Java list publish had only valid entries; an empty list changes nothing, otherwise the event serialised and the wire gained exactly the C++ list wire of the entries |
| PublishSteps.JavaListSucceeds | java/edgex-emf/src/main/java/org/edgexfoundry/emf/EMFPublisher.java:199-218 | the converse: with a socket, a serialisable event, valid entries and a working link, the Java list publish is OK |
| PublishSteps.GoListHidesInvalidTopic | EMF/go/emf/emfpublisher.go:155-166 | an invalid first topic gives INVALID_TOPIC alone, but ERROR inside a list |
| Publisher.Received | EMF/go/emf/emfpublisher.go:250-264 | the wait consumes no more events than arrive |
| Publisher.ReceivedStopsAtFirst | EMF/go/emf/emfpublisher.go:250-264 | the wait stops at the first closed, timeout or error event, and every event before it is ordinary |
| Publisher.AwaitClosed | java/edgex-emf/src/main/java/org/edgexfoundry/emf/EMFPublisher.java:312-336 | the loop consumes exactly the events the wait specification says, and reports "closed" exactly when the last one was the closed event |
| Publisher.MonitoredClose | java/edgex-emf/src/main/java/org/edgexfoundry/emf/EMFPublisher.java:285-338 | OK exactly when close worked; waits exactly when close worked and the PAIR socket exists and connected; "closed" only after waiting on an arriving closed event |
| Publisher.CppSyncClose | EMF/cpp/src/EMFPublisher.cpp:261-284 | OK exactly when close worked; "closed" exactly when also the event arrived |
| Publisher.JavaPublisher.constructor | java/edgex-emf/src/main/java/org/edgexfoundry/emf/EMFPublisher.java:41-46 | takes the port and the API's current context; no socket, nothing sent |
| Publisher.JavaPublisher.Start | java/edgex-emf/src/main/java/org/edgexfoundry/emf/EMFPublisher.java:61-82 | no context: ERROR; a socket already: OK unchanged; otherwise OK with a socket on PubSocketAddress(port) exactly when binding works on a live context, else ERROR and no socket |
| Publisher.JavaPublisher.Publish | java/edgex-emf/src/main/java/org/edgexfoundry/emf/EMFPublisher.java:91-121 | result and new state are JavaPublish of the old state |
| Publisher.JavaPublisher.PublishOnTopic | java/edgex-emf/src/main/java/org/edgexfoundry/emf/EMFPublisher.java:137-180 | result and new state are JavaPublishOnTopic of the old state |
| Publisher.JavaPublisher.PublishOnTopicList | java/edgex-emf/src/main/java/org/edgexfoundry/emf/EMFPublisher.java:199-218 | the loop's result and state are JavaPublishOnTopicList of the old state |
| Publisher.JavaPublisher.Stop | java/edgex-emf/src/main/java/org/edgexfoundry/emf/EMFPublisher.java:225-246 | no socket: ERROR; otherwise the socket is dropped and the result is OK exactly when close worked |
| Publisher.CppPublisher.constructor | EMF/cpp/src/EMFPublisher.cpp:23-33 | takes the port and the API's current context; no socket, nothing sent |
| Publisher.CppPublisher.Start | EMF/cpp/src/EMFPublisher.cpp:45-72 | as Java start |
| Publisher.CppPublisher.Publish | EMF/cpp/src/EMFPublisher.cpp:74-117 | result and new state are CppPublish of the old state |
| Publisher.CppPublisher.PublishOnTopic | EMF/cpp/src/EMFPublisher.cpp:119-172 | result and new state are CppPublishOnTopic of the old state |
| Publisher.CppPublisher.PublishOnTopicList | EMF/cpp/src/EMFPublisher.cpp:174-192 | the loop's result and state are CppPublishOnTopicList of the old state |
| Publisher.CppPublisher.Stop | EMF/cpp/src/EMFPublisher.cpp:194-218 | no socket: ERROR; otherwise the socket is deleted and the result is OK exactly when close worked |
| Publisher.GoPublisher.constructor | EMF/go/emf/emfpublisher.go:46-61 | takes the port and the API's current context; no socket, nothing sent |
| Publisher.GoPublisher.Start | EMF/go/emf/emfpublisher.go:64-86 | as Java start |
| Publisher.GoPublisher.Publish | EMF/go/emf/emfpublisher.go:89-109 | result and new state are GoPublish of the old state |
| Publisher.GoPublisher.PublishOnTopic | EMF/go/emf/emfpublisher.go:116-146 | result and new state are GoPublishOnTopic of the old state |
| Publisher.GoPublisher.PublishOnTopicList | EMF/go/emf/emfpublisher.go:155-166 | the loop's result and state are GoPublishOnTopicList of the old state |
| Publisher.GoPublisher.Stop | EMF/go/emf/emfpublisher.go:169-182 | no socket: ERROR; otherwise OK exactly when close worked, and only then is the socket forgotten |
| Publisher.JavaStartBeforeInitializeScenario | java/edgex-emf/src/main/java/org/edgexfoundry/emf/EMFPublisher.java:61-66 | a publisher built before initialize cannot start |
| Publisher.JavaPublishAfterStopScenario | java/edgex-emf/src/main/java/org/edgexfoundry/emf/EMFPublisher.java:91-121 | after stop, publish fails and the wire holds only the earlier message |
| SubscribeSteps.SubscriptionsSnoc | EMF/cpp/src/EMFSubscriber.cpp:191-219 | one more option adds or removes one copy of its prefix |
| SubscribeSteps.SetFilter | EMF/cpp/src/EMFSubscriber.cpp:191-219 | no socket: ERROR; OK exactly when the option is set, adding (subscribe) or removing (unsubscribe) one copy of the prefix; same socket otherwise |
| SubscribeSteps.JavaSubscribeAll | EMF/java/edgex-emf/src/main/java/org/edgexfoundry/emf/EMFSubscriber.java:197-199 | OK exactly with a socket, which then has the empty prefix |
| SubscribeSteps.JavaUnsubscribeAll | EMF/java/edgex-emf/src/main/java/org/edgexfoundry/emf/EMFSubscriber.java:327-329 | OK exactly with a socket; one empty prefix removed |
| SubscribeSteps.JavaSubscribe | EMF/java/edgex-emf/src/main/java/org/edgexfoundry/emf/EMFSubscriber.java:212-242 | INVALID_TOPIC exactly for a rejected topic, checked before the socket; OK adds the normalised topic's prefix |
| SubscribeSteps.JavaUnsubscribeAsWritten | EMF/java/edgex-emf/src/main/java/org/edgexfoundry/emf/EMFSubscriber.java:342-372 | validates the topic but removes the prefix of the topic as given |
| SubscribeSteps.JavaUnsubscribe | EMF/java/edgex-emf/src/main/java/org/edgexfoundry/emf/EMFSubscriber.java:342-372 | corrected: INVALID_TOPIC exactly for a rejected topic; OK removes the normalised topic's prefix |
| SubscribeSteps.JavaUnsubscribeLeavesTopic | EMF/java/edgex-emf/src/main/java/org/edgexfoundry/emf/EMFSubscriber.java:342-352 | as written, subscribe(t) then unSubscribe(t) for a topic without a trailing '/' leaves t/ subscribed |
| SubscribeSteps.JavaUnsubscribeCounterexample | EMF/java/edgex-emf/src/main/java/org/edgexfoundry/emf/EMFSubscriber.java:342-352 | subscribe("a"), unSubscribe("a") on a fresh socket leaves exactly "a/" subscribed |
| SubscribeSteps.JavaSubscribeThenUnsubscribe | EMF/java/edgex-emf/src/main/java/org/edgexfoundry/emf/EMFSubscriber.java:212-242 | corrected: subscribe then unsubscribe of the same accepted topic restores the subscriptions |
| SubscribeSteps.JavaSubscribeList | EMF/java/edgex-emf/src/main/java/org/edgexfoundry/emf/EMFSubscriber.java:257-271 | null list INVALID_TOPIC, empty list OK with nothing set; the socket stays the same |
| SubscribeSteps.JavaUnsubscribeListAsWritten | EMF/java/edgex-emf/src/main/java/org/edgexfoundry/emf/EMFSubscriber.java:387-400 | as written (each entry through the raw-topic unSubscribe): null list INVALID_TOPIC, empty list OK with nothing set; the socket stays the same |
| SubscribeSteps.JavaListUnsubscribeLeavesTopic | EMF/java/edgex-emf/src/main/java/org/edgexfoundry/emf/EMFSubscriber.java:387-400 | as written, subscribe([t]) then unSubscribe([t]) both report OK for a topic without a trailing '/', yet t/ stays subscribed |
| SubscribeSteps.JavaUnsubscribeList | EMF/java/edgex-emf/src/main/java/org/edgexfoundry/emf/EMFSubscriber.java:387-400 | corrected: null list INVALID_TOPIC, empty list OK with nothing set; the socket stays the same |
| SubscribeSteps.JavaAgreesWithCpp | EMF/java/edgex-emf/src/main/java/org/edgexfoundry/emf/EMFSubscriber.java:212-242 | with options always accepted, Java subscribe/unSubscribe(topic) are the C++ ones on the topic's text |
| SubscribeSteps.JavaFoldsAgreeWithCpp | EMF/java/edgex-emf/src/main/java/org/edgexfoundry/emf/EMFSubscriber.java:257-271 | the Java list loops are the C++ loops over the texts of the entries |
| SubscribeSteps.JavaTextsValid | EMF/java/edgex-emf/src/main/java/org/edgexfoundry/emf/EMFSubscriber.java:489-506 | every text of a Java list is valid exactly when every entry validates |
| SubscribeSteps.JavaSubscribeListAdds | EMF/java/edgex-emf/src/main/java/org/edgexfoundry/emf/EMFSubscriber.java:257-271 | an OK subscribe(list) met only valid entries, had a socket unless the list was empty, and added exactly the entries' normalised prefixes |
| SubscribeSteps.JavaUnsubscribeListRemoves | EMF/java/edgex-emf/src/main/java/org/edgexfoundry/emf/EMFSubscriber.java:387-400 | an OK corrected unSubscribe(list) met only valid entries, had a socket unless the list was empty, and removed exactly the entries' normalised prefixes |
| SubscribeSteps.JavaListsSucceed | EMF/java/edgex-emf/src/main/java/org/edgexfoundry/emf/EMFSubscriber.java:257-271 | on a socket, both Java list operations are OK exactly when every entry validates |
| SubscribeSteps.JavaListSubscribeThenUnsubscribe | EMF/java/edgex-emf/src/main/java/org/edgexfoundry/emf/EMFSubscriber.java:387-400 | corrected: unSubscribe(list) after an OK subscribe(list) of the same list is OK and restores the subscriptions |
| SubscribeSteps.CppSubscribeAll | EMF/cpp/src/EMFSubscriber.cpp:172-176 | OK exactly when the socket exists and the option is set, adding the empty prefix |
| SubscribeSteps.CppUnsubscribeAll | EMF/cpp/src/EMFSubscriber.cpp:242-246 | OK exactly when the socket exists and the option is set, removing one empty prefix |
| SubscribeSteps.CppSubscribe | EMF/cpp/src/EMFSubscriber.cpp:178-189 | INVALID_TOPIC exactly for a rejected topic; OK adds the normalised topic's prefix |
| SubscribeSteps.CppUnsubscribe | EMF/cpp/src/EMFSubscriber.cpp:248-259 | INVALID_TOPIC exactly for a rejected topic; OK removes the normalised topic's prefix |
| SubscribeSteps.CppSubscribeThenUnsubscribe | EMF/cpp/src/EMFSubscriber.cpp:248-259 | subscribe then unsubscribe of the same topic restores the subscriptions |
| SubscribeSteps.CppSubscribeList | EMF/cpp/src/EMFSubscriber.cpp:221-240 | an empty list is INVALID_TOPIC; the socket stays the same |
| SubscribeSteps.CppUnsubscribeList | EMF/cpp/src/EMFSubscriber.cpp:290-308 | an empty list is INVALID_TOPIC; the socket stays the same |
| SubscribeSteps.TopicPrefixes | EMF/cpp/src/EMFSubscriber.cpp:221-240 | one prefix per topic |
| SubscribeSteps.CppSubscribeFoldAdds | EMF/cpp/src/EMFSubscriber.cpp:221-240 | an OK fold added exactly the topics' normalised prefixes |
| SubscribeSteps.CppSubscribeListAdds | EMF/cpp/src/EMFSubscriber.cpp:221-240 | an OK list subscribe had a socket and a non-empty list, and added exactly the topics' prefixes |
| SubscribeSteps.CppUnsubscribeFoldRemoves | EMF/cpp/src/EMFSubscriber.cpp:290-308 | an OK fold removed exactly the topics' normalised prefixes |
| SubscribeSteps.MultisetDifferenceTwice | EMF/cpp/src/EMFSubscriber.cpp:290-308 | removing two groups of prefixes one after the other removes their union |
| SubscribeSteps.CppUnsubscribeListRemoves | EMF/cpp/src/EMFSubscriber.cpp:290-308 | an OK list unsubscribe had a socket and a non-empty list, and removed exactly the topics' prefixes |
| SubscribeSteps.CppFoldOkTopicsValid | EMF/cpp/src/EMFSubscriber.cpp:221-240 | an OK subscribe or unsubscribe fold met only valid topics |
| SubscribeSteps.CppFoldSucceeds | EMF/cpp/src/EMFSubscriber.cpp:290-308 | with a socket, valid topics and every option accepted, both folds are OK |
| SubscribeSteps.CppListsSucceed | EMF/cpp/src/EMFSubscriber.cpp:221-240 | the converse of the list lemmas: a non-empty list of valid topics on a socket whose options are all accepted is OK for both list operations |
| SubscribeSteps.GoSubscribeAll | EMF/go/emf/emfsubscriber.go:139-141 | OK exactly when the socket exists and the option is set, adding the empty prefix |
| SubscribeSteps.GoUnsubscribeAll | EMF/go/emf/emfsubscriber.go:188-190 | OK exactly when the socket exists and the option is set, removing one empty prefix |
| SubscribeSteps.GoSubscribe | EMF/go/emf/emfsubscriber.go:144-152 | INVALID_TOPIC exactly for a rejected topic; OK adds the normalised topic's prefix |
| SubscribeSteps.GoUnsubscribe | EMF/go/emf/emfsubscriber.go:197-205 | INVALID_TOPIC exactly for a rejected topic; OK removes the normalised topic's prefix |
| SubscribeSteps.GoSubscribeAgreesWithCpp | EMF/go/emf/emfsubscriber.go:123-152 | Go subscribe/unsubscribe behave exactly as C++ |
| SubscribeSteps.GoSubscribeList | EMF/go/emf/emfsubscriber.go:161-172 | an empty list is INVALID_TOPIC; the socket stays the same |
| SubscribeSteps.GoUnsubscribeList | EMF/go/emf/emfsubscriber.go:214-225 | an empty list is INVALID_TOPIC; the socket stays the same |
| SubscribeSteps.GoListsAgreeWithCpp | EMF/go/emf/emfsubscriber.go:161-225 | the Go list operations behave exactly as the C++ ones |
| SubscribeSteps.GoSubscribeListReportsInvalidTopic | EMF/go/emf/emfsubscriber.go:161-172 | an invalid topic in a Go subscribe list is reported as INVALID_TOPIC |
| ReceiveLoops.DrainJava | EMF/java/edgex-emf/src/main/java/org/edgexfoundry/emf/EMFSubscriber.java:273-320 | the Java receive loop makes exactly the callbacks JavaDeliveries assigns to the queue |
| ReceiveLoops.DrainParsed | EMF/cpp/src/EMFSubscriber.cpp:48-109 | the C++/Go receive loop makes exactly the callbacks, leaves exactly the frames and reports exactly the failure that ParsedDeliveriesUntil assigns to the queue and the read outcomes |
| ReceiveLoops.ParsedDeliveriesCount | EMF/go/emf/emfsubscriber.go:52-90 | one callback per queued publication |
| Subscriber.JavaSubscriber.constructor | EMF/java/edgex-emf/src/main/java/org/edgexfoundry/emf/EMFSubscriber.java:58-64 | idle, not hung, nothing delivered, takes the API's current context |
| Subscriber.JavaSubscriber.Start | EMF/java/edgex-emf/src/main/java/org/edgexfoundry/emf/EMFSubscriber.java:128-181 | no context: ERROR, nothing changes; a socket to create on a terminated context, or a failed connect: ERROR and everything closed again; otherwise OK with a connected SUB socket, both PAIR sockets on the shutdown address, poller and a running receiver thread; a second start keeps the sockets and starts a receiver only when mThread is not set; a failed start's stop keeps the sockets when its teardown throws; the shutdown PAIR bind and connect are assumed to succeed |
| Subscriber.JavaSubscriber.Arrival | EMF/java/edgex-emf/src/main/java/org/edgexfoundry/emf/EMFSubscriber.java:284-293 | a message reaches the SUB socket through its filter; nothing else changes |
| Subscriber.JavaSubscriber.Receive | EMF/java/edgex-emf/src/main/java/org/edgexfoundry/emf/EMFSubscriber.java:273-320 | with a running receiver, the queue is emptied and its callbacks appended to the delivered ones; otherwise nothing changes |
| Subscriber.JavaSubscriber.SubscribeAll | EMF/java/edgex-emf/src/main/java/org/edgexfoundry/emf/EMFSubscriber.java:197-199 | result and socket are JavaSubscribeAll of the old socket; nothing else changes |
| Subscriber.JavaSubscriber.Subscribe | EMF/java/edgex-emf/src/main/java/org/edgexfoundry/emf/EMFSubscriber.java:212-221 | result and socket are JavaSubscribe of the old socket; nothing else changes |
| Subscriber.JavaSubscriber.UnsubscribeAll | EMF/java/edgex-emf/src/main/java/org/edgexfoundry/emf/EMFSubscriber.java:327-329 | result and socket are JavaUnsubscribeAll of the old socket; nothing else changes |
| Subscriber.JavaSubscriber.Unsubscribe | EMF/java/edgex-emf/src/main/java/org/edgexfoundry/emf/EMFSubscriber.java:342-352 | result and socket are the corrected JavaUnsubscribe of the old socket; nothing else changes |
| Subscriber.JavaSubscriber.SubscribeList | EMF/java/edgex-emf/src/main/java/org/edgexfoundry/emf/EMFSubscriber.java:257-271 | the loop's result and socket are JavaSubscribeList of the old socket |
| Subscriber.JavaSubscriber.UnsubscribeList | EMF/java/edgex-emf/src/main/java/org/edgexfoundry/emf/EMFSubscriber.java:387-400 | the loop's result and socket are the corrected JavaUnsubscribeList of the old socket |
| Subscriber.JavaSubscriber.Stop | EMF/java/edgex-emf/src/main/java/org/edgexfoundry/emf/EMFSubscriber.java:407-460 | delivers nothing; with a running receiver and a message queued, stop never returns (hung) and nothing else changes; otherwise the receiver has ended, and the result is OK exactly when nothing was open or teardown completes, leaving everything closed, while a throwing teardown keeps every handle |
| Subscriber.JavaStopWithPendingMessageScenario | EMF/java/edgex-emf/src/main/java/org/edgexfoundry/emf/EMFSubscriber.java:407-421 | a message queued at a running subscriber makes stop hang, with nothing delivered |
| Subscriber.JavaStopAfterReceiveScenario | EMF/java/edgex-emf/src/main/java/org/edgexfoundry/emf/EMFSubscriber.java:407-460 | once the receiver has delivered the queued message, stop is OK and everything is closed |
| Subscriber.JavaStartAfterFailedTeardownScenario | EMF/java/edgex-emf/src/main/java/org/edgexfoundry/emf/EMFSubscriber.java:168-177 | after a stop whose teardown throws, a queued message is never delivered and the next start is OK without a running receiver |
| Subscriber.CppSubscriber.constructor | EMF/cpp/src/EMFSubscriber.cpp:22-35 | nothing open, no poll items, no receiver, not hung |
| Subscriber.CppSubscriber.Start | EMF/cpp/src/EMFSubscriber.cpp:111-170 | no context: ERROR; connect failure: ERROR with the unconnected socket kept and no poll items, receiver or thread; otherwise OK with both poll items and a looping receiver; a second start only starts a missing receiver, and starting one over a thread still joinable ends the process; the shutdown PAIR bind and connect are assumed to succeed |
| Subscriber.CppSubscriber.Arrival | EMF/cpp/src/EMFSubscriber.cpp:62-79 | a message reaches the SUB socket through its filter; nothing else changes |
| Subscriber.CppSubscriber.Receive | EMF/cpp/src/EMFSubscriber.cpp:48-109 | a looping receiver appends the callbacks of the messages it reads; a failed read leaves the rest queued, clears the flag and ends the loop, leaving the thread joinable |
| Subscriber.CppSubscriber.SubscribeAll | EMF/cpp/src/EMFSubscriber.cpp:172-176 | result and socket are CppSubscribeAll of the old socket; nothing else changes |
| Subscriber.CppSubscriber.Subscribe | EMF/cpp/src/EMFSubscriber.cpp:178-189 | result and socket are CppSubscribe of the old socket; nothing else changes |
| Subscriber.CppSubscriber.UnsubscribeAll | EMF/cpp/src/EMFSubscriber.cpp:242-246 | result and socket are CppUnsubscribeAll of the old socket; nothing else changes |
| Subscriber.CppSubscriber.Unsubscribe | EMF/cpp/src/EMFSubscriber.cpp:248-259 | result and socket are CppUnsubscribe of the old socket; nothing else changes |
| Subscriber.CppSubscriber.SubscribeList | EMF/cpp/src/EMFSubscriber.cpp:221-240 | the loop's result and socket are CppSubscribeList of the old socket |
| Subscriber.CppSubscriber.UnsubscribeList | EMF/cpp/src/EMFSubscriber.cpp:290-308 | the loop's result and socket are CppUnsubscribeList of the old socket |
| Subscriber.CppSubscriber.Stop | EMF/cpp/src/EMFSubscriber.cpp:310-367 | delivers nothing; with a looping receiver and a message queued, stop never returns (hung) and nothing else changes; otherwise OK, poll items and flags reset, and the sockets closed only if there is a thread to join |
| Subscriber.CppRestartAfterFailedStartScenario | EMF/cpp/src/EMFSubscriber.cpp:111-170 | after a failed start, the next start is OK but its receiver never loops and nothing is delivered |
| Subscriber.CppStartAfterFailedReadScenario | EMF/cpp/src/EMFSubscriber.cpp:81-86 | after the first read fails, nothing is delivered, the flag is clear and the next start ends the process |
| Subscriber.CppStopWithPendingMessageScenario | EMF/cpp/src/EMFSubscriber.cpp:310-328 | a message queued at a looping subscriber makes stop hang, with nothing delivered |
| Subscriber.GoSubscriber.constructor | EMF/go/emf/emfsubscriber.go:35-50 | no socket, no receiver, nothing delivered |
| Subscriber.GoSubscriber.Start | EMF/go/emf/emfsubscriber.go:93-121 | no context: ERROR, nothing changes; creation failure: ERROR, keeping the handle handed back if there is one; connect failure: ERROR keeping the unconnected socket; otherwise OK, connected, receiver started; a goroutine is started only when the flag is clear |
| Subscriber.GoSubscriber.Arrival | EMF/go/emf/emfsubscriber.go:64-75 | a message reaches the SUB socket through its filter; nothing else changes |
| Subscriber.GoSubscriber.Receive | EMF/go/emf/emfsubscriber.go:52-90 | a looping goroutine appends the callbacks of the messages it reads; a failed read leaves the rest queued and ends the goroutine with the flag still set |
| Subscriber.GoSubscriber.SubscribeAll | EMF/go/emf/emfsubscriber.go:139-141 | result and socket are GoSubscribeAll of the old socket; nothing else changes |
| Subscriber.GoSubscriber.Subscribe | EMF/go/emf/emfsubscriber.go:144-152 | result and socket are GoSubscribe of the old socket; nothing else changes |
| Subscriber.GoSubscriber.UnsubscribeAll | EMF/go/emf/emfsubscriber.go:188-190 | result and socket are GoUnsubscribeAll of the old socket; nothing else changes |
| Subscriber.GoSubscriber.Unsubscribe | EMF/go/emf/emfsubscriber.go:197-205 | result and socket are GoUnsubscribe of the old socket; nothing else changes |
| Subscriber.GoSubscriber.SubscribeList | EMF/go/emf/emfsubscriber.go:161-172 | the loop's result and socket are GoSubscribeList of the old socket |
| Subscriber.GoSubscriber.UnsubscribeList | EMF/go/emf/emfsubscriber.go:214-225 | the loop's result and socket are GoUnsubscribeList of the old socket |
| Subscriber.GoSubscriber.Stop | EMF/go/emf/emfsubscriber.go:228-240 | OK exactly when there is no socket or close works, and then nothing is left open; a failed close changes nothing |
| Subscriber.GoStartAfterFailedReadScenario | EMF/go/emf/emfsubscriber.go:64-71 | after the first read fails, a second Start is OK but no goroutine reads any more |
| Subscriber.GoStartAfterFailedCreateScenario | EMF/go/emf/emfsubscriber.go:99-111 | after a creation failure that handed back a handle, the next Start is OK with a socket never connected |
| PubSub.TopicFilter | EMF/cpp/src/EMFSubscriber.cpp:191-219 | a subscription to s lets a publication on p through exactly when normalised s is a prefix of normalised p |
| PubSub.SubscriptionMatchesSegments | EMF/cpp/src/EMFSubscriber.cpp:191-219 | a subscription lets a publication through exactly when its normalised segments start the publication's segments, so matching is by whole path segments |
| PubSub.WholeSegments | EMF/cpp/src/EMFSubscriber.cpp:396-417 | "home" matches "home/kitchen" but not "homeoffice" |
| PubSub.TaggedArrivalDelivered | EMF/cpp/src/EMFSubscriber.cpp:48-109 | an admitted tagged message becomes one topic callback after the queued ones |
| PubSub.UnsubscribedTopicDropped | EMF/cpp/src/EMFSubscriber.cpp:191-219 | a message no subscription prefixes is dropped |
| PubSub.CppListPublishDelivered | EMF/cpp/src/EMFPublisher.cpp:174-192 | after an OK C++ list publish, a receiver of the whole wire calls back once per topic, in list order |
| PubSub.GoListPublishDelivered | EMF/go/emf/emfpublisher.go:155-166 | the same for the Go list publish |
| PubSub.ExpectedTopics | EMF/cpp/src/EMFSubscriber.cpp:70-100 | the i-th callback carries the i-th topic, normalised |

## Left out

- Threads, locks and the blocking of the receiver: the receiver thread or goroutine is modelled by a receive loop run on demand (`Receive`). Which thread wins a lock is decided by the order of calls: a message is read before a stop only when `Receive` is called before `Stop`. Interleavings of callbacks with other calls are not modelled.
- Logging and the `EMFCallback`/start/stop/error callbacks of the publisher, which carry no state.
- Protobuf serialisation internals: encoding and decoding are function parameters (`Encoder`, `Decoder`, `Parser`); the converter is not part of this model.
- Finalizers and destructors, which only release what stop releases.
- `createFilter` (an empty stub) and the service-name constructors (which take no part in the behaviour modelled here).
- Sample programs.
- C++ regular expressions: the model assumes the `std::regex` branch of sanitizeTopic is compiled in.
- Network and ZeroMQ outcomes are parameters: a send outcome per wire position (`Link`), a `setsockopt` outcome per option count (`OptionOutcome`), and the bind, connect, create and close outcomes of the publisher sockets and of the subscribers' SUB sockets as booleans; the bind and connect of the subscribers' shutdown PAIR sockets are assumed to succeed (see `Subscriber.CppSubscriber.Start` below). Random and UUID address suffixes are parameters too.
- PublishSteps.CppPublishOnTopic: the C++ two-frame send is modelled with one outcome for the whole multipart message, so a C++ topic frame cannot dangle.
- Subscriber.JavaSubscriber.Stop: an exception part-way through teardown is modelled as `teardownOk == false`, keeping all handles, rather than tracking which close threw. A failure of the shutdown send, before the join, is not modelled. After `hung` is set, the returned code and later calls mean nothing.
- Subscriber.CppSubscriber.Stop: a throwing close is not modelled; the sockets are closed, and close successfully, whenever there is a joinable thread to join. After `hung` is set, later calls mean nothing.
- Publisher.GoPublisher.Start: the panic on a failed socket creation is folded into `bindOk`. The socket is created from the global instance's context, which the model identifies with the context captured at construction.
- Subscriber.GoSubscriber.Start: the Go subscriber creates its socket on the default ZeroMQ context. The model checks the context captured at construction instead.
- Subscriber.CppSubscriber.Start: subscriber socket creation on a terminated context is not modelled as a failure; only the connect outcome is.
- Subscriber.CppSubscriber.Start, Subscriber.JavaSubscriber.Start: the bind of the shutdown PAIR server and the connect of its client are assumed to succeed. In C++ every constructor reseeds with `std::srand(std::time(0))` and every start names the address with `std::rand()`, so two subscribers constructed and started within one second draw the same `inproc://shutdown-N`, and the second bind throws. That start returns ERROR and keeps an unbound PAIR server: its stop has no thread to join, so nothing is closed. A later stop then sends the shutdown request to a server socket with no peer. The model's Start returns OK in that case and always pairs the two shutdown sockets. The Java address carries a random UUID.
- Context.JavaEmfApi.Terminate, Context.GoEmfApi.Terminate: a ZeroMQ context term (`mContext.term()` in Java, `context.Term()` in Go) blocks until every socket created on that context is closed. In Java these are the publishers' and subscribers' sockets, including a monitor PAIR socket that syncClose leaves open when the publisher's close throws. In Go they are the publishers' PUB and monitor sockets, since Go subscribers use the default context. The model does not count the sockets open on a context, so it returns at once; a terminate called while a publisher or subscriber still holds a socket never returns in the source.
- Publisher.MonitoredClose: the monitor's in-process address is not tracked; only the events that arrive on it are.
- SubscribeSteps.JavaSubscribe: jeromq's subscribe/unsubscribe return values are ignored by the binding, and the model treats those calls as always succeeding (`AlwaysOk`).
- Subscriber.JavaSubscriber.Unsubscribe: uses the corrected unsubscribe (see Findings); the as-written behaviour is `SubscribeSteps.JavaUnsubscribeAsWritten`.
- SubscribeSteps.JavaUnsubscribeList: is the corrected list; the code as written calls the raw-topic unSubscribe for each entry, which `SubscribeSteps.JavaUnsubscribeListAsWritten` models (see Findings).
- Subscriber.JavaSubscriber.UnsubscribeList: runs the corrected list, so it does not promise the as-written removal of each raw topic.
- Subscriber.CppSubscriber.Receive: a read is one outcome per message (`RecvOutcome`); a failure of the second frame's read after the topic frame was taken, which would leave half a message, is not modelled.
- Subscriber.GoSubscriber.Receive: the error of the payload frame's read is overwritten by the shadowing `err` of the unmarshalling (emfsubscriber.go:74-78), so it stops nothing; the model reads the payload as it reads the topic, with one outcome per message.
- Framing.JavaCallbacks: the Java topic callback decodes the topic frame with `new String(bytes)`, in the platform's default charset; the model reads one character per byte, which agrees with that only for ASCII topics (every topic a binding publishes, but not every frame another publisher may send).
- Subscriber.JavaSubscriber.Receive: a jeromq exception inside the Java receiver thread is not modelled; the Java loop always drains the queue.
- Subscriber.CppSubscriber.Start: after `aborted` is set (std::terminate) the returned code and later calls mean nothing; the model does not stop the object from being used.
- Subscriber.GoSubscriber.Start, Context.GoEmfApi.Initialize: whether the zmq4 package hands back an object together with its error is a parameter (`handleOnError`); that package is not part of this model. Such a socket is modelled as one never connected, whose options follow the option outcome oracle.

## Findings

| source | as written | input that shows it | evidently intended | confidence | as-written member | corrected member |
|---|---|---|---|---|---|---|
| EMF/java/edgex-emf/src/main/java/org/edgexfoundry/emf/EMFSubscriber.java:342-352 | unSubscribe(topic) validates the topic but passes the raw topic, not the normalised one, to unSubscribeInternal | subscribe("a") then unSubscribe("a") on a fresh socket: "a/" was subscribed, "a" is unsubscribed, so "a/" stays | unsubscribe the normalised topic that subscribe(topic) added | not executed | SubscribeSteps.JavaUnsubscribeAsWritten (shown by SubscribeSteps.JavaUnsubscribeCounterexample) | SubscribeSteps.JavaUnsubscribe (proved by SubscribeSteps.JavaSubscribeThenUnsubscribe) |
| EMF/java/edgex-emf/src/main/java/org/edgexfoundry/emf/EMFSubscriber.java:387-400 | unSubscribe(list) runs each entry through the raw-topic unSubscribe(topic) | subscribe(["a"]) then unSubscribe(["a"]): both report OK, "a/" stays subscribed | unsubscribe each entry's normalised topic, undoing subscribe(list) | not executed | SubscribeSteps.JavaUnsubscribeListAsWritten (shown by SubscribeSteps.JavaListUnsubscribeLeavesTopic) | SubscribeSteps.JavaUnsubscribeList (proved by SubscribeSteps.JavaListSubscribeThenUnsubscribe) |

=== FILE: address.dfy ===
/*
 * Endpoint strings built by the bindings: the TCP endpoint a publisher binds,
 * the TCP endpoint a subscriber connects to, and the in-process endpoints of
 * the subscriber's shutdown channel and of the publisher's close monitor.
 * The random parts (UUID, std::rand, Go rand) are parameters.
 */
module Address {
  import opened EmfTypes
  import opened Topic

  const PubTcpPrefix := "tcp://*:"
  const SubTcpPrefix := "tcp://"
  const ShutdownPrefix := "inproc://shutdown-"
  const MonitorPrefix := "inproc://monitor-"

  predicate IsDigit(c: char)
  {
    '0' <= c <= '9'
  }

  predicate AllDigits(s: string)
  {
    forall i :: 0 <= i < |s| ==> IsDigit(s[i])
  }

  function DigitChar(d: nat): (c: char)
    requires d < 10
    ensures IsDigit(c)
  {
    (d + '0' as int) as char
  }

  /** Decimal text of a natural number, without leading zeros. */
  function NatToDecimal(n: nat): (s: string)
    ensures |s| > 0 && AllDigits(s)
    ensures s[0] == '0' ==> n == 0
  {
    if n < 10 then [DigitChar(n)] else NatToDecimal(n / 10) + [DigitChar(n % 10)]
  }

  /** Value of a string of decimal digits. */
  function DecimalValue(s: string): nat
    requires AllDigits(s)
  {
    if s == [] then 0
    else 10 * DecimalValue(s[..|s| - 1]) + (s[|s| - 1] as int - '0' as int)
  }

  /** Reading the decimal text of `n` gives `n` back. */
  lemma {:induction false} DecimalRoundTrip(n: nat)
    ensures DecimalValue(NatToDecimal(n)) == n
  {
    var s := NatToDecimal(n);
    if n >= 10 {
      DecimalRoundTrip(n / 10);
      assert s[..|s| - 1] == NatToDecimal(n / 10);
    }
  }

  /** Integer.toString / std::to_string / strconv.Itoa: optional '-' then the digits of the magnitude. */
  function IntToDecimal(n: int): (s: string)
    ensures |s| > 0
    ensures forall i :: 0 <= i < |s| ==> s[i] != ':'
  {
    if n < 0 then "-" + NatToDecimal(-n) else NatToDecimal(n)
  }

  /** Inverse of IntToDecimal on the strings it produces. */
  function ParseInt(s: string): Option<int>
  {
    if |s| > 0 && s[0] == '-' && AllDigits(s[1..]) then Some(-(DecimalValue(s[1..]) as int))
    else if AllDigits(s) then Some(DecimalValue(s))
    else None
  }

  lemma IntRoundTrip(n: int)
    ensures ParseInt(IntToDecimal(n)) == Some(n)
  {
    if n < 0 {
      var d := NatToDecimal(-n);
      assert ("-" + d)[1..] == d;
      DecimalRoundTrip(-n);
    } else {
      DecimalRoundTrip(n);
    }
  }

  /** Different ports are printed differently. */
  lemma IntToDecimalInjective(a: int, b: int)
    requires IntToDecimal(a) == IntToDecimal(b)
    ensures a == b
  {
    IntRoundTrip(a);
    IntRoundTrip(b);
  }

  /** Number of decimal digits of `n` is at most `k` when `n < 10^k`. */
  function Pow10(k: nat): nat
  {
    if k == 0 then 1 else 10 * Pow10(k - 1)
  }

  lemma {:induction false} DecimalLength(n: nat, k: nat)
    requires 0 < k && n < Pow10(k)
    ensures |NatToDecimal(n)| <= k
  {
    if n >= 10 {
      assert k > 1;
      DecimalLength(n / 10, k - 1);
    }
  }

  /** EMFPublisher getSocketAddress (all bindings): the wildcard TCP endpoint on `port`. */
  function PubSocketAddress(port: int): (a: string)
    ensures PubTcpPrefix <= a
    ensures ParseInt(a[|PubTcpPrefix|..]) == Some(port)
  {
    IntRoundTrip(port);
    assert (PubTcpPrefix + IntToDecimal(port))[|PubTcpPrefix|..] == IntToDecimal(port);
    PubTcpPrefix + IntToDecimal(port)
  }

  /** EMFSubscriber getSocketAddress / getSubSocketAddress: TCP endpoint of the publisher at `ip`:`port`. */
  function SubSocketAddress(ip: string, port: int): (a: string)
    ensures SubTcpPrefix <= a
  {
    SubTcpPrefix + ip + ":" + IntToDecimal(port)
  }

  /** In `h + d` with `h` ending in ':' and no ':' in `d`, the last ':' is the end of `h`. */
  lemma LastColonSplit(h: string, d: string)
    requires |h| > 0 && h[|h| - 1] == ':'
    requires forall i :: 0 <= i < |d| ==> d[i] != ':'
    ensures LastIndexOf(h + d, ':') == |h| - 1
  {
    var s := h + d;
    var k := LastIndexOf(s, ':');
    assert s[|h| - 1] == ':';
    assert forall j :: |h| <= j < |s| ==> s[j] == d[j - |h|];
  }

  /** The subscriber endpoint determines the host and the port it was built from. */
  lemma SubSocketAddressInjective(ip1: string, p1: int, ip2: string, p2: int)
    requires SubSocketAddress(ip1, p1) == SubSocketAddress(ip2, p2)
    ensures ip1 == ip2 && p1 == p2
  {
    var a := SubSocketAddress(ip1, p1);
    var d1, d2 := IntToDecimal(p1), IntToDecimal(p2);
    var h1, h2 := SubTcpPrefix + ip1 + ":", SubTcpPrefix + ip2 + ":";
    assert a == h1 + d1 == h2 + d2;
    LastColonSplit(h1, d1);
    LastColonSplit(h2, d2);
    assert d1 == a[|h1|..] == d2;
    IntToDecimalInjective(p1, p2);
    assert h1 == a[..|h1|] == h2;
    assert ip1 == h1[|SubTcpPrefix|..|h1| - 1] == ip2;
  }

  /** In-process endpoint of the subscriber's shutdown channel, unique per `suffix`. */
  function ShutdownAddress(suffix: string): (a: string)
    ensures ShutdownPrefix <= a && a[|ShutdownPrefix|..] == suffix
  {
    ShutdownPrefix + suffix
  }

  /** In-process endpoint of the close monitor (Java UUID, C++ std::rand text). */
  function MonitorAddress(suffix: string): (a: string)
    ensures MonitorPrefix <= a && a[|MonitorPrefix|..] == suffix
  {
    MonitorPrefix + suffix
  }

  /** getMonitorAddress (Go): the suffix is rand.Intn(10000), at most four digits. */
  function GoMonitorAddress(k: int): (a: string)
    requires 0 <= k < 10000
    ensures MonitorPrefix <= a
    ensures |MonitorPrefix| < |a| <= |MonitorPrefix| + 4
    ensures AllDigits(a[|MonitorPrefix|..])
  {
    DecimalLength(k, 4);
    MonitorAddress(IntToDecimal(k))
  }
}

=== FILE: context.dfy ===
/*
 * The process-wide EMFAPI object of each binding: a lazily created singleton
 * that owns the ZeroMQ context the publishers and subscribers take at
 * construction, and reports a status code.
 */
module Context {
  import opened EmfTypes

  /**
   * A ZeroMQ context; `terminated` is set by zmq term. No socket can be
   * created on a terminated context, nor on one whose creation failed.
   */
  class ZmqContext {
    var terminated: bool

    constructor()
      ensures !terminated
    {
      terminated := false;
    }

    /** The object handed back together with a creation error: unusable from the start. */
    constructor Failed()
      ensures terminated
    {
      terminated := true;
    }
  }

  /** EMFAPI (Java): initialize always builds a new context. */
  class JavaEmfApi {
    var status: StatusCode
    var context: ZmqContext?

    /** The private constructor: status Constructed, no context yet. */
    constructor()
      ensures status == Constructed && context == null
    {
      status := Constructed;
      context := null;
    }

    /** Replaces any context by a new one; always OK. */
    method Initialize() returns (r: ErrorCode)
      modifies this
      ensures r == Ok
      ensures status == Initialized
      ensures context != null && fresh(context) && !context.terminated
    {
      context := new ZmqContext();
      status := Initialized;
      r := Ok;
    }

    /**
     * Terminates and drops the context if there is one; the status changes
     * only in that case. The model does not count open sockets, so term
     * returns at once here, where ZeroMQ waits for them to close.
     */
    method Terminate() returns (r: ErrorCode)
      modifies this, context
      ensures r == Ok
      ensures context == null
      ensures old(context) != null ==> status == Terminated && old(context).terminated
      ensures old(context) == null ==> status == old(status)
    {
      if context != null {
        context.terminated := true;
        context := null;
        status := Terminated;
      }
      r := Ok;
    }

    function GetStatus(): StatusCode
      reads this
    {
      status
    }

    function GetContext(): ZmqContext?
      reads this
    {
      context
    }
  }

  /** EMFAPI (C++): the context is a shared pointer created once and reset on terminate. */
  class CppEmfApi {
    var status: StatusCode
    var context: ZmqContext?

    constructor()
      ensures status == Constructed && context == null
    {
      status := Constructed;
      context := null;
    }

    /** Creates the context only if there is none, so repeating it keeps the same context. */
    method Initialize() returns (r: ErrorCode)
      modifies this
      ensures r == Ok
      ensures status == Initialized
      ensures old(context) != null ==> context == old(context)
      ensures old(context) == null ==> context != null && fresh(context)
    {
      if context == null {
        context := new ZmqContext();
      }
      status := Initialized;
      r := Ok;
    }

    /**
     * Releases this object's reference to the context and reports Terminated,
     * whatever the state was; holders of other references keep a live context.
     */
    method Terminate() returns (r: ErrorCode)
      modifies this
      ensures r == Ok
      ensures context == null && status == Terminated
    {
      context := null;
      status := Terminated;
      r := Ok;
    }

    function GetStatus(): StatusCode
      reads this
    {
      status
    }

    function GetContext(): ZmqContext?
      reads this
    {
      context
    }
  }

  /** EMFAPI (Go): creation and termination of the context may report an error. */
  class GoEmfApi {
    var status: StatusCode
    var context: ZmqContext?

    constructor()
      ensures status == Constructed && context == null
    {
      status := Constructed;
      context := null;
    }

    /**
     * `createOk` is the outcome of zmq.NewContext when a context has to be
     * created; `handleOnError` tells whether the library hands back a context
     * object together with its error. Initialize stores whatever it is
     * handed, so after a failure with a handle the next Initialize skips
     * creation and reports OK.
     */
    method Initialize(createOk: bool, handleOnError: bool) returns (r: ErrorCode)
      modifies this
      ensures old(context) == null && !createOk ==>
                r == Error && status == old(status) &&
                (handleOnError ==> context != null && fresh(context) && context.terminated) &&
                (!handleOnError ==> context == null)
      ensures old(context) != null ==> r == Ok && status == Initialized && context == old(context)
      ensures old(context) == null && createOk ==>
                r == Ok && status == Initialized && context != null && fresh(context) && !context.terminated
    {
      if context == null {
        if !createOk {
          if handleOnError {
            context := new ZmqContext.Failed();
          }
          return Error;
        }
        context := new ZmqContext();
      }
      status := Initialized;
      r := Ok;
    }

    /**
     * `termOk` is the outcome of Context.Term. As in the Java binding, term
     * waiting for open sockets to close is not modelled.
     */
    method Terminate(termOk: bool) returns (r: ErrorCode)
      modifies this, context
      ensures old(context) != null && !termOk ==>
                r == Error && context == old(context) && status == old(status)
      ensures old(context) == null || termOk ==> r == Ok && context == null && status == Terminated
      ensures old(context) != null && termOk ==> old(context).terminated
    {
      if context != null {
        if !termOk {
          return Error;
        }
        context.terminated := true;
        context := null;
      }
      status := Terminated;
      r := Ok;
    }

    function GetStatus(): StatusCode
      reads this
    {
      status
    }

    function GetContext(): ZmqContext?
      reads this
    {
      context
    }
  }

  /** The static `mInstance` field of EMFAPI (Java) and its synchronized getInstance. */
  class JavaEmfApiHolder {
    var instance: JavaEmfApi?

    constructor()
      ensures instance == null
    {
      instance := null;
    }

    method GetInstance() returns (api: JavaEmfApi)
      modifies this
      ensures instance == api
      ensures old(instance) != null ==> api == old(instance)
      ensures old(instance) == null ==> fresh(api) && api.status == Constructed && api.context == null
    {
      if instance == null {
        instance := new JavaEmfApi();
      }
      api := instance;
    }
  }

  /** The function-static instance behind EMFAPI::getInstance (C++). */
  class CppEmfApiHolder {
    var instance: CppEmfApi?

    constructor()
      ensures instance == null
    {
      instance := null;
    }

    method GetInstance() returns (api: CppEmfApi)
      modifies this
      ensures instance == api
      ensures old(instance) != null ==> api == old(instance)
      ensures old(instance) == null ==> fresh(api) && api.status == Constructed && api.context == null
    {
      if instance == null {
        instance := new CppEmfApi();
      }
      api := instance;
    }
  }

  /** The package-level `instance` variable behind GetInstance (Go). */
  class GoEmfApiHolder {
    var instance: GoEmfApi?

    constructor()
      ensures instance == null
    {
      instance := null;
    }

    method GetInstance() returns (api: GoEmfApi)
      modifies this
      ensures instance == api
      ensures old(instance) != null ==> api == old(instance)
      ensures old(instance) == null ==> fresh(api) && api.status == Constructed && api.context == null
    {
      if instance == null {
        instance := new GoEmfApi();
      }
      api := instance;
    }
  }

  /** getInstance twice yields one object, so an initialize through either call is seen by both. */
  method SingletonScenario() returns (same: bool, status: StatusCode, hasContext: bool)
    ensures same && status == Initialized && hasContext
  {
    var holder := new JavaEmfApiHolder();
    var a := holder.GetInstance();
    var b := holder.GetInstance();
    same := a == b;
    var r := a.Initialize();
    status := b.GetStatus();
    hasContext := b.GetContext() != null;
  }

  /** C++ lifecycle: Constructed, then Initialized, then Terminated; initialize twice keeps the context. */
  method CppLifecycleScenario() returns (s0: StatusCode, s1: StatusCode, sameContext: bool, s2: StatusCode)
    ensures s0 == Constructed && s1 == Initialized && sameContext && s2 == Terminated
  {
    var api := new CppEmfApi();
    s0 := api.GetStatus();
    var r := api.Initialize();
    var c := api.GetContext();
    r := api.Initialize();
    s1 := api.GetStatus();
    sameContext := c == api.GetContext();
    r := api.Terminate();
    s2 := api.GetStatus();
  }

  /** Java terminate without a context leaves a Constructed instance Constructed and returns OK. */
  method JavaTerminateWithoutContextScenario() returns (r: ErrorCode, s: StatusCode)
    ensures r == Ok && s == Constructed
  {
    var api := new JavaEmfApi();
    r := api.Terminate();
    s := api.GetStatus();
  }

  /**
   * Go: a failed initialize that was handed a context object keeps it, so
   * the next initialize reports OK and Initialized over an unusable context.
   */
  method GoInitializeAfterFailureScenario() returns (r1: ErrorCode, r2: ErrorCode, s: StatusCode, usable: bool)
    ensures r1 == Error && r2 == Ok && s == Initialized && !usable
  {
    var api := new GoEmfApi();
    r1 := api.Initialize(false, true);
    r2 := api.Initialize(true, true);
    s := api.GetStatus();
    usable := api.GetContext() != null && !api.GetContext().terminated;
  }

  /** Go terminate without a context still reports Terminated. */
  method GoTerminateWithoutContextScenario() returns (r: ErrorCode, s: StatusCode)
    ensures r == Ok && s == Terminated
  {
    var api := new GoEmfApi();
    r := api.Terminate(false);
    s := api.GetStatus();
  }
}

=== FILE: framing.dfy ===
/*
 * How events travel: a publication is one frame (the payload) or two frames
 * (the normalised topic flagged "more", then the payload), and one step of a
 * subscriber's receive loop reads one such message and turns it into a call
 * of the plain or the topic callback.
 */
module Framing {
  import opened EmfTypes
  import opened Topic

  /** publish(event): one frame holding the serialised event. */
  function PlainMessage(payload: Bytes): (m: seq<Frame>)
    ensures IsMessage(m) && |m| == 1 && m[0].data == payload
  {
    [Frame(payload, false)]
  }

  /** publish(topic, event): the topic frame with the "more" flag, then the payload frame. */
  function TaggedMessage(topic: string, payload: Bytes): (m: seq<Frame>)
    requires IsNormalTopic(topic)
    ensures IsMessage(m) && |m| == 2
    ensures BytesText(m[0].data) == topic && m[1].data == payload
  {
    TopicBytesRoundTrip(topic);
    [Frame(TopicBytes(topic), true), Frame(payload, false)]
  }

  /** What one step of the receive loop reads: an optional topic frame and the payload frame. */
  datatype Received = Received(topic: Option<Bytes>, payload: Bytes)

  /**
   * One receive step: read a frame; if more follow, it was the topic and the
   * next frame is the payload.
   */
  function ReadOne(inbox: seq<Frame>): (r: (Received, seq<Frame>))
    requires inbox != [] && WellFramed(inbox)
    ensures WellFramed(r.1) && |r.1| < |inbox|
    ensures r.0.topic.Some? <==> inbox[0].more
  {
    if inbox[0].more then (Received(Some(inbox[0].data), inbox[1].data), inbox[2..])
    else (Received(None, inbox[0].data), inbox[1..])
  }

  /** What is left after reading one message is a suffix of the queue: frames are read in order, none skipped. */
  lemma ReadOneSuffix(inbox: seq<Frame>)
    requires inbox != [] && WellFramed(inbox)
    ensures ReadOne(inbox).1 == inbox[|inbox| - |ReadOne(inbox).1|..]
  {
  }

  /** Java dispatch: a callback only when the converter returns an event. */
  function JavaCallbacks(rd: Received, decode: Decoder): (cs: seq<Callback>)
    ensures |cs| <= 1
    ensures |cs| == 1 <==> decode(rd.payload).Some?
    ensures |cs| == 1 ==> cs[0].event == decode(rd.payload).value &&
                          (cs[0].OnTopicMessage? <==> rd.topic.Some?)
  {
    match decode(rd.payload)
    case None => []
    case Some(e) =>
      if rd.topic.None? then [OnMessage(e)] else [OnTopicMessage(BytesText(rd.topic.value), e)]
  }

  /** C++ and Go dispatch: the parse result is not checked, so every message reaches a callback. */
  function ParsedCallback(rd: Received, parse: Parser): (c: Callback)
    ensures c.event == parse(rd.payload)
    ensures c.OnTopicMessage? <==> rd.topic.Some?
  {
    if rd.topic.None? then OnMessage(parse(rd.payload))
    else OnTopicMessage(BytesText(rd.topic.value), parse(rd.payload))
  }

  /** Callbacks made by the Java receive loop while it drains `inbox`. */
  function JavaDeliveries(inbox: seq<Frame>, decode: Decoder): seq<Callback>
    requires WellFramed(inbox)
    decreases |inbox|
  {
    if inbox == [] then []
    else
      var r := ReadOne(inbox);
      JavaCallbacks(r.0, decode) + JavaDeliveries(r.1, decode)
  }

  /** Callbacks made by the C++ or Go receive loop while it drains `inbox`. */
  function ParsedDeliveries(inbox: seq<Frame>, parse: Parser): seq<Callback>
    requires WellFramed(inbox)
    decreases |inbox|
  {
    if inbox == [] then []
    else
      var r := ReadOne(inbox);
      [ParsedCallback(r.0, parse)] + ParsedDeliveries(r.1, parse)
  }

  /** `recvOk(k)` is false when reading the message that follows the `k`-th callback fails. */
  type RecvOutcome = nat -> bool

  /**
   * The C++ and Go receive loops when a read can fail: starting after `k`
   * callbacks, the callbacks made, the frames left queued, and whether the
   * loop stopped on a failed read (the message it could not read stays queued).
   */
  function ParsedDeliveriesUntil(q: seq<Frame>, parse: Parser, recvOk: RecvOutcome, k: nat)
    : (r: (seq<Callback>, seq<Frame>, bool))
    requires WellFramed(q)
    ensures WellFramed(r.1)
    ensures !r.2 ==> r.1 == []
    decreases |q|
  {
    if q == [] then ([], [], false)
    else if !recvOk(k) then ([], q, true)
    else
      var rd := ReadOne(q);
      var rest := ParsedDeliveriesUntil(rd.1, parse, recvOk, k + 1);
      ([ParsedCallback(rd.0, parse)] + rest.0, rest.1, rest.2)
  }

  /** One step of the C++ and Go receive loops on a non-empty queue. */
  lemma ParsedDeliveriesUnfold(q: seq<Frame>, parse: Parser)
    requires q != [] && WellFramed(q)
    ensures ParsedDeliveries(q, parse) == [ParsedCallback(ReadOne(q).0, parse)] + ParsedDeliveries(ReadOne(q).1, parse)
  {
  }

  /** One successful read: the loop makes that message's callback and goes on after it. */
  lemma ParsedDeliveriesUntilUnfold(q: seq<Frame>, parse: Parser, recvOk: RecvOutcome, k: nat)
    requires q != [] && WellFramed(q) && recvOk(k)
    ensures var rest := ParsedDeliveriesUntil(ReadOne(q).1, parse, recvOk, k + 1);
            ParsedDeliveriesUntil(q, parse, recvOk, k) == ([ParsedCallback(ReadOne(q).0, parse)] + rest.0, rest.1, rest.2)
  {
  }

  /**
   * A loop that stops early stopped at a read that failed, with frames left;
   * it never leaves more frames than it was given.
   */
  lemma {:induction false} ParsedDeliveriesUntilFails(q: seq<Frame>, parse: Parser, recvOk: RecvOutcome, k: nat)
    requires WellFramed(q)
    ensures var r := ParsedDeliveriesUntil(q, parse, recvOk, k);
            |r.1| <= |q| && (r.2 ==> r.1 != [] && !recvOk(k + |r.0|))
    decreases |q|
  {
    if q != [] && recvOk(k) {
      ParsedDeliveriesUntilUnfold(q, parse, recvOk, k);
      ParsedDeliveriesUntilFails(ReadOne(q).1, parse, recvOk, k + 1);
    }
  }

  /**
   * A stopped loop made the callbacks of the messages before the one it could
   * not read: with those of the messages left queued they are all the
   * callbacks of the queue.
   */
  lemma {:induction false} ParsedDeliveriesUntilSplit(q: seq<Frame>, parse: Parser, recvOk: RecvOutcome, k: nat)
    requires WellFramed(q)
    ensures var r := ParsedDeliveriesUntil(q, parse, recvOk, k);
            r.0 + ParsedDeliveries(r.1, parse) == ParsedDeliveries(q, parse)
    decreases |q|
  {
    if q != [] && recvOk(k) {
      var rd := ReadOne(q);
      var rest := ParsedDeliveriesUntil(rd.1, parse, recvOk, k + 1);
      ParsedDeliveriesUntilSplit(rd.1, parse, recvOk, k + 1);
      ParsedDeliveriesUntilUnfold(q, parse, recvOk, k);
      ParsedDeliveriesUnfold(q, parse);
      var c := ParsedCallback(rd.0, parse);
      assert [c] + rest.0 + ParsedDeliveries(rest.1, parse) == [c] + (rest.0 + ParsedDeliveries(rest.1, parse));
    }
  }

  /** Every read before the one that stopped the loop worked: the `j`-th for each callback made. */
  lemma {:induction false} ParsedDeliveriesUntilReads(q: seq<Frame>, parse: Parser, recvOk: RecvOutcome, k: nat, j: nat)
    requires WellFramed(q) && k <= j
    ensures j < k + |ParsedDeliveriesUntil(q, parse, recvOk, k).0| ==> recvOk(j)
    decreases |q|
  {
    if q != [] && recvOk(k) && j > k {
      var n := |ParsedDeliveriesUntil(ReadOne(q).1, parse, recvOk, k + 1).0|;
      assert |ParsedDeliveriesUntil(q, parse, recvOk, k).0| == 1 + n by {
        ParsedDeliveriesUntilUnfold(q, parse, recvOk, k);
      }
      ParsedDeliveriesUntilReads(ReadOne(q).1, parse, recvOk, k + 1, j);
    }
  }

  /** With no failing read, the loop drains the whole queue and makes exactly the callbacks of ParsedDeliveries. */
  lemma {:induction false} ParsedDeliveriesUntilAllOk(q: seq<Frame>, parse: Parser, recvOk: RecvOutcome, k: nat)
    requires WellFramed(q)
    requires forall j :: k <= j < k + |q| ==> recvOk(j)
    ensures ParsedDeliveriesUntil(q, parse, recvOk, k) == (ParsedDeliveries(q, parse), [], false)
    decreases |q|
  {
    if q != [] {
      assert recvOk(k);
      var rd := ReadOne(q);
      ParsedDeliveriesUntilAllOk(rd.1, parse, recvOk, k + 1);
    }
  }

  /** One application-level publication: an optional (normal) topic and a serialised event. */
  datatype Publication = Publication(topic: Option<string>, payload: Bytes)

  predicate Publishable(ps: seq<Publication>)
  {
    forall i :: 0 <= i < |ps| ==> ps[i].topic.Some? ==> IsNormalTopic(ps[i].topic.value)
  }

  function MessageOf(p: Publication): (m: seq<Frame>)
    requires p.topic.Some? ==> IsNormalTopic(p.topic.value)
    ensures IsMessage(m)
  {
    if p.topic.None? then PlainMessage(p.payload) else TaggedMessage(p.topic.value, p.payload)
  }

  /** The frames a sequence of successful publications puts on the wire. */
  function Wire(ps: seq<Publication>): (w: seq<Frame>)
    requires Publishable(ps)
    ensures WellFramed(w)
  {
    if ps == [] then [] else MessageOf(ps[0]) + Wire(ps[1..])
  }

  /** The callbacks the application expects for those publications (C++ and Go). */
  function ExpectedParsed(ps: seq<Publication>, parse: Parser): (cs: seq<Callback>)
    ensures |cs| == |ps|
  {
    if ps == [] then []
    else
      var p := ps[0];
      var c := if p.topic.None? then OnMessage(parse(p.payload)) else OnTopicMessage(p.topic.value, parse(p.payload));
      [c] + ExpectedParsed(ps[1..], parse)
  }

  /** The callbacks the application expects for one publication (Java: none when the payload does not decode). */
  function ExpectedJavaOne(p: Publication, decode: Decoder): (cs: seq<Callback>)
    ensures |cs| <= 1
  {
    match decode(p.payload)
    case None => []
    case Some(e) => [if p.topic.None? then OnMessage(e) else OnTopicMessage(p.topic.value, e)]
  }

  /** The callbacks the application expects for those publications (Java: undecodable payloads are skipped). */
  function ExpectedJava(ps: seq<Publication>, decode: Decoder): (cs: seq<Callback>)
    ensures |cs| <= |ps|
  {
    if ps == [] then [] else ExpectedJavaOne(ps[0], decode) + ExpectedJava(ps[1..], decode)
  }

  /** Reading the first message of a wire stream gives back that publication and the rest of the stream. */
  lemma {:induction false} ReadOneOfWire(ps: seq<Publication>)
    requires Publishable(ps) && ps != []
    ensures ReadOne(Wire(ps)).1 == Wire(ps[1..])
    ensures ReadOne(Wire(ps)).0.payload == ps[0].payload
    ensures ReadOne(Wire(ps)).0.topic.Some? <==> ps[0].topic.Some?
    ensures ps[0].topic.Some? ==> BytesText(ReadOne(Wire(ps)).0.topic.value) == ps[0].topic.value
  {
    var w := Wire(ps);
    var m := MessageOf(ps[0]);
    assert w == m + Wire(ps[1..]);
    if ps[0].topic.None? {
      assert w[1..] == Wire(ps[1..]);
    } else {
      assert w[2..] == Wire(ps[1..]);
    }
  }

  /** C++ and Go: a subscriber that receives the whole stream calls back once per publication, in order. */
  lemma {:induction false} ParsedRoundTrip(ps: seq<Publication>, parse: Parser)
    requires Publishable(ps)
    ensures ParsedDeliveries(Wire(ps), parse) == ExpectedParsed(ps, parse)
  {
    if ps != [] {
      ReadOneOfWire(ps);
      assert Publishable(ps[1..]) by {
        assert forall i :: 0 <= i < |ps[1..]| ==> ps[1..][i] == ps[i + 1];
      }
      ParsedRoundTrip(ps[1..], parse);
    }
  }

  /** Java: the same, with the publications whose payload does not decode dropped. */
  lemma {:induction false} JavaRoundTrip(ps: seq<Publication>, decode: Decoder)
    requires Publishable(ps)
    ensures JavaDeliveries(Wire(ps), decode) == ExpectedJava(ps, decode)
  {
    if ps != [] {
      var w := Wire(ps);
      ReadOneOfWire(ps);
      assert Publishable(ps[1..]) by {
        assert forall i :: 0 <= i < |ps[1..]| ==> ps[1..][i] == ps[i + 1];
      }
      JavaRoundTrip(ps[1..], decode);
      JavaDeliveriesUnfold(w, decode);
      JavaFirstCallbacks(ps, decode);
    }
  }

  /** The Java callbacks for the first message of a wire stream are the expected ones for its first publication. */
  lemma {:induction false} JavaFirstCallbacks(ps: seq<Publication>, decode: Decoder)
    requires Publishable(ps) && ps != []
    ensures ExpectedJava(ps, decode) ==
            JavaCallbacks(ReadOne(Wire(ps)).0, decode) + ExpectedJava(ps[1..], decode)
  {
    ReadOneOfWire(ps);
    var rd := ReadOne(Wire(ps)).0;
    assert rd.payload == ps[0].payload;
    assert rd.topic.Some? ==> BytesText(rd.topic.value) == ps[0].topic.value;
    assert JavaCallbacks(rd, decode) == ExpectedJavaOne(ps[0], decode);
  }

  /** Concatenating two well-framed queues gives a well-framed queue. */
  lemma AppendWellFramed(a: seq<Frame>, b: seq<Frame>)
    requires WellFramed(a) && WellFramed(b)
    ensures WellFramed(a + b)
  {
    if b == [] {
      assert a + b == a;
    }
  }

  /** The first message of `a + b` is the first message of `a` when `a` is not empty. */
  lemma ReadOneAppend(a: seq<Frame>, b: seq<Frame>)
    requires a != [] && WellFramed(a) && WellFramed(b)
    ensures WellFramed(a + b)
    ensures ReadOne(a + b).0 == ReadOne(a).0
    ensures ReadOne(a + b).1 == ReadOne(a).1 + b
  {
    AppendWellFramed(a, b);
    assert (a + b)[0] == a[0];
    if a[0].more {
      assert (a + b)[1] == a[1];
      assert (a + b)[2..] == a[2..] + b;
    } else {
      assert (a + b)[1..] == a[1..] + b;
    }
  }

  /** Draining a queue in two parts delivers the callbacks of the first part, then of the second. */
  lemma {:induction false} ParsedDeliveriesAppend(a: seq<Frame>, b: seq<Frame>, parse: Parser)
    requires WellFramed(a) && WellFramed(b)
    ensures WellFramed(a + b)
    ensures ParsedDeliveries(a + b, parse) == ParsedDeliveries(a, parse) + ParsedDeliveries(b, parse)
    decreases |a|
  {
    AppendWellFramed(a, b);
    if a == [] {
      assert a + b == b;
    } else {
      var r := ReadOne(a);
      ReadOneAppend(a, b);
      ParsedDeliveriesAppend(r.1, b, parse);
    }
  }

  /** One step of the Java receive loop on a non-empty queue. */
  lemma JavaDeliveriesUnfold(q: seq<Frame>, decode: Decoder)
    requires q != [] && WellFramed(q)
    ensures JavaDeliveries(q, decode) == JavaCallbacks(ReadOne(q).0, decode) + JavaDeliveries(ReadOne(q).1, decode)
  {
  }

  /** Draining a queue in two parts makes the Java callbacks of the first part, then of the second. */
  lemma {:induction false} JavaDeliveriesAppend(a: seq<Frame>, b: seq<Frame>, decode: Decoder)
    requires WellFramed(a) && WellFramed(b)
    ensures WellFramed(a + b)
    ensures JavaDeliveries(a + b, decode) == JavaDeliveries(a, decode) + JavaDeliveries(b, decode)
    decreases |a|
  {
    AppendWellFramed(a, b);
    if a == [] {
      assert a + b == b;
    } else {
      var r := ReadOne(a);
      ReadOneAppend(a, b);
      JavaDeliveriesAppend(r.1, b, decode);
      JavaDeliveriesUnfold(a + b, decode);
      JavaDeliveriesUnfold(a, decode);
      CallbacksRegroup(JavaCallbacks(r.0, decode), JavaDeliveries(r.1, decode), JavaDeliveries(b, decode));
    }
  }

  /**
   * Callbacks made in three runs regroup freely. Stated on its own so that
   * proofs about the receive loops do not look for it among unfolded
   * deliveries.
   */
  lemma CallbacksRegroup(c: seq<Callback>, x: seq<Callback>, y: seq<Callback>)
    ensures c + (x + y) == (c + x) + y
  {
  }
}

=== FILE: publish_steps.dfy ===
/*
 * The publish operations of the three bindings as functions of the
 * publisher's state: which code each returns, and which frames it hands to
 * the PUB socket. The outcome of each send is read from a link oracle indexed
 * by the position of the frame on the wire.
 */
module PublishSteps {
  import opened EmfTypes
  import opened Topic
  import opened Framing
  import opened TopicList

  /** `link(k)` is false when handing the frame at wire position `k` to the PUB socket fails. */
  type Link = nat -> bool

  /** The endpoint the PUB socket is bound to (None: no socket) and every frame accepted so far. */
  datatype PubState = PubState(socket: Option<string>, sent: seq<Frame>)

  /** A publish never changes the socket and never takes back a frame. */
  predicate Extends(st: PubState, st': PubState)
  {
    st'.socket == st.socket && st.sent <= st'.sent
  }

  // ---------------------------------------------------------------- Java

  /** EMFPublisher.publish(event) (Java). */
  function JavaPublish(st: PubState, event: Option<Event>, encode: Encoder, link: Link): (r: (ErrorCode, PubState))
    ensures r.0 != InvalidTopic
    ensures r.0 == Ok <==> st.socket.Some? && event.Some? && encode(event.value).Some? && link(|st.sent|)
    ensures r.0 == Ok ==> r.1 == st.(sent := st.sent + PlainMessage(encode(event.value).value))
    ensures r.0 != Ok ==> r.1 == st
  {
    if st.socket.None? || event.None? then (Error, st)
    else match encode(event.value)
      case None => (Error, st)
      case Some(payload) =>
        if !link(|st.sent|) then (Error, st)
        else (Ok, st.(sent := st.sent + PlainMessage(payload)))
  }

  /**
   * EMFPublisher.publish(topic, event) (Java): socket and event are checked
   * before the topic; the topic frame is sent with sendMore, then the payload.
   */
  function JavaPublishOnTopic(st: PubState, topic: Option<string>, event: Option<Event>, encode: Encoder, link: Link)
    : (r: (ErrorCode, PubState))
    ensures Extends(st, r.1)
    ensures st.socket.None? || event.None? ==> r == (Error, st)
    ensures r.0 == InvalidTopic <==> st.socket.Some? && event.Some? && JavaValidateTopic(topic).None?
    ensures r.0 == InvalidTopic ==> r.1 == st
    ensures r.0 == Ok <==> st.socket.Some? && event.Some? && JavaValidateTopic(topic).Some? &&
                           encode(event.value).Some? && link(|st.sent|) && link(|st.sent| + 1)
    ensures r.0 == Ok ==>
      r.1.sent == st.sent + TaggedMessage(JavaValidateTopic(topic).value, encode(event.value).value)
    ensures r.0 == Error && r.1 != st ==>
      r.1.sent == st.sent + [Frame(TopicBytes(JavaValidateTopic(topic).value), true)] && !link(|st.sent| + 1)
  {
    if st.socket.None? || event.None? then (Error, st)
    else match JavaValidateTopic(topic)
      case None => (InvalidTopic, st)
      case Some(valid) =>
        match encode(event.value)
        case None => (Error, st)
        case Some(payload) =>
          if !link(|st.sent|) then (Error, st)
          else
            var st1 := st.(sent := st.sent + [Frame(TopicBytes(valid), true)]);
            if !link(|st1.sent|) then (Error, st1)
            else (Ok, st1.(sent := st1.sent + [Frame(payload, false)]))
  }

  /** The single-topic publish the Java list publish applies to each topic. */
  function JavaTopicStep(event: Option<Event>, encode: Encoder, link: Link): (PubState, Option<string>) -> (ErrorCode, PubState)
  {
    (st: PubState, t: Option<string>) => JavaPublishOnTopic(st, t, event, encode, link)
  }

  /** EMFPublisher.publish(list, event) (Java): null event, then null list, then every topic in order. */
  function JavaPublishOnTopicList(st: PubState, topics: Option<seq<Option<string>>>, event: Option<Event>,
                                  encode: Encoder, link: Link): (r: (ErrorCode, PubState))
    ensures event.None? ==> r == (Error, st)
    ensures event.Some? && topics.None? ==> r == (InvalidTopic, st)
    ensures event.Some? && topics == Some([]) ==> r == (Ok, st)
    ensures Extends(st, r.1)
  {
    if event.None? then (Error, st)
    else if topics.None? then (InvalidTopic, st)
    else
      var r := ApplyUntilFailure(st, topics.value, JavaTopicStep(event, encode, link));
      ApplyPreserves(st, topics.value, JavaTopicStep(event, encode, link), (t: PubState) => Extends(st, t));
      r
  }

  // ---------------------------------------------------------------- C++

  /** EMFPublisher::publish(event) (C++). */
  function CppPublish(st: PubState, event: Event, encode: Encoder, link: Link): (r: (ErrorCode, PubState))
    ensures r.0 != InvalidTopic
    ensures r.0 == Ok <==> st.socket.Some? && encode(event).Some? && link(|st.sent|)
    ensures r.0 == Ok ==> r.1 == st.(sent := st.sent + PlainMessage(encode(event).value))
    ensures r.0 != Ok ==> r.1 == st
  {
    if st.socket.None? then (Error, st)
    else match encode(event)
      case None => (Error, st)
      case Some(payload) =>
        if !link(|st.sent|) then (Error, st)
        else (Ok, st.(sent := st.sent + PlainMessage(payload)))
  }

  /**
   * EMFPublisher::publish(topic, event) (C++): socket, then topic, then
   * serialisation; topic and payload leave as one two-part message.
   */
  function CppPublishOnTopic(st: PubState, topic: string, event: Event, encode: Encoder, link: Link)
    : (r: (ErrorCode, PubState))
    ensures Extends(st, r.1)
    ensures WellFramed(st.sent) ==> WellFramed(r.1.sent)
    ensures st.socket.None? ==> r == (Error, st)
    ensures r.0 == InvalidTopic <==> st.socket.Some? && !MatchesTopicPattern(topic)
    ensures r.0 == Ok <==> st.socket.Some? && MatchesTopicPattern(topic) && encode(event).Some? && link(|st.sent|)
    ensures r.0 == Ok ==> r.1.sent == st.sent + TaggedMessage(CppPublisherSanitizeTopic(topic), encode(event).value)
    ensures r.0 != Ok ==> r.1 == st
  {
    if st.socket.None? then (Error, st)
    else
      var valid := CppPublisherSanitizeTopic(topic);
      if valid == "" then (InvalidTopic, st)
      else match encode(event)
        case None => (Error, st)
        case Some(payload) =>
          if !link(|st.sent|) then (Error, st)
          else (Ok, st.(sent := st.sent + TaggedMessage(valid, payload)))
  }

  function CppTopicStep(event: Event, encode: Encoder, link: Link): (PubState, string) -> (ErrorCode, PubState)
  {
    (st: PubState, t: string) => CppPublishOnTopic(st, t, event, encode, link)
  }

  /** EMFPublisher::publish(list, event) (C++): an empty list is an invalid topic. */
  function CppPublishOnTopicList(st: PubState, topics: seq<string>, event: Event, encode: Encoder, link: Link)
    : (r: (ErrorCode, PubState))
    ensures topics == [] ==> r == (InvalidTopic, st)
    ensures Extends(st, r.1)
    ensures WellFramed(st.sent) ==> WellFramed(r.1.sent)
  {
    if topics == [] then (InvalidTopic, st)
    else
      ApplyPreserves(st, topics, CppTopicStep(event, encode, link), (t: PubState) => Extends(st, t));
      ApplyPreserves(st, topics, CppTopicStep(event, encode, link),
                     (t: PubState) => WellFramed(st.sent) ==> WellFramed(t.sent));
      ApplyUntilFailure(st, topics, CppTopicStep(event, encode, link))
  }

  /** A non-empty C++ list publish is the topic-by-topic fold. */
  lemma CppListIsFold(st: PubState, topics: seq<string>, event: Event, encode: Encoder, link: Link)
    requires topics != []
    ensures CppPublishOnTopicList(st, topics, event, encode, link) ==
            ApplyUntilFailure(st, topics, CppTopicStep(event, encode, link))
  {
  }

  // ---------------------------------------------------------------- Go

  /** Publish (Go): the same checks in the same order as the C++ publish, so it is that step. */
  function GoPublish(st: PubState, event: Event, encode: Encoder, link: Link): (r: (ErrorCode, PubState))
    ensures r.0 != InvalidTopic
    ensures r.0 == Ok <==> st.socket.Some? && encode(event).Some? && link(|st.sent|)
    ensures r.0 == Ok ==> r.1 == st.(sent := st.sent + PlainMessage(encode(event).value))
    ensures r.0 != Ok ==> r.1 == st
  {
    CppPublish(st, event, encode, link)
  }

  /**
   * PublishOnTopic (Go): the topic frame is sent with SNDMORE before the
   * event is marshalled, so a marshalling error comes after it has gone out.
   */
  function GoPublishOnTopic(st: PubState, topic: string, event: Event, encode: Encoder, link: Link)
    : (r: (ErrorCode, PubState))
    ensures Extends(st, r.1)
    ensures st.socket.None? ==> r == (Error, st)
    ensures r.0 == InvalidTopic <==> st.socket.Some? && !MatchesTopicPattern(topic)
    ensures r.0 == InvalidTopic ==> r.1 == st
    ensures r.0 == Ok <==> st.socket.Some? && MatchesTopicPattern(topic) && link(|st.sent|) &&
                           encode(event).Some? && link(|st.sent| + 1)
    ensures r.0 == Ok ==> r.1.sent == st.sent + TaggedMessage(GoSanitizeTopic(topic), encode(event).value)
    ensures r.0 == Error && r.1 != st ==>
      r.1.sent == st.sent + [Frame(TopicBytes(GoSanitizeTopic(topic)), true)] &&
      (encode(event).None? || !link(|st.sent| + 1))
  {
    if st.socket.None? then (Error, st)
    else
      var valid := GoSanitizeTopic(topic);
      if valid == "" then (InvalidTopic, st)
      else if !link(|st.sent|) then (Error, st)
      else
        var st1 := st.(sent := st.sent + [Frame(TopicBytes(valid), true)]);
        match encode(event)
        case None => (Error, st1)
        case Some(payload) =>
          if !link(|st1.sent|) then (Error, st1)
          else (Ok, st1.(sent := st1.sent + [Frame(payload, false)]))
  }

  function GoTopicStep(event: Event, encode: Encoder, link: Link): (PubState, string) -> (ErrorCode, PubState)
  {
    (st: PubState, t: string) => GoPublishOnTopic(st, t, event, encode, link)
  }

  /** PublishOnTopicList (Go): an empty list is an invalid topic; any failure is reported as ERROR. */
  function GoPublishOnTopicList(st: PubState, topics: seq<string>, event: Event, encode: Encoder, link: Link)
    : (r: (ErrorCode, PubState))
    ensures r.0 == InvalidTopic <==> topics == []
    ensures topics == [] ==> r.1 == st
    ensures r.0 == Ok <==> topics != [] && ApplyUntilFailure(st, topics, GoTopicStep(event, encode, link)).0 == Ok
    ensures Extends(st, r.1)
  {
    if topics == [] then (InvalidTopic, st)
    else
      var r := ApplyUntilFailure(st, topics, GoTopicStep(event, encode, link));
      ApplyPreserves(st, topics, GoTopicStep(event, encode, link), (t: PubState) => Extends(st, t));
      if r.0 != Ok then (Error, r.1) else r
  }

  // ---------------------------------------------------------------- properties

  /** Java and Go: a failed payload send after a successful topic frame leaves a message open on the wire. */
  lemma JavaOpenMessage(st: PubState, topic: string, event: Event, encode: Encoder, link: Link)
    requires WellFramed(st.sent)
    requires st.socket.Some? && MatchesTopicPattern(topic) && encode(event).Some?
    requires link(|st.sent|) && !link(|st.sent| + 1)
    ensures JavaPublishOnTopic(st, Some(topic), Some(event), encode, link).0 == Error
    ensures !WellFramed(JavaPublishOnTopic(st, Some(topic), Some(event), encode, link).1.sent)
  {
  }

  /** Go: a marshalling error after the topic frame went out leaves a message open on the wire. */
  lemma GoMarshalFailureOpenMessage(st: PubState, topic: string, event: Event, encode: Encoder, link: Link)
    requires st.socket.Some? && MatchesTopicPattern(topic) && link(|st.sent|) && encode(event).None?
    ensures GoPublishOnTopic(st, topic, event, encode, link).0 == Error
    ensures !WellFramed(GoPublishOnTopic(st, topic, event, encode, link).1.sent)
  {
  }

  /** The publications a successful C++ list publish makes, one per topic, in order. */
  function CppPublications(topics: seq<string>, payload: Bytes): (ps: seq<Publication>)
    ensures |ps| == |topics|
  {
    if topics == [] then []
    else [Publication(Some(CppPublisherSanitizeTopic(topics[0])), payload)] + CppPublications(topics[1..], payload)
  }

  lemma {:induction false} CppPublicationsPublishable(topics: seq<string>, payload: Bytes)
    requires AllTopicsValid(topics)
    ensures Publishable(CppPublications(topics, payload))
  {
    if topics != [] {
      assert AllTopicsValid(topics[1..]) by {
        assert forall i :: 0 <= i < |topics[1..]| ==> topics[1..][i] == topics[i + 1];
      }
      CppPublicationsPublishable(topics[1..], payload);
      var ps := CppPublications(topics, payload);
      assert forall i :: 1 <= i < |ps| ==> ps[i] == CppPublications(topics[1..], payload)[i - 1];
    }
  }

  /**
   * The first publication of a C++ list publish, and the ones after it: after
   * any earlier frames `prior`, the list's wire is the first topic's message
   * followed by the wire of the rest.
   */
  lemma CppPublicationsCons(topics: seq<string>, payload: Bytes, prior: seq<Frame>)
    requires AllTopicsValid(topics) && topics != []
    ensures AllTopicsValid(topics[1..])
    ensures Publishable(CppPublications(topics, payload)) && Publishable(CppPublications(topics[1..], payload))
    ensures Wire(CppPublications(topics, payload)) ==
            TaggedMessage(CppPublisherSanitizeTopic(topics[0]), payload) + Wire(CppPublications(topics[1..], payload))
    ensures prior + Wire(CppPublications(topics, payload)) ==
            (prior + TaggedMessage(CppPublisherSanitizeTopic(topics[0]), payload)) + Wire(CppPublications(topics[1..], payload))
  {
    assert forall i :: 0 <= i < |topics[1..]| ==> topics[1..][i] == topics[i + 1];
    CppPublicationsPublishable(topics, payload);
    CppPublicationsPublishable(topics[1..], payload);
    var ps := CppPublications(topics, payload);
    assert ps[1..] == CppPublications(topics[1..], payload);
  }

  /**
   * A C++ topic-by-topic publish over valid topics that ends with OK put
   * exactly one two-part message per topic on the wire, in list order.
   */
  lemma {:induction false} CppFoldPublishes(st: PubState, topics: seq<string>, event: Event, encode: Encoder,
                                           link: Link, payload: Bytes)
    requires encode(event) == Some(payload) && AllTopicsValid(topics)
    requires ApplyUntilFailure(st, topics, CppTopicStep(event, encode, link)).0 == Ok
    ensures Publishable(CppPublications(topics, payload))
    ensures ApplyUntilFailure(st, topics, CppTopicStep(event, encode, link)).1.sent ==
            st.sent + Wire(CppPublications(topics, payload))
    decreases |topics|
  {
    CppPublicationsPublishable(topics, payload);
    if topics != [] {
      var step := CppTopicStep(event, encode, link);
      CppTopicStepSends(st, topics[0], event, encode, link, payload);
      var r := step(st, topics[0]);
      ApplyCons(st, topics, step);
      CppPublicationsCons(topics, payload, st.sent);
      CppFoldPublishes(r.1, topics[1..], event, encode, link, payload);
    }
  }

  /** One C++ topic step that returns OK appends that topic's message. */
  lemma CppTopicStepSends(st: PubState, t: string, event: Event, encode: Encoder, link: Link, payload: Bytes)
    requires encode(event) == Some(payload)
    requires CppTopicStep(event, encode, link)(st, t).0 == Ok
    ensures MatchesTopicPattern(t)
    ensures CppTopicStep(event, encode, link)(st, t).1.sent == st.sent + TaggedMessage(CppPublisherSanitizeTopic(t), payload)
  {
  }

  /** Every topic of a C++ topic-by-topic publish that ends with OK was valid. */
  lemma CppPublicationsPublishable_IfValid(st: PubState, topics: seq<string>, event: Event, encode: Encoder, link: Link)
    requires ApplyUntilFailure(st, topics, CppTopicStep(event, encode, link)).0 == Ok
    ensures AllTopicsValid(topics)
  {
    forall k | 0 <= k < |topics|
      ensures MatchesTopicPattern(topics[k])
    {
      AllStepsOk(st, topics, CppTopicStep(event, encode, link), k);
    }
  }

  /** C++ list publish: OK exactly when the list is non-empty and every topic was published, in order. */
  lemma CppListPublishes(st: PubState, topics: seq<string>, event: Event, encode: Encoder, link: Link)
    requires CppPublishOnTopicList(st, topics, event, encode, link).0 == Ok
    ensures topics != [] && AllTopicsValid(topics) && encode(event).Some?
    ensures Publishable(CppPublications(topics, encode(event).value))
    ensures CppPublishOnTopicList(st, topics, event, encode, link).1.sent ==
            st.sent + Wire(CppPublications(topics, encode(event).value))
  {
    AllStepsOk(st, topics, CppTopicStep(event, encode, link), 0);
    CppPublicationsPublishable_IfValid(st, topics, event, encode, link);
    CppFoldPublishes(st, topics, event, encode, link, encode(event).value);
  }

  /**
   * Whatever a list publish returns other than OK, it is the code of the first
   * topic that failed, and the topics before it stay published (Java; C++ alike).
   */
  lemma JavaListFirstFailure(st: PubState, topics: seq<Option<string>>, event: Event, encode: Encoder, link: Link)
    requires JavaPublishOnTopicList(st, Some(topics), Some(event), encode, link).0 != Ok
    ensures exists k :: (0 <= k < |topics| &&
              ApplyUntilFailure(st, topics[..k], JavaTopicStep(Some(event), encode, link)).0 == Ok &&
              JavaPublishOnTopic(ApplyUntilFailure(st, topics[..k], JavaTopicStep(Some(event), encode, link)).1,
                                 topics[k], Some(event), encode, link) ==
              JavaPublishOnTopicList(st, Some(topics), Some(event), encode, link))
  {
    FirstFailure(st, topics, JavaTopicStep(Some(event), encode, link));
  }

  /** One Go topic step that returns OK appends that topic's message, normalised as C++ does. */
  lemma GoTopicStepSends(st: PubState, t: string, event: Event, encode: Encoder, link: Link, payload: Bytes)
    requires encode(event) == Some(payload)
    requires GoTopicStep(event, encode, link)(st, t).0 == Ok
    ensures MatchesTopicPattern(t)
    ensures GoTopicStep(event, encode, link)(st, t).1.sent == st.sent + TaggedMessage(CppPublisherSanitizeTopic(t), payload)
  {
    BindingsAgree(t);
  }

  /** A Go topic-by-topic publish that ends with OK put one two-part message per topic on the wire, in list order. */
  lemma {:induction false} GoFoldPublishes(st: PubState, topics: seq<string>, event: Event, encode: Encoder,
                                          link: Link, payload: Bytes)
    requires encode(event) == Some(payload) && AllTopicsValid(topics)
    requires ApplyUntilFailure(st, topics, GoTopicStep(event, encode, link)).0 == Ok
    ensures Publishable(CppPublications(topics, payload))
    ensures ApplyUntilFailure(st, topics, GoTopicStep(event, encode, link)).1.sent ==
            st.sent + Wire(CppPublications(topics, payload))
    decreases |topics|
  {
    CppPublicationsPublishable(topics, payload);
    if topics != [] {
      var step := GoTopicStep(event, encode, link);
      GoTopicStepSends(st, topics[0], event, encode, link, payload);
      var r := step(st, topics[0]);
      ApplyCons(st, topics, step);
      CppPublicationsCons(topics, payload, st.sent);
      GoFoldPublishes(r.1, topics[1..], event, encode, link, payload);
    }
  }

  /** Go list publish: OK exactly when every topic was published, in order, with the same wire as C++. */
  lemma GoListPublishes(st: PubState, topics: seq<string>, event: Event, encode: Encoder, link: Link)
    requires GoPublishOnTopicList(st, topics, event, encode, link).0 == Ok
    ensures topics != [] && AllTopicsValid(topics) && encode(event).Some?
    ensures Publishable(CppPublications(topics, encode(event).value))
    ensures GoPublishOnTopicList(st, topics, event, encode, link).1.sent ==
            st.sent + Wire(CppPublications(topics, encode(event).value))
  {
    var step := GoTopicStep(event, encode, link);
    AllStepsOk(st, topics, step, 0);
    forall k | 0 <= k < |topics|
      ensures MatchesTopicPattern(topics[k])
    {
      AllStepsOk(st, topics, step, k);
    }
    GoFoldPublishes(st, topics, event, encode, link, encode(event).value);
  }

  /** Java list publish: OK means every topic of the list was valid and the event encoded. */
  lemma JavaListAllValid(st: PubState, topics: seq<Option<string>>, event: Event, encode: Encoder, link: Link)
    requires JavaPublishOnTopicList(st, Some(topics), Some(event), encode, link).0 == Ok
    ensures forall k :: 0 <= k < |topics| ==> JavaValidateTopic(topics[k]).Some?
    ensures topics != [] ==> encode(event).Some?
  {
    var step := JavaTopicStep(Some(event), encode, link);
    forall k | 0 <= k < |topics|
      ensures JavaValidateTopic(topics[k]).Some? && encode(event).Some?
    {
      AllStepsOk(st, topics, step, k);
    }
  }

  /** Go list publish: a rejected topic inside a non-empty list is reported as ERROR, not INVALID_TOPIC. */
  lemma GoListHidesInvalidTopic(st: PubState, topics: seq<string>, event: Event, encode: Encoder, link: Link)
    requires st.socket.Some? && topics != [] && !MatchesTopicPattern(topics[0])
    ensures GoPublishOnTopic(st, topics[0], event, encode, link).0 == InvalidTopic
    ensures GoPublishOnTopicList(st, topics, event, encode, link) == (Error, st)
  {
  }

  /** One Java topic step that returns OK appends the message C++ would send for the entry's text. */
  lemma JavaTopicStepSends(st: PubState, t: Option<string>, event: Event, encode: Encoder, link: Link, payload: Bytes)
    requires encode(event) == Some(payload)
    requires JavaTopicStep(Some(event), encode, link)(st, t).0 == Ok
    ensures MatchesTopicPattern(JavaTopicText(t))
    ensures JavaTopicStep(Some(event), encode, link)(st, t).1.sent ==
            st.sent + TaggedMessage(CppPublisherSanitizeTopic(JavaTopicText(t)), payload)
  {
    BindingsAgree(JavaTopicText(t));
  }

  /** The texts of a Java list without its first entry. */
  lemma JavaTopicTextsTail(topics: seq<Option<string>>)
    requires topics != []
    ensures JavaTopicTexts(topics)[0] == JavaTopicText(topics[0])
    ensures JavaTopicTexts(topics)[1..] == JavaTopicTexts(topics[1..])
  {
  }

  /** A Java topic-by-topic publish that ends with OK put one two-part message per entry on the wire, in list order. */
  lemma {:induction false} JavaFoldPublishes(st: PubState, topics: seq<Option<string>>, event: Event, encode: Encoder,
                                            link: Link, payload: Bytes)
    requires encode(event) == Some(payload) && AllTopicsValid(JavaTopicTexts(topics))
    requires ApplyUntilFailure(st, topics, JavaTopicStep(Some(event), encode, link)).0 == Ok
    ensures Publishable(CppPublications(JavaTopicTexts(topics), payload))
    ensures ApplyUntilFailure(st, topics, JavaTopicStep(Some(event), encode, link)).1.sent ==
            st.sent + Wire(CppPublications(JavaTopicTexts(topics), payload))
    decreases |topics|
  {
    var texts := JavaTopicTexts(topics);
    CppPublicationsPublishable(texts, payload);
    if topics != [] {
      var step := JavaTopicStep(Some(event), encode, link);
      JavaTopicStepSends(st, topics[0], event, encode, link, payload);
      var r := step(st, topics[0]);
      ApplyCons(st, topics, step);
      JavaTopicTextsTail(topics);
      CppPublicationsCons(texts, payload, st.sent);
      JavaFoldPublishes(r.1, topics[1..], event, encode, link, payload);
    }
  }

  /**
   * Java list publish: OK means every entry was valid and, for a non-empty
   * list, each was published in list order, exactly as C++ publishes the
   * entries' texts.
   */
  lemma JavaListPublishes(st: PubState, topics: seq<Option<string>>, event: Event, encode: Encoder, link: Link)
    requires JavaPublishOnTopicList(st, Some(topics), Some(event), encode, link).0 == Ok
    ensures AllTopicsValid(JavaTopicTexts(topics))
    ensures topics == [] ==> JavaPublishOnTopicList(st, Some(topics), Some(event), encode, link).1 == st
    ensures topics != [] ==> encode(event).Some? && Publishable(CppPublications(JavaTopicTexts(topics), encode(event).value))
    ensures topics != [] ==> JavaPublishOnTopicList(st, Some(topics), Some(event), encode, link).1.sent ==
                             st.sent + Wire(CppPublications(JavaTopicTexts(topics), encode(event).value))
  {
    JavaListAllValid(st, topics, event, encode, link);
    JavaTopicsValid(topics);
    if topics != [] {
      JavaFoldPublishes(st, topics, event, encode, link, encode(event).value);
    }
  }

  /**
   * Converse of CppListPublishes: with a socket, a non-empty list of valid
   * topics, an event that encodes and a link that accepts every frame, C++
   * publish(list) returns OK.
   */
  lemma CppListSucceeds(st: PubState, topics: seq<string>, event: Event, encode: Encoder, link: Link)
    requires st.socket.Some? && topics != [] && AllTopicsValid(topics) && encode(event).Some?
    requires forall k :: link(k)
    ensures CppPublishOnTopicList(st, topics, event, encode, link).0 == Ok
  {
    ApplyAllOk(st, topics, CppTopicStep(event, encode, link), (t: PubState) => t.socket.Some?, MatchesTopicPattern);
  }

  /** Converse of GoListPublishes, under the same conditions as CppListSucceeds. */
  lemma GoListSucceeds(st: PubState, topics: seq<string>, event: Event, encode: Encoder, link: Link)
    requires st.socket.Some? && topics != [] && AllTopicsValid(topics) && encode(event).Some?
    requires forall k :: link(k)
    ensures GoPublishOnTopicList(st, topics, event, encode, link).0 == Ok
  {
    ApplyAllOk(st, topics, GoTopicStep(event, encode, link), (t: PubState) => t.socket.Some?, MatchesTopicPattern);
  }

  /** Converse of JavaListPublishes: with a socket, valid entries, an encodable event and a link that never fails, OK. */
  lemma JavaListSucceeds(st: PubState, topics: seq<Option<string>>, event: Event, encode: Encoder, link: Link)
    requires st.socket.Some? && encode(event).Some?
    requires forall i :: 0 <= i < |topics| ==> JavaValidateTopic(topics[i]).Some?
    requires forall k :: link(k)
    ensures JavaPublishOnTopicList(st, Some(topics), Some(event), encode, link).0 == Ok
  {
    ApplyAllOk(st, topics, JavaTopicStep(Some(event), encode, link), (t: PubState) => t.socket.Some?,
               (t: Option<string>) => JavaValidateTopic(t).Some?);
  }
}

=== FILE: publisher.dfy ===
/*
 * The EMFPublisher object of each binding: it takes the context from the
 * EMFAPI singleton when it is built, binds a PUB socket on start, publishes
 * through the step functions of PublishSteps and closes the socket on stop,
 * waiting for the socket monitor's "closed" event.
 */
module Publisher {
  import opened EmfTypes
  import opened Topic
  import opened Address
  import opened TopicList
  import opened PublishSteps
  import opened Context
  import opened Framing

  /** What one receive on the monitor's PAIR socket yields. */
  datatype MonitorEvent = EventClosed | OtherEvent(code: int) | RecvTimeout | RecvFailure

  /**
   * How many events the wait of syncClose (Java and Go) receives: it stops
   * after the first event that is not an ordinary monitor event ("closed",
   * timeout or receive error). `events` are the events that arrive; once they
   * are used up the one-second receive timeout ends the wait.
   */
  function Received(events: seq<MonitorEvent>): (n: nat)
    ensures n <= |events|
  {
    if events == [] then 0
    else if !events[0].OtherEvent? then 1
    else 1 + Received(events[1..])
  }

  /** The wait ends exactly at the first event that is not ordinary, or at the end of the events. */
  lemma {:induction false} ReceivedStopsAtFirst(events: seq<MonitorEvent>)
    ensures forall i :: 0 <= i < Received(events) - 1 ==> events[i].OtherEvent?
    ensures Received(events) < |events| ==> Received(events) > 0 && !events[Received(events) - 1].OtherEvent?
    ensures Received(events) == |events| && |events| > 0 && events[|events| - 1].OtherEvent? ==>
              forall i :: 0 <= i < |events| ==> events[i].OtherEvent?
  {
    if events != [] && events[0].OtherEvent? {
      var rest := events[1..];
      ReceivedStopsAtFirst(rest);
      assert forall i :: 0 < i < |events| ==> events[i] == rest[i - 1];
    }
  }

  /** The wait loop of syncClose (Java and Go). */
  method AwaitClosed(events: seq<MonitorEvent>) returns (consumed: nat, closed: bool)
    ensures consumed == Received(events)
    ensures closed <==> consumed > 0 && events[consumed - 1] == EventClosed
  {
    consumed := 0;
    while true
      invariant consumed <= |events|
      invariant Received(events) == consumed + Received(events[consumed..])
      invariant forall i :: 0 <= i < consumed ==> events[i].OtherEvent?
      decreases |events| - consumed
    {
      if consumed == |events| {
        return consumed, false;
      }
      var e := events[consumed];
      assert events[consumed..][1..] == events[consumed + 1..];
      consumed := consumed + 1;
      if !e.OtherEvent? {
        return consumed, e == EventClosed;
      }
    }
  }

  /**
   * syncClose (Java and Go): start a monitor, create and connect a PAIR socket
   * to it, close the PUB socket, and wait for the "closed" event only if the
   * PAIR socket exists and its connect worked. The result of starting the
   * monitor is overwritten by the connect result, so it decides nothing.
   */
  method MonitoredClose(pairCreated: bool, pairConnected: bool, closeOk: bool, events: seq<MonitorEvent>)
    returns (r: ErrorCode, waited: bool, closed: bool)
    ensures r == Ok <==> closeOk
    ensures r != InvalidTopic
    ensures waited <==> closeOk && pairCreated && pairConnected
    ensures closed ==> waited && EventClosed in events
  {
    if !closeOk {
      return Error, false, false;
    }
    if !pairCreated || !pairConnected {
      return Ok, false, false;
    }
    var consumed;
    consumed, closed := AwaitClosed(events);
    return Ok, true, closed;
  }

  /** syncClose (C++): close the PUB socket, then poll the monitor once for the "closed" event. */
  method CppSyncClose(closeOk: bool, closedEventArrives: bool) returns (r: ErrorCode, closed: bool)
    ensures r == Ok <==> closeOk
    ensures r != InvalidTopic
    ensures closed <==> closeOk && closedEventArrives
  {
    if !closeOk {
      return Error, false;
    }
    return Ok, closedEventArrives;
  }

  /** EMFPublisher (Java). */
  class JavaPublisher {
    const port: int
    const context: ZmqContext?
    var socket: Option<string>
    var sent: seq<Frame>

    function State(): PubState
      reads this
    {
      PubState(socket, sent)
    }

    /** Takes the context of the EMFAPI instance as it is now. */
    constructor(port: int, api: JavaEmfApi)
      ensures this.port == port && context == api.context
      ensures socket == None && sent == []
    {
      this.port := port;
      context := api.context;
      socket := None;
      sent := [];
    }

    /** `bindOk` is the outcome of creating the PUB socket and binding it. */
    method Start(bindOk: bool) returns (r: ErrorCode)
      modifies this
      ensures sent == old(sent)
      ensures context == null ==> r == Error && socket == old(socket)
      ensures context != null && old(socket).Some? ==> r == Ok && socket == old(socket)
      ensures context != null && old(socket).None? ==>
                (r == Ok <==> bindOk && !context.terminated) &&
                (r == Ok ==> socket == Some(PubSocketAddress(port))) &&
                (r != Ok ==> r == Error && socket == None)
    {
      if context == null {
        return Error;
      }
      if socket.None? {
        if !bindOk || context.terminated {
          socket := None;
          return Error;
        }
        socket := Some(PubSocketAddress(port));
      }
      r := Ok;
    }

    method Publish(event: Option<Event>, encode: Encoder, link: Link) returns (r: ErrorCode)
      modifies this
      ensures (r, State()) == JavaPublish(old(State()), event, encode, link)
    {
      var res := JavaPublish(State(), event, encode, link);
      r, socket, sent := res.0, res.1.socket, res.1.sent;
    }

    method PublishOnTopic(topic: Option<string>, event: Option<Event>, encode: Encoder, link: Link)
      returns (r: ErrorCode)
      modifies this
      ensures (r, State()) == JavaPublishOnTopic(old(State()), topic, event, encode, link)
    {
      var res := JavaPublishOnTopic(State(), topic, event, encode, link);
      r, socket, sent := res.0, res.1.socket, res.1.sent;
    }

    /** publish(list, event): one publish(topic, event) per topic, stopping at the first failure. */
    method PublishOnTopicList(topics: Option<seq<Option<string>>>, event: Option<Event>, encode: Encoder, link: Link)
      returns (r: ErrorCode)
      modifies this
      ensures (r, State()) == JavaPublishOnTopicList(old(State()), topics, event, encode, link)
    {
      if event.None? {
        return Error;
      }
      if topics.None? {
        return InvalidTopic;
      }
      var ts := topics.value;
      ghost var step := JavaTopicStep(event, encode, link);
      ghost var s0 := State();
      var i := 0;
      while i < |ts|
        invariant 0 <= i <= |ts|
        invariant ApplyUntilFailure(s0, ts[..i], step) == (Ok, State())
      {
        ghost var t := State();
        r := PublishOnTopic(ts[i], event, encode, link);
        FoldStep(s0, ts, i, step, t);
        if r != Ok {
          return;
        }
        i := i + 1;
      }
      assert ts[..i] == ts;
      r := Ok;
    }

    /** Closes the socket whatever syncClose reports, and returns its code. */
    method Stop(pairCreated: bool, pairConnected: bool, closeOk: bool, events: seq<MonitorEvent>)
      returns (r: ErrorCode)
      modifies this
      ensures sent == old(sent)
      ensures old(socket).None? ==> r == Error && socket == None
      ensures old(socket).Some? ==> socket == None && (r == Ok <==> closeOk) && r != InvalidTopic
    {
      if socket.None? {
        return Error;
      }
      var waited, closed;
      r, waited, closed := MonitoredClose(pairCreated, pairConnected, closeOk, events);
      socket := None;
    }
  }

  /** EMFPublisher (C++). */
  class CppPublisher {
    const port: int
    const context: ZmqContext?
    var socket: Option<string>
    var sent: seq<Frame>

    function State(): PubState
      reads this
    {
      PubState(socket, sent)
    }

    constructor(port: int, api: CppEmfApi)
      ensures this.port == port && context == api.context
      ensures socket == None && sent == []
    {
      this.port := port;
      context := api.context;
      socket := None;
      sent := [];
    }

    method Start(bindOk: bool) returns (r: ErrorCode)
      modifies this
      ensures sent == old(sent)
      ensures context == null ==> r == Error && socket == old(socket)
      ensures context != null && old(socket).Some? ==> r == Ok && socket == old(socket)
      ensures context != null && old(socket).None? ==>
                (r == Ok <==> bindOk && !context.terminated) &&
                (r == Ok ==> socket == Some(PubSocketAddress(port))) &&
                (r != Ok ==> r == Error && socket == None)
    {
      if context == null {
        return Error;
      }
      if socket.None? {
        if !bindOk || context.terminated {
          socket := None;
          return Error;
        }
        socket := Some(PubSocketAddress(port));
      }
      r := Ok;
    }

    method Publish(event: Event, encode: Encoder, link: Link) returns (r: ErrorCode)
      modifies this
      ensures (r, State()) == CppPublish(old(State()), event, encode, link)
    {
      var res := CppPublish(State(), event, encode, link);
      r, socket, sent := res.0, res.1.socket, res.1.sent;
    }

    method PublishOnTopic(topic: string, event: Event, encode: Encoder, link: Link) returns (r: ErrorCode)
      modifies this
      ensures (r, State()) == CppPublishOnTopic(old(State()), topic, event, encode, link)
    {
      var res := CppPublishOnTopic(State(), topic, event, encode, link);
      r, socket, sent := res.0, res.1.socket, res.1.sent;
    }

    method PublishOnTopicList(topics: seq<string>, event: Event, encode: Encoder, link: Link) returns (r: ErrorCode)
      modifies this
      ensures (r, State()) == CppPublishOnTopicList(old(State()), topics, event, encode, link)
    {
      if topics == [] {
        return InvalidTopic;
      }
      ghost var step := CppTopicStep(event, encode, link);
      ghost var s0 := State();
      var i := 0;
      while i < |topics|
        invariant 0 <= i <= |topics|
        invariant ApplyUntilFailure(s0, topics[..i], step) == (Ok, State())
      {
        ghost var t := State();
        r := PublishOnTopic(topics[i], event, encode, link);
        FoldStep(s0, topics, i, step, t);
        if r != Ok {
          CppListIsFold(s0, topics, event, encode, link);
          return;
        }
        i := i + 1;
      }
      assert topics[..i] == topics;
      CppListIsFold(s0, topics, event, encode, link);
      r := Ok;
    }

    /** Deletes the socket whatever syncClose reports, and returns its code. */
    method Stop(closeOk: bool, closedEventArrives: bool) returns (r: ErrorCode)
      modifies this
      ensures sent == old(sent)
      ensures old(socket).None? ==> r == Error && socket == None
      ensures old(socket).Some? ==> socket == None && (r == Ok <==> closeOk) && r != InvalidTopic
    {
      if socket.None? {
        return Error;
      }
      var closed;
      r, closed := CppSyncClose(closeOk, closedEventArrives);
      socket := None;
    }
  }

  /** EMFPublisher (Go). */
  class GoPublisher {
    const port: int
    const context: ZmqContext?
    var socket: Option<string>
    var sent: seq<Frame>

    function State(): PubState
      reads this
    {
      PubState(socket, sent)
    }

    /** GetEMFPublisher. */
    constructor(port: int, api: GoEmfApi)
      ensures this.port == port && context == api.context
      ensures socket == None && sent == []
    {
      this.port := port;
      context := api.context;
      socket := None;
      sent := [];
    }

    method Start(bindOk: bool) returns (r: ErrorCode)
      modifies this
      ensures sent == old(sent)
      ensures context == null ==> r == Error && socket == old(socket)
      ensures context != null && old(socket).Some? ==> r == Ok && socket == old(socket)
      ensures context != null && old(socket).None? ==>
                (r == Ok <==> bindOk && !context.terminated) &&
                (r == Ok ==> socket == Some(PubSocketAddress(port))) &&
                (r != Ok ==> r == Error && socket == None)
    {
      if context == null {
        return Error;
      }
      if socket.None? {
        if !bindOk || context.terminated {
          socket := None;
          return Error;
        }
        socket := Some(PubSocketAddress(port));
      }
      r := Ok;
    }

    method Publish(event: Event, encode: Encoder, link: Link) returns (r: ErrorCode)
      modifies this
      ensures (r, State()) == GoPublish(old(State()), event, encode, link)
    {
      var res := GoPublish(State(), event, encode, link);
      r, socket, sent := res.0, res.1.socket, res.1.sent;
    }

    method PublishOnTopic(topic: string, event: Event, encode: Encoder, link: Link) returns (r: ErrorCode)
      modifies this
      ensures (r, State()) == GoPublishOnTopic(old(State()), topic, event, encode, link)
    {
      var res := GoPublishOnTopic(State(), topic, event, encode, link);
      r, socket, sent := res.0, res.1.socket, res.1.sent;
    }

    method PublishOnTopicList(topics: seq<string>, event: Event, encode: Encoder, link: Link) returns (r: ErrorCode)
      modifies this
      ensures (r, State()) == GoPublishOnTopicList(old(State()), topics, event, encode, link)
    {
      if topics == [] {
        return InvalidTopic;
      }
      ghost var step := GoTopicStep(event, encode, link);
      ghost var s0 := State();
      var i := 0;
      while i < |topics|
        invariant 0 <= i <= |topics|
        invariant ApplyUntilFailure(s0, topics[..i], step) == (Ok, State())
      {
        ghost var t := State();
        r := PublishOnTopic(topics[i], event, encode, link);
        FoldStep(s0, topics, i, step, t);
        if r != Ok {
          return Error;
        }
        i := i + 1;
      }
      assert topics[..i] == topics;
      r := Ok;
    }

    /** Forgets the socket only when syncClose reports OK. */
    method Stop(pairCreated: bool, pairConnected: bool, closeOk: bool, events: seq<MonitorEvent>)
      returns (r: ErrorCode)
      modifies this
      ensures sent == old(sent)
      ensures old(socket).None? ==> r == Error && socket == None
      ensures old(socket).Some? ==> (r == Ok <==> closeOk) && r != InvalidTopic
      ensures old(socket).Some? ==> socket == if r == Ok then None else old(socket)
    {
      if socket.None? {
        return Error;
      }
      var waited, closed;
      r, waited, closed := MonitoredClose(pairCreated, pairConnected, closeOk, events);
      if r == Ok {
        socket := None;
      }
    }
  }

  /** Java: a publisher built before initialize has no context and can never start. */
  method JavaStartBeforeInitializeScenario() returns (r: ErrorCode)
    ensures r == Error
  {
    var api := new JavaEmfApi();
    var p := new JavaPublisher(5562, api);
    r := p.Start(true);
  }

  /**
   * Java: start, publish, stop, then publish again; the second publish fails
   * and puts nothing more on the wire.
   */
  method JavaPublishAfterStopScenario(e: Event, encode: Encoder, link: Link)
    returns (r1: ErrorCode, r2: ErrorCode, r3: ErrorCode, wire: seq<Frame>)
    requires encode(e).Some? && link(0)
    ensures r1 == Ok && r2 == Ok && r3 == Error
    ensures wire == PlainMessage(encode(e).value)
  {
    var api := new JavaEmfApi();
    var ok := api.Initialize();
    var p := new JavaPublisher(5562, api);
    r1 := p.Start(true);
    r2 := p.Publish(Some(e), encode, link);
    var s := p.Stop(true, true, true, [EventClosed]);
    r3 := p.Publish(Some(e), encode, link);
    wire := p.sent;
  }
}

=== FILE: pubsub.dfy ===
/*
 * Publisher and subscriber together: what a SUB socket's prefix filter lets
 * through, and which callbacks the receive loop makes for what a publisher
 * sent.
 */
module PubSub {
  import opened EmfTypes
  import opened Topic
  import opened Framing
  import opened PublishSteps

  /**
   * A subscription to topic `s` lets a publication on topic `p` through
   * exactly when the normalised `s` is a prefix of the normalised `p`: the
   * trailing '/' makes the filter match whole path segments.
   */
  lemma TopicFilter(s: string, p: string)
    requires MatchesTopicPattern(s) && MatchesTopicPattern(p)
    ensures TopicBytes(CppSanitizeTopic(s)) <= TopicBytes(CppPublisherSanitizeTopic(p)) <==>
            CppSanitizeTopic(s) <= CppPublisherSanitizeTopic(p)
  {
    BindingsAgree(p);
    TopicBytesPrefix(CppSanitizeTopic(s), CppSanitizeTopic(p));
  }

  /**
   * The SUB filter matches whole path segments: a subscription to `s` lets a
   * publication on `p` through exactly when the segments of `s` are the first
   * segments of `p` (after both are normalised).
   */
  lemma SubscriptionMatchesSegments(s: string, p: string)
    requires MatchesTopicPattern(s) && MatchesTopicPattern(p)
    ensures TopicBytes(CppSanitizeTopic(s)) <= TopicBytes(CppPublisherSanitizeTopic(p)) <==>
            Segments(CppSanitizeTopic(s)) <= Segments(CppPublisherSanitizeTopic(p))
  {
    TopicFilter(s, p);
    SegmentPrefix(CppSanitizeTopic(s), CppPublisherSanitizeTopic(p));
  }

  /** Subscribing to "home" delivers "home/kitchen" but not "homeoffice". */
  lemma WholeSegments()
    ensures CppSanitizeTopic("home") <= CppPublisherSanitizeTopic("home/kitchen")
    ensures !(CppSanitizeTopic("home") <= CppPublisherSanitizeTopic("homeoffice"))
  {
    assert CppSanitizeTopic("home") == "home/";
    assert CppPublisherSanitizeTopic("home/kitchen") == "home/kitchen/";
    assert CppPublisherSanitizeTopic("homeoffice") == "homeoffice/";
    assert "homeoffice/"[4] != "home/"[4];
  }

  /**
   * A tagged message arriving at a connected SUB socket subscribed to a prefix
   * of its topic is queued, and the C++/Go receive loop turns it into one
   * topic callback after the ones already queued.
   */
  lemma TaggedArrivalDelivered(s: SubSocket, topic: string, payload: Bytes, prefix: Bytes, parse: Parser)
    requires IsNormalTopic(topic) && WellFramed(s.inbox)
    requires s.endpoint.Some? && prefix in Subscriptions(s.filters) && prefix <= TopicBytes(topic)
    ensures WellFramed(Arrive(s, TaggedMessage(topic, payload)).inbox)
    ensures ParsedDeliveries(Arrive(s, TaggedMessage(topic, payload)).inbox, parse) ==
            ParsedDeliveries(s.inbox, parse) + [OnTopicMessage(topic, parse(payload))]
  {
    var m := TaggedMessage(topic, payload);
    assert Admits(Subscriptions(s.filters), m[0].data);
    var ps := [Publication(Some(topic), payload)];
    assert Publishable(ps);
    assert Wire(ps) == m by {
      assert ps[1..] == [];
    }
    ParsedRoundTrip(ps, parse);
    ParsedDeliveriesAppend(s.inbox, m, parse);
  }

  /** A message on a topic nothing subscribed to is a prefix of is dropped by the SUB socket. */
  lemma UnsubscribedTopicDropped(s: SubSocket, topic: string, payload: Bytes)
    requires IsNormalTopic(topic)
    requires forall p :: p in Subscriptions(s.filters) ==> !(p <= TopicBytes(topic))
    ensures Arrive(s, TaggedMessage(topic, payload)) == s
  {
  }

  /**
   * C++ end to end: after a list publish that returns OK, a subscriber that
   * receives every frame the publisher sent (say, subscribed to everything)
   * calls back once per topic, in list order, with the normalised topic and
   * the parsed event, after the callbacks for what was sent before.
   */
  lemma CppListPublishDelivered(st: PubState, topics: seq<string>, event: Event, encode: Encoder, link: Link,
                                parse: Parser)
    requires WellFramed(st.sent)
    requires CppPublishOnTopicList(st, topics, event, encode, link).0 == Ok
    ensures encode(event).Some?
    ensures ParsedDeliveries(CppPublishOnTopicList(st, topics, event, encode, link).1.sent, parse) ==
            ParsedDeliveries(st.sent, parse) + ExpectedParsed(CppPublications(topics, encode(event).value), parse)
  {
    CppListPublishes(st, topics, event, encode, link);
    var ps := CppPublications(topics, encode(event).value);
    ParsedDeliveriesAppend(st.sent, Wire(ps), parse);
    ParsedRoundTrip(ps, parse);
  }

  /** Go end to end: the same callbacks as for the C++ list publish of the same topics. */
  lemma GoListPublishDelivered(st: PubState, topics: seq<string>, event: Event, encode: Encoder, link: Link,
                               parse: Parser)
    requires WellFramed(st.sent)
    requires GoPublishOnTopicList(st, topics, event, encode, link).0 == Ok
    ensures encode(event).Some? && WellFramed(GoPublishOnTopicList(st, topics, event, encode, link).1.sent)
    ensures ParsedDeliveries(GoPublishOnTopicList(st, topics, event, encode, link).1.sent, parse) ==
            ParsedDeliveries(st.sent, parse) + ExpectedParsed(CppPublications(topics, encode(event).value), parse)
  {
    GoListPublishes(st, topics, event, encode, link);
    var ps := CppPublications(topics, encode(event).value);
    AppendWellFramed(st.sent, Wire(ps));
    ParsedDeliveriesAppend(st.sent, Wire(ps), parse);
    ParsedRoundTrip(ps, parse);
  }

  /** The callbacks for a C++ list publish carry the topics of the list, normalised, in order. */
  lemma {:induction false} ExpectedTopics(topics: seq<string>, payload: Bytes, parse: Parser, i: nat)
    requires i < |topics|
    ensures ExpectedParsed(CppPublications(topics, payload), parse)[i] ==
            OnTopicMessage(CppPublisherSanitizeTopic(topics[i]), parse(payload))
  {
    if i > 0 {
      ExpectedTopics(topics[1..], payload, parse, i - 1);
    }
  }
}

=== FILE: receive_loops.dfy ===
/*
 * The loops of the subscribers' receivers, as they run over the frames
 * queued at a SUB socket: each reads one message at a time and calls back.
 * The Java loop always drains the queue; the C++ and Go loops stop at the
 * first read that fails.
 */
module ReceiveLoops {
  import opened EmfTypes
  import opened Framing

  /** The Java receive loop over the queued messages: read one message, decode it, call back. */
  method DrainJava(inbox: seq<Frame>, decode: Decoder) returns (calls: seq<Callback>)
    requires WellFramed(inbox)
    ensures calls == JavaDeliveries(inbox, decode)
  {
    var q := inbox;
    calls := [];
    while q != []
      invariant WellFramed(q)
      invariant calls + JavaDeliveries(q, decode) == JavaDeliveries(inbox, decode)
      decreases |q|
    {
      var r := ReadOne(q);
      JavaDeliveriesUnfold(q, decode);
      var c := JavaCallbacks(r.0, decode);
      assert calls + (c + JavaDeliveries(r.1, decode)) == (calls + c) + JavaDeliveries(r.1, decode);
      calls := calls + c;
      q := r.1;
    }
    assert calls == calls + JavaDeliveries(q, decode);
  }

  /**
   * The C++ and Go receive loops: every message read reaches a callback,
   * since the parse result is not checked. The loop ends when the queue is
   * empty or when reading a message fails (`recvOk(k0 + n)` false for the
   * read after the n-th callback of this run); it returns the callbacks made, the frames
   * left unread and whether a read failed.
   */
  method DrainParsed(inbox: seq<Frame>, parse: Parser, recvOk: RecvOutcome, k0: nat)
    returns (calls: seq<Callback>, rest: seq<Frame>, failed: bool)
    requires WellFramed(inbox)
    ensures (calls, rest, failed) == ParsedDeliveriesUntil(inbox, parse, recvOk, k0)
  {
    var q := inbox;
    var k := k0;
    calls := [];
    DrainParsedStarts(inbox, parse, recvOk, k0);
    while q != [] && recvOk(k)
      invariant WellFramed(q)
      invariant DrainedSoFar(inbox, parse, recvOk, k0, calls, q, k)
      decreases |q|
    {
      var r := ReadOne(q);
      var c := ParsedCallback(r.0, parse);
      assert DrainedSoFar(inbox, parse, recvOk, k0, calls + [c], r.1, k + 1) by {
        DrainParsedStep(inbox, parse, recvOk, k0, calls, q, k);
      }
      calls, q, k := calls + [c], r.1, k + 1;
    }
    assert (calls, q, q != []) == ParsedDeliveriesUntil(inbox, parse, recvOk, k0) by {
      DrainParsedStops(inbox, parse, recvOk, k0, calls, q, k);
    }
    rest, failed := q, q != [];
  }

  /**
   * The invariant of the C++ and Go loops: the callbacks made so far followed
   * by what the rest of the queue yields from read `k` on are what the whole
   * queue yields from read `k0` on, with the same unread frames and outcome.
   */
  ghost predicate DrainedSoFar(inbox: seq<Frame>, parse: Parser, recvOk: RecvOutcome, k0: nat,
                               calls: seq<Callback>, q: seq<Frame>, k: nat)
    requires WellFramed(inbox) && WellFramed(q)
  {
    var u := ParsedDeliveriesUntil(q, parse, recvOk, k);
    var goal := ParsedDeliveriesUntil(inbox, parse, recvOk, k0);
    calls + u.0 == goal.0 && u.1 == goal.1 && u.2 == goal.2
  }

  lemma DrainParsedStarts(inbox: seq<Frame>, parse: Parser, recvOk: RecvOutcome, k0: nat)
    requires WellFramed(inbox)
    ensures DrainedSoFar(inbox, parse, recvOk, k0, [], inbox, k0)
  {
    assert [] + ParsedDeliveriesUntil(inbox, parse, recvOk, k0).0 == ParsedDeliveriesUntil(inbox, parse, recvOk, k0).0;
  }

  /** One successful read of the C++ and Go loops moves a callback from what is left to what was made. */
  lemma DrainParsedStep(inbox: seq<Frame>, parse: Parser, recvOk: RecvOutcome, k0: nat,
                        calls: seq<Callback>, q: seq<Frame>, k: nat)
    requires WellFramed(inbox) && WellFramed(q) && q != [] && recvOk(k)
    requires DrainedSoFar(inbox, parse, recvOk, k0, calls, q, k)
    ensures DrainedSoFar(inbox, parse, recvOk, k0, calls + [ParsedCallback(ReadOne(q).0, parse)], ReadOne(q).1, k + 1)
  {
    var v := ParsedDeliveriesUntil(ReadOne(q).1, parse, recvOk, k + 1);
    ParsedDeliveriesUntilUnfold(q, parse, recvOk, k);
    CallbacksRegroup(calls, [ParsedCallback(ReadOne(q).0, parse)], v.0);
  }

  /** The C++ and Go loops end on an empty queue or a failed read, having made no further callback. */
  lemma DrainParsedStops(inbox: seq<Frame>, parse: Parser, recvOk: RecvOutcome, k0: nat,
                         calls: seq<Callback>, q: seq<Frame>, k: nat)
    requires WellFramed(inbox) && WellFramed(q) && (q == [] || !recvOk(k))
    requires DrainedSoFar(inbox, parse, recvOk, k0, calls, q, k)
    ensures (calls, q, q != []) == ParsedDeliveriesUntil(inbox, parse, recvOk, k0)
  {
    assert calls + [] == calls;
  }

  /** The number of callbacks of the C++ and Go loops is the number of queued messages. */
  lemma {:induction false} ParsedDeliveriesCount(ps: seq<Publication>, parse: Parser)
    requires Publishable(ps)
    ensures |ParsedDeliveries(Wire(ps), parse)| == |ps|
  {
    ParsedRoundTrip(ps, parse);
  }
}

=== FILE: subscribe_steps.dfy ===
/*
 * subscribe / unSubscribe of the three bindings as functions of the SUB
 * socket: each validates the topic, then sets ZMQ_SUBSCRIBE or
 * ZMQ_UNSUBSCRIBE with the topic's bytes as the prefix. The outcome of a
 * setsockopt call (C++ and Go) is read from an oracle indexed by the number
 * of options already set on the socket.
 */
module SubscribeSteps {
  import opened EmfTypes
  import opened Topic
  import opened TopicList

  /** `ok(k)` is false when the option set after `k` earlier options fails. */
  type OptionOutcome = nat -> bool

  /** The socket after an operation is the same socket with possibly more options. */
  predicate SameSocket(a: Option<SubSocket>, b: Option<SubSocket>)
  {
    a.None? == b.None? &&
    (a.Some? ==> b.value.endpoint == a.value.endpoint && b.value.inbox == a.value.inbox &&
                 a.value.filters <= b.value.filters)
  }

  /** The subscriptions after one more option. */
  lemma SubscriptionsSnoc(log: seq<FilterOp>, op: FilterOp)
    ensures Subscriptions(log + [op]) ==
            if op.Subscribe? then Subscriptions(log) + multiset{op.prefix}
            else Subscriptions(log) - multiset{op.prefix}
  {
    assert (log + [op])[..|log|] == log;
  }

  /** subscribeInternal / unSubscribeInternal: no socket is an error, otherwise set the option. */
  function SetFilter(sub: Option<SubSocket>, op: FilterOp, ok: OptionOutcome): (r: (ErrorCode, Option<SubSocket>))
    ensures SameSocket(sub, r.1)
    ensures r.0 != InvalidTopic
    ensures r.0 == Ok <==> sub.Some? && ok(|sub.value.filters|)
    ensures r.0 != Ok ==> r.1 == sub
    ensures r.0 == Ok && op.Subscribe? ==>
              Subscriptions(r.1.value.filters) == Subscriptions(sub.value.filters) + multiset{op.prefix}
    ensures r.0 == Ok && op.Unsubscribe? ==>
              Subscriptions(r.1.value.filters) == Subscriptions(sub.value.filters) - multiset{op.prefix}
  {
    match sub
    case None => (Error, None)
    case Some(s) =>
      if !ok(|s.filters|) then (Error, sub)
      else
        SubscriptionsSnoc(s.filters, op);
        (Ok, Some(s.(filters := s.filters + [op])))
  }

  /** jeromq's subscribe and unsubscribe report no failure the Java binding looks at. */
  function AlwaysOk(k: nat): bool
  {
    true
  }

  // ---------------------------------------------------------------- Java

  /** subscribe() (Java): the empty prefix, i.e. every message. */
  function JavaSubscribeAll(sub: Option<SubSocket>): (r: (ErrorCode, Option<SubSocket>))
    ensures SameSocket(sub, r.1)
    ensures r.0 == Ok <==> sub.Some?
    ensures r.0 == Ok ==> [] in Subscriptions(r.1.value.filters)
  {
    SetFilter(sub, Subscribe([]), AlwaysOk)
  }

  /** unSubscribe() (Java). */
  function JavaUnsubscribeAll(sub: Option<SubSocket>): (r: (ErrorCode, Option<SubSocket>))
    ensures SameSocket(sub, r.1)
    ensures r.0 == Ok <==> sub.Some?
    ensures r.0 == Ok ==> Subscriptions(r.1.value.filters) == Subscriptions(sub.value.filters) - multiset{[]}
  {
    SetFilter(sub, Unsubscribe([]), AlwaysOk)
  }

  /** subscribe(topic) (Java): the topic is validated before the socket is looked at. */
  function JavaSubscribe(sub: Option<SubSocket>, topic: Option<string>): (r: (ErrorCode, Option<SubSocket>))
    ensures SameSocket(sub, r.1)
    ensures r.0 == InvalidTopic <==> JavaValidateTopic(topic).None?
    ensures r.0 == InvalidTopic ==> r.1 == sub
    ensures r.0 == Ok <==> JavaValidateTopic(topic).Some? && sub.Some?
    ensures r.0 == Ok ==> Subscriptions(r.1.value.filters) ==
                          Subscriptions(sub.value.filters) + multiset{TopicBytes(JavaValidateTopic(topic).value)}
  {
    match JavaValidateTopic(topic)
    case None => (InvalidTopic, sub)
    case Some(valid) => SetFilter(sub, Subscribe(TopicBytes(valid)), AlwaysOk)
  }

  /**
   * unSubscribe(topic) (Java) as written: the topic is validated, but the
   * prefix removed is the topic as the caller gave it, not its normalised form.
   */
  function JavaUnsubscribeAsWritten(sub: Option<SubSocket>, topic: Option<string>): (r: (ErrorCode, Option<SubSocket>))
    ensures SameSocket(sub, r.1)
    ensures r.0 == InvalidTopic <==> JavaValidateTopic(topic).None?
    ensures r.0 == Ok <==> JavaValidateTopic(topic).Some? && sub.Some?
    ensures r.0 == Ok ==> Subscriptions(r.1.value.filters) ==
                          Subscriptions(sub.value.filters) - multiset{TopicBytes(topic.value)}
  {
    match JavaValidateTopic(topic)
    case None => (InvalidTopic, sub)
    case Some(_) => SetFilter(sub, Unsubscribe(TopicBytes(topic.value)), AlwaysOk)
  }

  /** unSubscribe(topic) (Java) corrected: the normalised topic is removed, as subscribe added it. */
  function JavaUnsubscribe(sub: Option<SubSocket>, topic: Option<string>): (r: (ErrorCode, Option<SubSocket>))
    ensures SameSocket(sub, r.1)
    ensures r.0 == InvalidTopic <==> JavaValidateTopic(topic).None?
    ensures r.0 == InvalidTopic ==> r.1 == sub
    ensures r.0 == Ok <==> JavaValidateTopic(topic).Some? && sub.Some?
    ensures r.0 == Ok ==> Subscriptions(r.1.value.filters) ==
                          Subscriptions(sub.value.filters) - multiset{TopicBytes(JavaValidateTopic(topic).value)}
  {
    match JavaValidateTopic(topic)
    case None => (InvalidTopic, sub)
    case Some(valid) => SetFilter(sub, Unsubscribe(TopicBytes(valid)), AlwaysOk)
  }

  /**
   * As written, subscribe(t) followed by unSubscribe(t) for a valid topic
   * without a trailing '/' leaves t + "/" subscribed: the unsubscribe removes
   * nothing the subscribe added.
   */
  lemma JavaUnsubscribeLeavesTopic(s: SubSocket, t: string)
    requires MatchesTopicPattern(t) && !EndsWithSlash(t)
    ensures JavaSubscribe(Some(s), Some(t)).0 == Ok
    ensures JavaUnsubscribeAsWritten(JavaSubscribe(Some(s), Some(t)).1, Some(t)).0 == Ok
    ensures TopicBytes(t + "/") in
            Subscriptions(JavaUnsubscribeAsWritten(JavaSubscribe(Some(s), Some(t)).1, Some(t)).1.value.filters)
  {
    var p := TopicBytes(t + "/");
    var q := TopicBytes(t);
    assert |p| != |q|;
    var s1 := JavaSubscribe(Some(s), Some(t)).1.value;
    assert Subscriptions(s1.filters) == Subscriptions(s.filters) + multiset{p};
    assert (Subscriptions(s.filters) + multiset{p} - multiset{q})[p] >= 1;
  }

  /** The concrete case: subscribe("a"), unSubscribe("a") leaves "a/" (bytes 97, 47) subscribed on a socket that had no options. */
  lemma JavaUnsubscribeCounterexample(endpoint: string)
    ensures var s := SubSocket(Some(endpoint), [], []);
            var after := JavaUnsubscribeAsWritten(JavaSubscribe(Some(s), Some("a")).1, Some("a")).1;
            after.Some? && Subscriptions(after.value.filters) == multiset{[97, 47]}
  {
    var s := SubSocket(Some(endpoint), [], []);
    JavaUnsubscribeLeavesTopic(s, "a");
    var p := TopicBytes("a/");
    assert p == [97, 47];
    var after := JavaUnsubscribeAsWritten(JavaSubscribe(Some(s), Some("a")).1, Some("a")).1;
    assert Subscriptions(after.value.filters) == multiset{p} - multiset{TopicBytes("a")};
    assert TopicBytes("a") != p by {
      assert |TopicBytes("a")| != |p|;
    }
  }

  /** Corrected: unsubscribing a topic right after subscribing it restores the subscriptions. */
  lemma JavaSubscribeThenUnsubscribe(s: SubSocket, t: Option<string>)
    ensures JavaSubscribe(Some(s), t).0 == Ok <==> JavaValidateTopic(t).Some?
    ensures JavaSubscribe(Some(s), t).0 == Ok ==>
              JavaUnsubscribe(JavaSubscribe(Some(s), t).1, t).0 == Ok &&
              Subscriptions(JavaUnsubscribe(JavaSubscribe(Some(s), t).1, t).1.value.filters) == Subscriptions(s.filters)
  {
    if JavaValidateTopic(t).Some? {
      var p := TopicBytes(JavaValidateTopic(t).value);
      assert Subscriptions(s.filters) + multiset{p} - multiset{p} == Subscriptions(s.filters);
    }
  }

  function JavaSubscribeStep(): (Option<SubSocket>, Option<string>) -> (ErrorCode, Option<SubSocket>)
  {
    (sub: Option<SubSocket>, t: Option<string>) => JavaSubscribe(sub, t)
  }

  function JavaUnsubscribeStep(): (Option<SubSocket>, Option<string>) -> (ErrorCode, Option<SubSocket>)
  {
    (sub: Option<SubSocket>, t: Option<string>) => JavaUnsubscribe(sub, t)
  }

  /** subscribe(list) (Java): a null list is an invalid topic; an empty one subscribes nothing and is OK. */
  function JavaSubscribeList(sub: Option<SubSocket>, topics: Option<seq<Option<string>>>)
    : (r: (ErrorCode, Option<SubSocket>))
    ensures topics.None? ==> r == (InvalidTopic, sub)
    ensures topics == Some([]) ==> r == (Ok, sub)
    ensures SameSocket(sub, r.1)
  {
    match topics
    case None => (InvalidTopic, sub)
    case Some(ts) =>
      ApplyPreserves(sub, ts, JavaSubscribeStep(), (t: Option<SubSocket>) => SameSocket(sub, t));
      ApplyUntilFailure(sub, ts, JavaSubscribeStep())
  }

  function JavaUnsubscribeAsWrittenStep(): (Option<SubSocket>, Option<string>) -> (ErrorCode, Option<SubSocket>)
  {
    (sub: Option<SubSocket>, t: Option<string>) => JavaUnsubscribeAsWritten(sub, t)
  }

  /** unSubscribe(list) (Java) as written: each entry goes through the as-written unSubscribe(topic). */
  function JavaUnsubscribeListAsWritten(sub: Option<SubSocket>, topics: Option<seq<Option<string>>>)
    : (r: (ErrorCode, Option<SubSocket>))
    ensures topics.None? ==> r == (InvalidTopic, sub)
    ensures topics == Some([]) ==> r == (Ok, sub)
    ensures SameSocket(sub, r.1)
  {
    match topics
    case None => (InvalidTopic, sub)
    case Some(ts) =>
      ApplyPreserves(sub, ts, JavaUnsubscribeAsWrittenStep(), (t: Option<SubSocket>) => SameSocket(sub, t));
      ApplyUntilFailure(sub, ts, JavaUnsubscribeAsWrittenStep())
  }

  /** A one-element list runs its single step. */
  lemma ApplySingle<S, X>(s: S, x: X, step: (S, X) -> (ErrorCode, S))
    ensures ApplyUntilFailure(s, [x], step) == step(s, x)
  {
    assert [x][1..] == [];
  }

  /**
   * As written, subscribe([t]) followed by unSubscribe([t]) for a valid topic
   * without a trailing '/' leaves t + "/" subscribed, as the single-topic
   * operations do.
   */
  lemma JavaListUnsubscribeLeavesTopic(s: SubSocket, t: string)
    requires MatchesTopicPattern(t) && !EndsWithSlash(t)
    ensures JavaSubscribeList(Some(s), Some([Some(t)])).0 == Ok
    ensures JavaUnsubscribeListAsWritten(JavaSubscribeList(Some(s), Some([Some(t)])).1, Some([Some(t)])).0 == Ok
    ensures TopicBytes(t + "/") in
            Subscriptions(JavaUnsubscribeListAsWritten(JavaSubscribeList(Some(s), Some([Some(t)])).1,
                                                       Some([Some(t)])).1.value.filters)
  {
    ApplySingle(Some(s), Some(t), JavaSubscribeStep());
    var s1 := JavaSubscribe(Some(s), Some(t)).1;
    ApplySingle(s1, Some(t), JavaUnsubscribeAsWrittenStep());
    JavaUnsubscribeLeavesTopic(s, t);
  }

  /**
   * unSubscribe(list) (Java) corrected: each entry goes through the corrected
   * unSubscribe(topic), which removes the normalised topic.
   */
  function JavaUnsubscribeList(sub: Option<SubSocket>, topics: Option<seq<Option<string>>>)
    : (r: (ErrorCode, Option<SubSocket>))
    ensures topics.None? ==> r == (InvalidTopic, sub)
    ensures topics == Some([]) ==> r == (Ok, sub)
    ensures SameSocket(sub, r.1)
  {
    match topics
    case None => (InvalidTopic, sub)
    case Some(ts) =>
      ApplyPreserves(sub, ts, JavaUnsubscribeStep(), (t: Option<SubSocket>) => SameSocket(sub, t));
      ApplyUntilFailure(sub, ts, JavaUnsubscribeStep())
  }

  // ---------------------------------------------------------------- C++

  /** subscribe() (C++). */
  function CppSubscribeAll(sub: Option<SubSocket>, ok: OptionOutcome): (r: (ErrorCode, Option<SubSocket>))
    ensures SameSocket(sub, r.1)
    ensures r.0 == Ok <==> sub.Some? && ok(|sub.value.filters|)
    ensures r.0 == Ok ==> [] in Subscriptions(r.1.value.filters)
  {
    SetFilter(sub, Subscribe([]), ok)
  }

  /** unSubscribe() (C++). */
  function CppUnsubscribeAll(sub: Option<SubSocket>, ok: OptionOutcome): (r: (ErrorCode, Option<SubSocket>))
    ensures SameSocket(sub, r.1)
    ensures r.0 == Ok <==> sub.Some? && ok(|sub.value.filters|)
    ensures r.0 == Ok ==> Subscriptions(r.1.value.filters) == Subscriptions(sub.value.filters) - multiset{[]}
  {
    SetFilter(sub, Unsubscribe([]), ok)
  }

  /** subscribe(topic) (C++): sanitize first, then the socket. */
  function CppSubscribe(sub: Option<SubSocket>, topic: string, ok: OptionOutcome): (r: (ErrorCode, Option<SubSocket>))
    ensures SameSocket(sub, r.1)
    ensures r.0 == InvalidTopic <==> !MatchesTopicPattern(topic)
    ensures r.0 == InvalidTopic ==> r.1 == sub
    ensures r.0 == Ok <==> MatchesTopicPattern(topic) && sub.Some? && ok(|sub.value.filters|)
    ensures r.0 == Ok ==> Subscriptions(r.1.value.filters) ==
                          Subscriptions(sub.value.filters) + multiset{TopicBytes(CppSanitizeTopic(topic))}
  {
    var valid := CppSanitizeTopic(topic);
    if valid == "" then (InvalidTopic, sub) else SetFilter(sub, Subscribe(TopicBytes(valid)), ok)
  }

  /** unSubscribe(topic) (C++): the sanitized topic is removed. */
  function CppUnsubscribe(sub: Option<SubSocket>, topic: string, ok: OptionOutcome): (r: (ErrorCode, Option<SubSocket>))
    ensures SameSocket(sub, r.1)
    ensures r.0 == InvalidTopic <==> !MatchesTopicPattern(topic)
    ensures r.0 == InvalidTopic ==> r.1 == sub
    ensures r.0 == Ok <==> MatchesTopicPattern(topic) && sub.Some? && ok(|sub.value.filters|)
    ensures r.0 == Ok ==> Subscriptions(r.1.value.filters) ==
                          Subscriptions(sub.value.filters) - multiset{TopicBytes(CppSanitizeTopic(topic))}
  {
    var valid := CppSanitizeTopic(topic);
    if valid == "" then (InvalidTopic, sub) else SetFilter(sub, Unsubscribe(TopicBytes(valid)), ok)
  }

  /** C++: unsubscribing a topic right after subscribing it (both accepted) restores the subscriptions. */
  lemma CppSubscribeThenUnsubscribe(s: SubSocket, t: string, ok: OptionOutcome)
    requires CppSubscribe(Some(s), t, ok).0 == Ok
    requires CppUnsubscribe(CppSubscribe(Some(s), t, ok).1, t, ok).0 == Ok
    ensures Subscriptions(CppUnsubscribe(CppSubscribe(Some(s), t, ok).1, t, ok).1.value.filters) ==
            Subscriptions(s.filters)
  {
    var p := TopicBytes(CppSanitizeTopic(t));
    assert Subscriptions(s.filters) + multiset{p} - multiset{p} == Subscriptions(s.filters);
  }

  function CppSubscribeStep(ok: OptionOutcome): (Option<SubSocket>, string) -> (ErrorCode, Option<SubSocket>)
  {
    (sub: Option<SubSocket>, t: string) => CppSubscribe(sub, t, ok)
  }

  function CppUnsubscribeStep(ok: OptionOutcome): (Option<SubSocket>, string) -> (ErrorCode, Option<SubSocket>)
  {
    (sub: Option<SubSocket>, t: string) => CppUnsubscribe(sub, t, ok)
  }

  /** subscribe(list) (C++): an empty list is an invalid topic. */
  function CppSubscribeList(sub: Option<SubSocket>, topics: seq<string>, ok: OptionOutcome)
    : (r: (ErrorCode, Option<SubSocket>))
    ensures topics == [] ==> r == (InvalidTopic, sub)
    ensures SameSocket(sub, r.1)
  {
    if topics == [] then (InvalidTopic, sub)
    else
      ApplyPreserves(sub, topics, CppSubscribeStep(ok), (t: Option<SubSocket>) => SameSocket(sub, t));
      ApplyUntilFailure(sub, topics, CppSubscribeStep(ok))
  }

  /** unSubscribe(list) (C++). */
  function CppUnsubscribeList(sub: Option<SubSocket>, topics: seq<string>, ok: OptionOutcome)
    : (r: (ErrorCode, Option<SubSocket>))
    ensures topics == [] ==> r == (InvalidTopic, sub)
    ensures SameSocket(sub, r.1)
  {
    if topics == [] then (InvalidTopic, sub)
    else
      ApplyPreserves(sub, topics, CppUnsubscribeStep(ok), (t: Option<SubSocket>) => SameSocket(sub, t));
      ApplyUntilFailure(sub, topics, CppUnsubscribeStep(ok))
  }

  /** The prefixes a list of topics subscribes to, one per topic. */
  function TopicPrefixes(topics: seq<string>): (m: multiset<Bytes>)
    ensures |m| == |topics|
  {
    if topics == [] then multiset{}
    else multiset{TopicBytes(CppSanitizeTopic(topics[0]))} + TopicPrefixes(topics[1..])
  }

  /** A topic-by-topic subscribe that ends with OK added exactly the prefixes of its topics. */
  lemma {:induction false} CppSubscribeFoldAdds(sub: Option<SubSocket>, topics: seq<string>, ok: OptionOutcome)
    requires sub.Some?
    requires ApplyUntilFailure(sub, topics, CppSubscribeStep(ok)).0 == Ok
    ensures ApplyUntilFailure(sub, topics, CppSubscribeStep(ok)).1.Some?
    ensures Subscriptions(ApplyUntilFailure(sub, topics, CppSubscribeStep(ok)).1.value.filters) ==
            Subscriptions(sub.value.filters) + TopicPrefixes(topics)
    decreases |topics|
  {
    if topics != [] {
      var step := CppSubscribeStep(ok);
      var r := CppSubscribe(sub, topics[0], ok);
      assert step(sub, topics[0]) == r;
      ApplyCons(sub, topics, step);
      CppSubscribeFoldAdds(r.1, topics[1..], ok);
    }
  }

  /** C++ subscribe(list) that returns OK subscribed every topic of the list, each in its normalised form. */
  lemma CppSubscribeListAdds(sub: Option<SubSocket>, topics: seq<string>, ok: OptionOutcome)
    requires CppSubscribeList(sub, topics, ok).0 == Ok
    ensures topics != [] && sub.Some? && AllTopicsValid(topics)
    ensures Subscriptions(CppSubscribeList(sub, topics, ok).1.value.filters) ==
            Subscriptions(sub.value.filters) + TopicPrefixes(topics)
  {
    AllStepsOk(sub, topics, CppSubscribeStep(ok), 0);
    assert topics[..0] == [];
    CppSubscribeFoldAdds(sub, topics, ok);
    CppFoldOkTopicsValid(sub, topics, ok, false);
  }

  /** A topic-by-topic unsubscribe that ends with OK removed exactly the prefixes of its topics. */
  lemma {:induction false} CppUnsubscribeFoldRemoves(sub: Option<SubSocket>, topics: seq<string>, ok: OptionOutcome)
    requires sub.Some?
    requires ApplyUntilFailure(sub, topics, CppUnsubscribeStep(ok)).0 == Ok
    ensures ApplyUntilFailure(sub, topics, CppUnsubscribeStep(ok)).1.Some?
    ensures Subscriptions(ApplyUntilFailure(sub, topics, CppUnsubscribeStep(ok)).1.value.filters) ==
            Subscriptions(sub.value.filters) - TopicPrefixes(topics)
    decreases |topics|
  {
    if topics != [] {
      var step := CppUnsubscribeStep(ok);
      var r := CppUnsubscribe(sub, topics[0], ok);
      assert step(sub, topics[0]) == r;
      ApplyCons(sub, topics, step);
      CppUnsubscribeFoldRemoves(r.1, topics[1..], ok);
      MultisetDifferenceTwice(Subscriptions(sub.value.filters), multiset{TopicBytes(CppSanitizeTopic(topics[0]))},
                              TopicPrefixes(topics[1..]));
    }
  }

  /** Removing `b` and then `c` from a multiset removes `b + c`. */
  lemma MultisetDifferenceTwice<T>(a: multiset<T>, b: multiset<T>, c: multiset<T>)
    ensures a - b - c == a - (b + c)
  {
    forall x
      ensures (a - b - c)[x] == (a - (b + c))[x]
    {
    }
  }

  /** C++ unSubscribe(list) that returns OK removed every topic of the list, each in its normalised form. */
  lemma CppUnsubscribeListRemoves(sub: Option<SubSocket>, topics: seq<string>, ok: OptionOutcome)
    requires CppUnsubscribeList(sub, topics, ok).0 == Ok
    ensures topics != [] && sub.Some? && AllTopicsValid(topics)
    ensures Subscriptions(CppUnsubscribeList(sub, topics, ok).1.value.filters) ==
            Subscriptions(sub.value.filters) - TopicPrefixes(topics)
  {
    AllStepsOk(sub, topics, CppUnsubscribeStep(ok), 0);
    assert topics[..0] == [];
    CppUnsubscribeFoldRemoves(sub, topics, ok);
    CppFoldOkTopicsValid(sub, topics, ok, true);
  }

  // ---------------------------------------------------------------- Go

  /** Subscribe (Go): SetSubscribe(""), the C++ subscribe(). */
  function GoSubscribeAll(sub: Option<SubSocket>, ok: OptionOutcome): (r: (ErrorCode, Option<SubSocket>))
    ensures SameSocket(sub, r.1)
    ensures r.0 == Ok <==> sub.Some? && ok(|sub.value.filters|)
    ensures r.0 == Ok ==> [] in Subscriptions(r.1.value.filters)
  {
    CppSubscribeAll(sub, ok)
  }

  /** UnSubscribe (Go): SetUnsubscribe(""), the C++ unSubscribe(). */
  function GoUnsubscribeAll(sub: Option<SubSocket>, ok: OptionOutcome): (r: (ErrorCode, Option<SubSocket>))
    ensures SameSocket(sub, r.1)
    ensures r.0 == Ok <==> sub.Some? && ok(|sub.value.filters|)
    ensures r.0 == Ok ==> Subscriptions(r.1.value.filters) == Subscriptions(sub.value.filters) - multiset{[]}
  {
    CppUnsubscribeAll(sub, ok)
  }

  /** SubscribeForTopic (Go). */
  function GoSubscribe(sub: Option<SubSocket>, topic: string, ok: OptionOutcome): (r: (ErrorCode, Option<SubSocket>))
    ensures SameSocket(sub, r.1)
    ensures r.0 == InvalidTopic <==> !MatchesTopicPattern(topic)
    ensures r.0 == InvalidTopic ==> r.1 == sub
    ensures r.0 == Ok <==> MatchesTopicPattern(topic) && sub.Some? && ok(|sub.value.filters|)
    ensures r.0 == Ok ==> Subscriptions(r.1.value.filters) ==
                          Subscriptions(sub.value.filters) + multiset{TopicBytes(GoSanitizeTopic(topic))}
  {
    var valid := GoSanitizeTopic(topic);
    if valid == "" then (InvalidTopic, sub) else SetFilter(sub, Subscribe(TopicBytes(valid)), ok)
  }

  /** UnSubscribeForTopic (Go). */
  function GoUnsubscribe(sub: Option<SubSocket>, topic: string, ok: OptionOutcome): (r: (ErrorCode, Option<SubSocket>))
    ensures SameSocket(sub, r.1)
    ensures r.0 == InvalidTopic <==> !MatchesTopicPattern(topic)
    ensures r.0 == InvalidTopic ==> r.1 == sub
    ensures r.0 == Ok <==> MatchesTopicPattern(topic) && sub.Some? && ok(|sub.value.filters|)
    ensures r.0 == Ok ==> Subscriptions(r.1.value.filters) ==
                          Subscriptions(sub.value.filters) - multiset{TopicBytes(GoSanitizeTopic(topic))}
  {
    var valid := GoSanitizeTopic(topic);
    if valid == "" then (InvalidTopic, sub) else SetFilter(sub, Unsubscribe(TopicBytes(valid)), ok)
  }

  /** The Go subscriber sets exactly the options the C++ subscriber sets. */
  lemma GoSubscribeAgreesWithCpp(sub: Option<SubSocket>, topic: string, ok: OptionOutcome)
    ensures GoSubscribe(sub, topic, ok) == CppSubscribe(sub, topic, ok)
    ensures GoUnsubscribe(sub, topic, ok) == CppUnsubscribe(sub, topic, ok)
  {
    BindingsAgree(topic);
  }

  function GoSubscribeStep(ok: OptionOutcome): (Option<SubSocket>, string) -> (ErrorCode, Option<SubSocket>)
  {
    (sub: Option<SubSocket>, t: string) => GoSubscribe(sub, t, ok)
  }

  function GoUnsubscribeStep(ok: OptionOutcome): (Option<SubSocket>, string) -> (ErrorCode, Option<SubSocket>)
  {
    (sub: Option<SubSocket>, t: string) => GoUnsubscribe(sub, t, ok)
  }

  /** SubscribeForTopicList (Go): an empty list is an invalid topic; the first failing code is returned. */
  function GoSubscribeList(sub: Option<SubSocket>, topics: seq<string>, ok: OptionOutcome)
    : (r: (ErrorCode, Option<SubSocket>))
    ensures topics == [] ==> r == (InvalidTopic, sub)
    ensures SameSocket(sub, r.1)
  {
    if topics == [] then (InvalidTopic, sub)
    else
      ApplyPreserves(sub, topics, GoSubscribeStep(ok), (t: Option<SubSocket>) => SameSocket(sub, t));
      ApplyUntilFailure(sub, topics, GoSubscribeStep(ok))
  }

  /** UnSubscribeForTopicList (Go). */
  function GoUnsubscribeList(sub: Option<SubSocket>, topics: seq<string>, ok: OptionOutcome)
    : (r: (ErrorCode, Option<SubSocket>))
    ensures topics == [] ==> r == (InvalidTopic, sub)
    ensures SameSocket(sub, r.1)
  {
    if topics == [] then (InvalidTopic, sub)
    else
      ApplyPreserves(sub, topics, GoUnsubscribeStep(ok), (t: Option<SubSocket>) => SameSocket(sub, t));
      ApplyUntilFailure(sub, topics, GoUnsubscribeStep(ok))
  }

  /** The Go list operations set exactly the options the C++ list operations set, and return the same code. */
  lemma GoListsAgreeWithCpp(sub: Option<SubSocket>, topics: seq<string>, ok: OptionOutcome)
    ensures GoSubscribeList(sub, topics, ok) == CppSubscribeList(sub, topics, ok)
    ensures GoUnsubscribeList(sub, topics, ok) == CppUnsubscribeList(sub, topics, ok)
  {
    forall t, x
      ensures GoSubscribeStep(ok)(t, x) == CppSubscribeStep(ok)(t, x)
      ensures GoUnsubscribeStep(ok)(t, x) == CppUnsubscribeStep(ok)(t, x)
    {
      GoSubscribeAgreesWithCpp(t, x, ok);
    }
    ApplySameSteps(sub, topics, GoSubscribeStep(ok), CppSubscribeStep(ok));
    ApplySameSteps(sub, topics, GoUnsubscribeStep(ok), CppUnsubscribeStep(ok));
  }

  /** Go subscribe(list), unlike Go publish(list), passes an invalid topic's code through. */
  lemma GoSubscribeListReportsInvalidTopic(sub: Option<SubSocket>, topics: seq<string>, ok: OptionOutcome)
    requires topics != [] && !MatchesTopicPattern(topics[0])
    ensures GoSubscribeList(sub, topics, ok) == (InvalidTopic, sub)
  {
  }

  // ------------------------------------------------- Java lists against C++

  /** With the options always accepted, the Java single-topic operations are the C++ ones on the topic's text. */
  lemma JavaAgreesWithCpp(sub: Option<SubSocket>, topic: Option<string>)
    ensures JavaSubscribe(sub, topic) == CppSubscribe(sub, JavaTopicText(topic), AlwaysOk)
    ensures JavaUnsubscribe(sub, topic) == CppUnsubscribe(sub, JavaTopicText(topic), AlwaysOk)
  {
    BindingsAgree(JavaTopicText(topic));
  }

  /** The Java list operations are the C++ fold over the texts of the entries. */
  lemma JavaFoldsAgreeWithCpp(sub: Option<SubSocket>, topics: seq<Option<string>>)
    ensures ApplyUntilFailure(sub, topics, JavaSubscribeStep()) ==
            ApplyUntilFailure(sub, JavaTopicTexts(topics), CppSubscribeStep(AlwaysOk))
    ensures ApplyUntilFailure(sub, topics, JavaUnsubscribeStep()) ==
            ApplyUntilFailure(sub, JavaTopicTexts(topics), CppUnsubscribeStep(AlwaysOk))
  {
    forall t, x
      ensures JavaSubscribeStep()(t, x) == CppSubscribeStep(AlwaysOk)(t, JavaTopicText(x))
      ensures JavaUnsubscribeStep()(t, x) == CppUnsubscribeStep(AlwaysOk)(t, JavaTopicText(x))
    {
      JavaAgreesWithCpp(t, x);
    }
    ApplyMapped(sub, topics, JavaTopicTexts(topics), JavaTopicText, JavaSubscribeStep(), CppSubscribeStep(AlwaysOk));
    ApplyMapped(sub, topics, JavaTopicTexts(topics), JavaTopicText, JavaUnsubscribeStep(), CppUnsubscribeStep(AlwaysOk));
  }

  /** Every text of a Java list is valid exactly when every entry validates. */
  lemma JavaTextsValid(topics: seq<Option<string>>)
    ensures AllTopicsValid(JavaTopicTexts(topics)) <==> forall i :: 0 <= i < |topics| ==> JavaValidateTopic(topics[i]).Some?
  {
    if AllTopicsValid(JavaTopicTexts(topics)) {
      forall i | 0 <= i < |topics|
        ensures JavaValidateTopic(topics[i]).Some?
      {
        assert MatchesTopicPattern(JavaTopicTexts(topics)[i]);
      }
    } else {
      var i :| 0 <= i < |topics| && !MatchesTopicPattern(JavaTopicTexts(topics)[i]);
      assert JavaValidateTopic(topics[i]).None?;
    }
  }

  /** A fold of C++ subscribe steps that returns OK met only valid topics. */
  lemma CppFoldOkTopicsValid(sub: Option<SubSocket>, topics: seq<string>, ok: OptionOutcome, unsubscribe: bool)
    requires unsubscribe ==> ApplyUntilFailure(sub, topics, CppUnsubscribeStep(ok)).0 == Ok
    requires !unsubscribe ==> ApplyUntilFailure(sub, topics, CppSubscribeStep(ok)).0 == Ok
    ensures AllTopicsValid(topics)
  {
    forall k | 0 <= k < |topics|
      ensures MatchesTopicPattern(topics[k])
    {
      if unsubscribe {
        AllStepsOk(sub, topics, CppUnsubscribeStep(ok), k);
      } else {
        AllStepsOk(sub, topics, CppSubscribeStep(ok), k);
      }
    }
  }

  /**
   * A fold of C++ subscribe (or unsubscribe) steps returns OK when there is a
   * socket, every topic is valid and every option is accepted.
   */
  lemma CppFoldSucceeds(sub: Option<SubSocket>, topics: seq<string>, ok: OptionOutcome)
    requires sub.Some? && AllTopicsValid(topics) && forall k :: ok(k)
    ensures ApplyUntilFailure(sub, topics, CppSubscribeStep(ok)).0 == Ok
    ensures ApplyUntilFailure(sub, topics, CppUnsubscribeStep(ok)).0 == Ok
  {
    var inv := (t: Option<SubSocket>) => t.Some?;
    ApplyAllOk(sub, topics, CppSubscribeStep(ok), inv, MatchesTopicPattern);
    ApplyAllOk(sub, topics, CppUnsubscribeStep(ok), inv, MatchesTopicPattern);
  }

  /**
   * Converse of CppSubscribeListAdds and CppUnsubscribeListRemoves: with a
   * socket, a non-empty list of valid topics and no failing option, C++
   * subscribe(list) and unSubscribe(list) return OK.
   */
  lemma CppListsSucceed(sub: Option<SubSocket>, topics: seq<string>, ok: OptionOutcome)
    requires topics != [] && sub.Some? && AllTopicsValid(topics) && forall k :: ok(k)
    ensures CppSubscribeList(sub, topics, ok).0 == Ok
    ensures CppUnsubscribeList(sub, topics, ok).0 == Ok
  {
    CppFoldSucceeds(sub, topics, ok);
  }

  /** Java subscribe(list) that returns OK met only valid entries and subscribed each, normalised. */
  lemma JavaSubscribeListAdds(sub: Option<SubSocket>, topics: seq<Option<string>>)
    requires JavaSubscribeList(sub, Some(topics)).0 == Ok
    ensures forall i :: 0 <= i < |topics| ==> JavaValidateTopic(topics[i]).Some?
    ensures topics != [] ==> sub.Some?
    ensures sub.Some? ==>
              Subscriptions(JavaSubscribeList(sub, Some(topics)).1.value.filters) ==
              Subscriptions(sub.value.filters) + TopicPrefixes(JavaTopicTexts(topics))
  {
    var texts := JavaTopicTexts(topics);
    JavaFoldsAgreeWithCpp(sub, topics);
    CppFoldOkTopicsValid(sub, texts, AlwaysOk, false);
    JavaTextsValid(topics);
    if topics != [] {
      CppSubscribeListAdds(sub, texts, AlwaysOk);
    }
  }

  /** Java unSubscribe(list), corrected, that returns OK met only valid entries and removed each, normalised. */
  lemma JavaUnsubscribeListRemoves(sub: Option<SubSocket>, topics: seq<Option<string>>)
    requires JavaUnsubscribeList(sub, Some(topics)).0 == Ok
    ensures forall i :: 0 <= i < |topics| ==> JavaValidateTopic(topics[i]).Some?
    ensures topics != [] ==> sub.Some?
    ensures sub.Some? ==>
              Subscriptions(JavaUnsubscribeList(sub, Some(topics)).1.value.filters) ==
              Subscriptions(sub.value.filters) - TopicPrefixes(JavaTopicTexts(topics))
  {
    var texts := JavaTopicTexts(topics);
    JavaFoldsAgreeWithCpp(sub, topics);
    CppFoldOkTopicsValid(sub, texts, AlwaysOk, true);
    JavaTextsValid(topics);
    if topics != [] {
      CppUnsubscribeListRemoves(sub, texts, AlwaysOk);
    }
  }

  /** Java subscribe(list) and the corrected unSubscribe(list) on a socket return OK exactly when every entry validates. */
  lemma JavaListsSucceed(s: SubSocket, topics: seq<Option<string>>)
    ensures JavaSubscribeList(Some(s), Some(topics)).0 == Ok <==>
            forall i :: 0 <= i < |topics| ==> JavaValidateTopic(topics[i]).Some?
    ensures JavaUnsubscribeList(Some(s), Some(topics)).0 == Ok <==>
            forall i :: 0 <= i < |topics| ==> JavaValidateTopic(topics[i]).Some?
  {
    JavaFoldsAgreeWithCpp(Some(s), topics);
    JavaTextsValid(topics);
    if forall i :: 0 <= i < |topics| ==> JavaValidateTopic(topics[i]).Some? {
      CppFoldSucceeds(Some(s), JavaTopicTexts(topics), AlwaysOk);
    }
    if JavaSubscribeList(Some(s), Some(topics)).0 == Ok {
      JavaSubscribeListAdds(Some(s), topics);
    }
    if JavaUnsubscribeList(Some(s), Some(topics)).0 == Ok {
      JavaUnsubscribeListRemoves(Some(s), topics);
    }
  }

  /** Corrected: unSubscribe(list) right after a successful subscribe(list) of the same list restores the subscriptions. */
  lemma JavaListSubscribeThenUnsubscribe(s: SubSocket, topics: seq<Option<string>>)
    requires JavaSubscribeList(Some(s), Some(topics)).0 == Ok
    ensures JavaUnsubscribeList(JavaSubscribeList(Some(s), Some(topics)).1, Some(topics)).0 == Ok
    ensures Subscriptions(JavaUnsubscribeList(JavaSubscribeList(Some(s), Some(topics)).1, Some(topics)).1.value.filters) ==
            Subscriptions(s.filters)
  {
    var s1 := JavaSubscribeList(Some(s), Some(topics)).1;
    JavaSubscribeListAdds(Some(s), topics);
    JavaListsSucceed(s1.value, topics);
    JavaUnsubscribeListRemoves(s1, topics);
    var p := TopicPrefixes(JavaTopicTexts(topics));
    assert Subscriptions(s.filters) + p - p == Subscriptions(s.filters);
  }
}

=== FILE: subscriber.dfy ===
/*
 * The EMFSubscriber object of each binding: start connects a SUB socket (Java
 * and C++ also a PAIR pair used to wake the receiver on shutdown) and starts
 * a receiver; subscribe/unSubscribe set options through SubscribeSteps; the
 * receiver turns queued messages into callbacks; stop tears everything down.
 * The receiver thread is modelled by the receive loop run on demand
 * (`Receive`). Java and C++ stop hold the subscriber lock while they join
 * the receiver, so a stop called while a looping receiver still has data
 * queued never returns (`hung`).
 */
module Subscriber {
  import opened EmfTypes
  import opened Topic
  import opened Address
  import opened TopicList
  import opened Framing
  import opened ReceiveLoops
  import opened SubscribeSteps
  import opened Context

  // ---------------------------------------------------------------- Java

  /** EMFSubscriber (Java). */
  class JavaSubscriber {
    const ip: string
    const port: int
    const context: ZmqContext?
    /** The PAIR socket stop sends the shutdown request from, by its inproc address. */
    var shutdownServer: Option<string>
    /** The PAIR socket the receiver polls for the shutdown request. */
    var shutdownClient: Option<string>
    var subscriber: Option<SubSocket>
    /** A poller holding [subscriber, shutdown client] exists. */
    var polling: bool
    /** mThread is set: a receiver thread was started and not yet dropped by stop. */
    var thread: bool
    /** That thread is still inside its receive loop. */
    var running: bool
    /** A stop blocked for ever on mSubLock, which the receiver needs to read pending data. */
    var hung: bool
    /** Every callback made so far, in order. */
    var delivered: seq<Callback>

    /**
     * The three sockets are created and closed together; a running receiver
     * has its thread, a thread only exists over a poller, which only exists
     * over the sockets; queues hold whole messages.
     */
    predicate Valid()
      reads this
    {
      shutdownServer.Some? == subscriber.Some? && shutdownClient.Some? == subscriber.Some? &&
      (running ==> thread) &&
      (thread ==> polling) &&
      (polling ==> subscriber.Some?) &&
      (subscriber.Some? ==> WellFramed(subscriber.value.inbox))
    }

    /** Nothing is open and no receiver thread is set. */
    predicate Idle()
      reads this
    {
      shutdownServer.None? && shutdownClient.None? && subscriber.None? && !polling && !thread && !running
    }

    /** The receiver loops and a message waits at the SUB socket. */
    predicate Pending()
      reads this
    {
      running && subscriber.Some? && subscriber.value.inbox != []
    }

    constructor(ip: string, port: int, api: JavaEmfApi)
      ensures this.ip == ip && this.port == port && context == api.context
      ensures Idle() && !hung && delivered == [] && Valid()
    {
      this.ip := ip;
      this.port := port;
      context := api.context;
      shutdownServer, shutdownClient, subscriber := None, None, None;
      polling, thread, running, hung := false, false, false, false;
      delivered := [];
    }

    /**
     * `uuid` is the random part of the shutdown address; `connectOk` the
     * outcome of connecting the SUB socket when it has to be created. Creating
     * a socket on a terminated context throws, as a failed connect does; the
     * handler runs stop(), whose teardown `teardownOk` decides. A receiver
     * thread is started only when mThread is not set. The bind and connect
     * of the shutdown PAIR sockets are assumed to succeed.
     */
    method Start(uuid: string, connectOk: bool, teardownOk: bool) returns (r: ErrorCode)
      requires Valid()
      modifies this
      ensures Valid()
      ensures r != InvalidTopic && delivered == old(delivered) && hung == old(hung)
      ensures context == null ==> r == Error && unchanged(this)
      ensures context != null && old(subscriber).Some? ==>
                r == Ok && subscriber == old(subscriber) && shutdownServer == old(shutdownServer) &&
                shutdownClient == old(shutdownClient) && polling && thread &&
                (running <==> old(running) || !old(thread))
      ensures context != null && old(subscriber).None? && !context.terminated && connectOk ==>
                r == Ok && polling && thread && running &&
                subscriber == Some(SubSocket(Some(SubSocketAddress(ip, port)), [], [])) &&
                shutdownServer == Some(ShutdownAddress(uuid)) && shutdownClient == Some(ShutdownAddress(uuid))
      ensures context != null && old(subscriber).None? && context.terminated ==> r == Error && Idle()
      ensures context != null && old(subscriber).None? && !context.terminated && !connectOk ==>
                r == Error && !polling && !thread && !running &&
                (teardownOk ==> Idle()) &&
                (!teardownOk ==> subscriber == Some(SubSocket(None, [], [])) &&
                                 shutdownServer == Some(ShutdownAddress(uuid)) &&
                                 shutdownClient == Some(ShutdownAddress(uuid)))
    {
      if context == null {
        return Error;
      }
      var address := ShutdownAddress(uuid);
      if (shutdownServer.None? || shutdownClient.None? || subscriber.None?) && context.terminated {
        // the first socket to create cannot be made on a terminated context
        var s := Stop(teardownOk);
        return Error;
      }
      if shutdownServer.None? {
        shutdownServer := Some(address);
      }
      if shutdownClient.None? {
        shutdownClient := Some(address);
      }
      if subscriber.None? {
        subscriber := Some(SubSocket(None, [], []));
        if !connectOk {
          var s := Stop(teardownOk);
          return Error;
        }
        subscriber := Some(SubSocket(Some(SubSocketAddress(ip, port)), [], []));
      }
      if !polling {
        polling := true;
      }
      if !thread {
        thread, running := true, true;
      }
      r := Ok;
    }

    /** One message reaches the SUB socket from the network. */
    method Arrival(msg: seq<Frame>)
      requires Valid() && IsMessage(msg)
      modifies this
      ensures Valid()
      ensures subscriber == if old(subscriber).None? then None else Some(Arrive(old(subscriber).value, msg))
      ensures Others() == old(Others())
    {
      if subscriber.Some? {
        ArriveKeepsFraming(subscriber.value, msg);
        subscriber := Some(Arrive(subscriber.value, msg));
      }
    }

    /** The running receiver thread reading every queued message (data is polled before the shutdown socket). */
    method Receive(decode: Decoder)
      requires Valid()
      modifies this
      ensures Valid()
      ensures !old(running) ==> unchanged(this)
      ensures shutdownServer == old(shutdownServer) && shutdownClient == old(shutdownClient)
      ensures polling == old(polling) && thread == old(thread) && running == old(running) && hung == old(hung)
      ensures old(running) ==>
                subscriber == Some(old(subscriber).value.(inbox := [])) &&
                delivered == old(delivered) + JavaDeliveries(old(subscriber).value.inbox, decode)
    {
      if running {
        var calls := DrainJava(subscriber.value.inbox, decode);
        delivered := delivered + calls;
        subscriber := Some(subscriber.value.(inbox := []));
      }
    }

    /** Everything but the SUB socket: what subscribe and unSubscribe leave alone. */
    function Others(): (Option<string>, Option<string>, bool, bool, bool, bool, seq<Callback>)
      reads this
    {
      (shutdownServer, shutdownClient, polling, thread, running, hung, delivered)
    }

    /** Installs the SUB socket an option call left behind; nothing else changes. */
    method Replace(s: Option<SubSocket>)
      requires Valid() && SameSocket(subscriber, s)
      modifies this
      ensures Valid() && Others() == old(Others()) && subscriber == s
    {
      subscriber := s;
    }

    /** subscribe(). */
    method SubscribeAll() returns (r: ErrorCode)
      requires Valid()
      modifies this
      ensures Valid() && Others() == old(Others())
      ensures (r, subscriber) == JavaSubscribeAll(old(subscriber))
    {
      var res := JavaSubscribeAll(subscriber);
      r := res.0;
      Replace(res.1);
    }

    /** subscribe(topic). */
    method Subscribe(topic: Option<string>) returns (r: ErrorCode)
      requires Valid()
      modifies this
      ensures Valid() && Others() == old(Others())
      ensures (r, subscriber) == JavaSubscribe(old(subscriber), topic)
    {
      var res := JavaSubscribe(subscriber, topic);
      r := res.0;
      Replace(res.1);
    }

    /** unSubscribe(). */
    method UnsubscribeAll() returns (r: ErrorCode)
      requires Valid()
      modifies this
      ensures Valid() && Others() == old(Others())
      ensures (r, subscriber) == JavaUnsubscribeAll(old(subscriber))
    {
      var res := JavaUnsubscribeAll(subscriber);
      r := res.0;
      Replace(res.1);
    }

    /** unSubscribe(topic), removing the normalised topic (the corrected behaviour). */
    method Unsubscribe(topic: Option<string>) returns (r: ErrorCode)
      requires Valid()
      modifies this
      ensures Valid() && Others() == old(Others())
      ensures (r, subscriber) == JavaUnsubscribe(old(subscriber), topic)
    {
      var res := JavaUnsubscribe(subscriber, topic);
      r := res.0;
      Replace(res.1);
    }

    /** subscribe(list): subscribe(topic) for each topic, stopping at the first failure. */
    method SubscribeList(topics: Option<seq<Option<string>>>) returns (r: ErrorCode)
      requires Valid()
      modifies this
      ensures Valid() && Others() == old(Others())
      ensures (r, subscriber) == JavaSubscribeList(old(subscriber), topics)
    {
      if topics.None? {
        return InvalidTopic;
      }
      var ts := topics.value;
      ghost var s0 := subscriber;
      var i := 0;
      while i < |ts|
        invariant 0 <= i <= |ts|
        invariant Valid() && Others() == old(Others())
        invariant ApplyUntilFailure(s0, ts[..i], JavaSubscribeStep()) == (Ok, subscriber)
      {
        ghost var t := subscriber;
        r := Subscribe(ts[i]);
        FoldStep(s0, ts, i, JavaSubscribeStep(), t);
        if r != Ok {
          return;
        }
        i := i + 1;
      }
      assert ts[..i] == ts;
      r := Ok;
    }

    /** unSubscribe(list). */
    method UnsubscribeList(topics: Option<seq<Option<string>>>) returns (r: ErrorCode)
      requires Valid()
      modifies this
      ensures Valid() && Others() == old(Others())
      ensures (r, subscriber) == JavaUnsubscribeList(old(subscriber), topics)
    {
      if topics.None? {
        return InvalidTopic;
      }
      var ts := topics.value;
      ghost var s0 := subscriber;
      var i := 0;
      while i < |ts|
        invariant 0 <= i <= |ts|
        invariant Valid() && Others() == old(Others())
        invariant ApplyUntilFailure(s0, ts[..i], JavaUnsubscribeStep()) == (Ok, subscriber)
      {
        ghost var t := subscriber;
        r := Unsubscribe(ts[i]);
        FoldStep(s0, ts, i, JavaUnsubscribeStep(), t);
        if r != Ok {
          return;
        }
        i := i + 1;
      }
      assert ts[..i] == ts;
      r := Ok;
    }

    /**
     * stop() takes mSubLock, sends the shutdown request and joins the
     * receiver while still holding the lock. A running receiver with data
     * pending polls it before the shutdown request and waits for that lock to
     * read it, so neither thread goes on: `hung` is set and `r` is never seen.
     * Otherwise the receiver ends on the shutdown request, and the handles
     * are closed and dropped. `teardownOk` is false when an unregister or a
     * close throws after the join; the handles are then kept, mThread
     * included, though its thread has ended.
     */
    method Stop(teardownOk: bool) returns (r: ErrorCode)
      requires Valid()
      modifies this
      ensures Valid()
      ensures r != InvalidTopic && delivered == old(delivered)
      ensures old(Pending()) ==>
                hung && subscriber == old(subscriber) && shutdownServer == old(shutdownServer) &&
                shutdownClient == old(shutdownClient) && polling == old(polling) && thread == old(thread) &&
                running == old(running)
      ensures !old(Pending()) ==> !running && hung == old(hung) && (r == Ok <==> teardownOk || old(subscriber).None?)
      ensures !old(Pending()) && r == Ok ==> Idle()
      ensures !old(Pending()) && r != Ok ==>
                subscriber == old(subscriber) && shutdownServer == old(shutdownServer) &&
                shutdownClient == old(shutdownClient) && polling == old(polling) && thread == old(thread)
    {
      if Pending() {
        hung := true;
        return Error;
      }
      running := false;
      if subscriber.Some? && !teardownOk {
        return Error;
      }
      shutdownServer, shutdownClient, subscriber := None, None, None;
      polling, thread := false, false;
      r := Ok;
    }
  }

  /**
   * Java: a message still queued when stop takes mSubLock leaves stop in
   * join, waiting for a receiver that waits for the lock; nothing is
   * delivered.
   */
  method JavaStopWithPendingMessageScenario(msg: seq<Frame>) returns (r1: ErrorCode, hung: bool, calls: seq<Callback>)
    requires IsMessage(msg)
    ensures r1 == Ok && hung && calls == []
  {
    var api := new JavaEmfApi();
    var ok := api.Initialize();
    var s := new JavaSubscriber("localhost", 5562, api);
    r1 := s.Start("u", true, true);
    var r := s.SubscribeAll();
    EmptyPrefixAdmitsAll(Subscriptions(s.subscriber.value.filters), msg[0].data);
    s.Arrival(msg);
    r := s.Stop(true);
    hung, calls := s.hung, s.delivered;
  }

  /** Java: once the receiver has read what was queued, stop returns OK with everything closed. */
  method JavaStopAfterReceiveScenario(msg: seq<Frame>, decode: Decoder)
    returns (r: ErrorCode, idle: bool, calls: seq<Callback>)
    requires IsMessage(msg)
    ensures r == Ok && idle && calls == JavaDeliveries(msg, decode)
  {
    var api := new JavaEmfApi();
    var ok := api.Initialize();
    var s := new JavaSubscriber("localhost", 5562, api);
    r := s.Start("u", true, true);
    r := s.SubscribeAll();
    EmptyPrefixAdmitsAll(Subscriptions(s.subscriber.value.filters), msg[0].data);
    s.Arrival(msg);
    assert s.subscriber.value.inbox == msg;
    s.Receive(decode);
    r := s.Stop(true);
    idle, calls := s.Idle() && !s.hung, s.delivered;
  }

  /**
   * Java: a stop whose teardown throws after the join leaves mThread set
   * over a thread that has ended; a message queued afterwards is never read,
   * and a later start reports OK without starting another receiver.
   */
  method JavaStartAfterFailedTeardownScenario(msg: seq<Frame>, decode: Decoder)
    returns (r1: ErrorCode, r2: ErrorCode, r3: ErrorCode, calls: seq<Callback>, running: bool)
    requires IsMessage(msg)
    ensures r1 == Ok && r2 == Error && r3 == Ok && calls == [] && !running
  {
    var api := new JavaEmfApi();
    var ok := api.Initialize();
    var s := new JavaSubscriber("localhost", 5562, api);
    r1 := s.Start("u", true, true);
    var r := s.SubscribeAll();
    r2 := s.Stop(false);
    s.Arrival(msg);
    s.Receive(decode);
    calls := s.delivered;
    r3 := s.Start("v", true, true);
    running := s.running;
  }

  // ---------------------------------------------------------------- C++

  /** The entries of the C++ poll item vector, in the order start pushes them. */
  datatype PollItem = ShutdownItem | SubscriberItem

  /** EMFSubscriber (C++). */
  class CppSubscriber {
    const ip: string
    const port: int
    const context: ZmqContext?
    var shutdownServer: Option<string>
    var shutdownClient: Option<string>
    var subscriber: Option<SubSocket>
    var pollItems: seq<PollItem>
    /** isReceiverStarted: set by start, cleared by stop and by a receiver whose read fails. */
    var receiverStarted: bool
    /** The receiver thread is inside its loop (it returns at once when there are no poll items). */
    var receiving: bool
    /** mThread.joinable(): a receiver thread was started and not yet joined, finished or not. */
    var joinable: bool
    /** The process ended in std::terminate (a new thread move-assigned over a joinable one). */
    var aborted: bool
    /** A stop blocked for ever on mSubLock, which the receiver needs to read pending data. */
    var hung: bool
    var delivered: seq<Callback>

    /**
     * The three sockets exist together; the poll items are a prefix of
     * [shutdown client, subscriber]; a started receiver has a thread, a
     * thread runs over the sockets, and a receiver that loops has both items.
     */
    predicate Valid()
      reads this
    {
      shutdownServer.Some? == subscriber.Some? && shutdownClient.Some? == subscriber.Some? &&
      pollItems <= [ShutdownItem, SubscriberItem] &&
      (pollItems != [] ==> subscriber.Some?) &&
      (receiverStarted ==> joinable) &&
      (joinable ==> subscriber.Some?) &&
      (receiving ==> receiverStarted && |pollItems| == 2) &&
      (subscriber.Some? ==> WellFramed(subscriber.value.inbox))
    }

    function Others(): (Option<string>, Option<string>, seq<PollItem>, bool, bool, bool, bool, bool, seq<Callback>)
      reads this
    {
      (shutdownServer, shutdownClient, pollItems, receiverStarted, receiving, joinable, aborted, hung, delivered)
    }

    /** The receiver loops and a message waits at the SUB socket. */
    predicate Pending()
      reads this
    {
      receiving && subscriber.Some? && subscriber.value.inbox != []
    }

    constructor(ip: string, port: int, api: CppEmfApi)
      ensures this.ip == ip && this.port == port && context == api.context
      ensures shutdownServer.None? && shutdownClient.None? && subscriber.None?
      ensures pollItems == [] && !receiverStarted && !receiving && !joinable && !aborted && !hung && delivered == []
      ensures Valid()
    {
      this.ip := ip;
      this.port := port;
      context := api.context;
      shutdownServer, shutdownClient, subscriber := None, None, None;
      pollItems := [];
      receiverStarted, receiving, joinable, aborted, hung := false, false, false, false, false;
      delivered := [];
    }

    /**
     * `rand` is the std::rand() value naming the shutdown address; `connectOk`
     * the outcome of connecting a new SUB socket. On failure stop() runs, but
     * with no receiver thread its join throws, so the sockets stay open.
     * Starting a receiver while the thread of an earlier one is still
     * joinable (its read failed, so the flag was cleared but nobody joined
     * it) ends the process: `aborted` is set and `r` is never seen. The bind
     * and connect of the shutdown PAIR sockets are assumed to succeed.
     */
    method Start(rand: nat, connectOk: bool) returns (r: ErrorCode)
      requires Valid()
      modifies this
      ensures Valid()
      ensures r != InvalidTopic && delivered == old(delivered) && hung == old(hung)
      ensures context == null ==> r == Error && unchanged(this)
      ensures context != null && old(subscriber).Some? && !old(receiverStarted) && old(joinable) ==>
                aborted && subscriber == old(subscriber) && pollItems == old(pollItems) &&
                !receiverStarted && !receiving && joinable
      ensures context != null && old(subscriber).Some? && (old(receiverStarted) || !old(joinable)) ==>
                r == Ok && subscriber == old(subscriber) && pollItems == old(pollItems) && receiverStarted &&
                joinable && aborted == old(aborted) &&
                (receiving <==> old(receiving) || (!old(receiverStarted) && |pollItems| == 2))
      ensures context != null && old(subscriber).None? && connectOk ==>
                r == Ok && subscriber == Some(SubSocket(Some(SubSocketAddress(ip, port)), [], [])) &&
                shutdownServer == Some(ShutdownAddress(NatToDecimal(rand))) &&
                pollItems == [ShutdownItem, SubscriberItem] && receiverStarted && receiving && joinable &&
                aborted == old(aborted)
      ensures context != null && old(subscriber).None? && !connectOk ==>
                r == Error && subscriber == Some(SubSocket(None, [], [])) &&
                shutdownServer == Some(ShutdownAddress(NatToDecimal(rand))) &&
                pollItems == [] && !receiverStarted && !receiving && !joinable && aborted == old(aborted)
    {
      if context == null {
        return Error;
      }
      var address := ShutdownAddress(NatToDecimal(rand));
      if shutdownServer.None? {
        shutdownServer := Some(address);
      }
      if shutdownClient.None? {
        shutdownClient := Some(address);
        pollItems := pollItems + [ShutdownItem];
      }
      if subscriber.None? {
        subscriber := Some(SubSocket(None, [], []));
        if !connectOk {
          // no receiver runs yet, so stop cannot block
          var s := Stop();
          return Error;
        }
        subscriber := Some(SubSocket(Some(SubSocketAddress(ip, port)), [], []));
        pollItems := pollItems + [SubscriberItem];
      }
      if !receiverStarted {
        if joinable {
          aborted := true;
          return Error;
        }
        receiverStarted, joinable := true, true;
        receiving := |pollItems| == 2;
      }
      r := Ok;
    }

    method Arrival(msg: seq<Frame>)
      requires Valid() && IsMessage(msg)
      modifies this
      ensures Valid()
      ensures subscriber == if old(subscriber).None? then None else Some(Arrive(old(subscriber).value, msg))
      ensures Others() == old(Others())
    {
      if subscriber.Some? {
        ArriveKeepsFraming(subscriber.value, msg);
        subscriber := Some(Arrive(subscriber.value, msg));
      }
    }

    /**
     * The receiver thread reading the queued messages (the subscriber item is
     * checked before the shutdown item). A failed read clears the flag and
     * ends the thread, which stays joinable; the unread frames stay queued.
     */
    method Receive(parse: Parser, recvOk: RecvOutcome)
      requires Valid()
      modifies this
      ensures Valid()
      ensures !old(receiving) ==> unchanged(this)
      ensures shutdownServer == old(shutdownServer) && shutdownClient == old(shutdownClient)
      ensures pollItems == old(pollItems) && joinable == old(joinable) && aborted == old(aborted) && hung == old(hung)
      ensures old(receiving) ==>
                var u := ParsedDeliveriesUntil(old(subscriber).value.inbox, parse, recvOk, |old(delivered)|);
                subscriber == Some(old(subscriber).value.(inbox := u.1)) &&
                delivered == old(delivered) + u.0 &&
                receiverStarted == !u.2 && receiving == !u.2
    {
      if receiving {
        var calls, rest, failed := DrainParsed(subscriber.value.inbox, parse, recvOk, |delivered|);
        delivered := delivered + calls;
        subscriber := Some(subscriber.value.(inbox := rest));
        if failed {
          receiverStarted, receiving := false, false;
        }
      }
    }

    /** Installs the SUB socket an option call left behind; nothing else changes. */
    method Replace(s: Option<SubSocket>)
      requires Valid() && SameSocket(subscriber, s)
      modifies this
      ensures Valid() && Others() == old(Others()) && subscriber == s
    {
      subscriber := s;
    }

    method SubscribeAll(ok: OptionOutcome) returns (r: ErrorCode)
      requires Valid()
      modifies this
      ensures Valid() && Others() == old(Others())
      ensures (r, subscriber) == CppSubscribeAll(old(subscriber), ok)
    {
      var res := CppSubscribeAll(subscriber, ok);
      r := res.0;
      Replace(res.1);
    }

    method Subscribe(topic: string, ok: OptionOutcome) returns (r: ErrorCode)
      requires Valid()
      modifies this
      ensures Valid() && Others() == old(Others())
      ensures (r, subscriber) == CppSubscribe(old(subscriber), topic, ok)
    {
      var res := CppSubscribe(subscriber, topic, ok);
      r := res.0;
      Replace(res.1);
    }

    method UnsubscribeAll(ok: OptionOutcome) returns (r: ErrorCode)
      requires Valid()
      modifies this
      ensures Valid() && Others() == old(Others())
      ensures (r, subscriber) == CppUnsubscribeAll(old(subscriber), ok)
    {
      var res := CppUnsubscribeAll(subscriber, ok);
      r := res.0;
      Replace(res.1);
    }

    method Unsubscribe(topic: string, ok: OptionOutcome) returns (r: ErrorCode)
      requires Valid()
      modifies this
      ensures Valid() && Others() == old(Others())
      ensures (r, subscriber) == CppUnsubscribe(old(subscriber), topic, ok)
    {
      var res := CppUnsubscribe(subscriber, topic, ok);
      r := res.0;
      Replace(res.1);
    }

    method SubscribeList(topics: seq<string>, ok: OptionOutcome) returns (r: ErrorCode)
      requires Valid()
      modifies this
      ensures Valid() && Others() == old(Others())
      ensures (r, subscriber) == CppSubscribeList(old(subscriber), topics, ok)
    {
      if topics == [] {
        return InvalidTopic;
      }
      ghost var s0 := subscriber;
      var i := 0;
      while i < |topics|
        invariant 0 <= i <= |topics|
        invariant Valid() && Others() == old(Others())
        invariant ApplyUntilFailure(s0, topics[..i], CppSubscribeStep(ok)) == (Ok, subscriber)
      {
        ghost var t := subscriber;
        r := Subscribe(topics[i], ok);
        FoldStep(s0, topics, i, CppSubscribeStep(ok), t);
        if r != Ok {
          return;
        }
        i := i + 1;
      }
      assert topics[..i] == topics;
      r := Ok;
    }

    method UnsubscribeList(topics: seq<string>, ok: OptionOutcome) returns (r: ErrorCode)
      requires Valid()
      modifies this
      ensures Valid() && Others() == old(Others())
      ensures (r, subscriber) == CppUnsubscribeList(old(subscriber), topics, ok)
    {
      if topics == [] {
        return InvalidTopic;
      }
      ghost var s0 := subscriber;
      var i := 0;
      while i < |topics|
        invariant 0 <= i <= |topics|
        invariant Valid() && Others() == old(Others())
        invariant ApplyUntilFailure(s0, topics[..i], CppUnsubscribeStep(ok)) == (Ok, subscriber)
      {
        ghost var t := subscriber;
        r := Unsubscribe(topics[i], ok);
        FoldStep(s0, topics, i, CppUnsubscribeStep(ok), t);
        if r != Ok {
          return;
        }
        i := i + 1;
      }
      assert topics[..i] == topics;
      r := Ok;
    }

    /**
     * stop() holds mSubLock while it sends the shutdown request and joins the
     * receiver. A looping receiver with data pending checks the subscriber
     * item first and waits for that lock to read, so neither thread goes on:
     * `hung` is set and `r` is never seen. Otherwise the receiver ends on the
     * shutdown request; only when there is a thread to join are the sockets
     * closed (joining none throws). The poll items and the flag are reset and
     * OK is returned.
     */
    method Stop() returns (r: ErrorCode)
      requires Valid()
      modifies this
      ensures Valid()
      ensures r == Ok && delivered == old(delivered) && aborted == old(aborted)
      ensures old(Pending()) ==>
                hung && subscriber == old(subscriber) && shutdownServer == old(shutdownServer) &&
                shutdownClient == old(shutdownClient) && pollItems == old(pollItems) &&
                receiverStarted == old(receiverStarted) && receiving == old(receiving) && joinable == old(joinable)
      ensures !old(Pending()) ==>
                hung == old(hung) && pollItems == [] && !receiverStarted && !receiving && !joinable
      ensures !old(Pending()) && old(joinable) ==> shutdownServer.None? && shutdownClient.None? && subscriber.None?
      ensures !old(Pending()) && !old(joinable) ==>
                shutdownServer == old(shutdownServer) && shutdownClient == old(shutdownClient) &&
                subscriber == old(subscriber)
    {
      if Pending() {
        hung := true;
        return Ok;
      }
      if joinable {
        joinable := false;
        shutdownClient, shutdownServer, subscriber := None, None, None;
      }
      pollItems := [];
      receiverStarted, receiving := false, false;
      r := Ok;
    }
  }

  /**
   * C++: a start whose connect fails leaves the sockets open; the next start
   * reports OK, but its receiver finds no poll items and returns at once, so
   * nothing is ever delivered, and the SUB socket was never connected.
   */
  method CppRestartAfterFailedStartScenario(parse: Parser, msg: seq<Frame>)
    returns (r1: ErrorCode, r2: ErrorCode, receiving: bool, calls: seq<Callback>)
    requires IsMessage(msg)
    ensures r1 == Error && r2 == Ok && !receiving && calls == []
  {
    var api := new CppEmfApi();
    var ok := api.Initialize();
    var s := new CppSubscriber("localhost", 5562, api);
    r1 := s.Start(7, false);
    r2 := s.Start(8, true);
    receiving := s.receiving;
    s.Arrival(msg);
    s.Receive(parse, k => true);
    calls := s.delivered;
  }

  /**
   * C++: when the receiver's first read fails, the message stays queued, the
   * flag is cleared and the finished thread is left joinable; the next start
   * then assigns a new thread over it, which ends the process.
   */
  method CppStartAfterFailedReadScenario(parse: Parser, msg: seq<Frame>)
    returns (r1: ErrorCode, calls: seq<Callback>, started: bool, aborted: bool)
    requires IsMessage(msg)
    ensures r1 == Ok && calls == [] && !started && aborted
  {
    var api := new CppEmfApi();
    var ok := api.Initialize();
    var s := new CppSubscriber("localhost", 5562, api);
    r1 := s.Start(7, true);
    var r := s.SubscribeAll(k => true);
    s.Arrival(msg);
    s.Receive(parse, k => false);
    calls, started := s.delivered, s.receiverStarted;
    r := s.Start(8, true);
    aborted := s.aborted;
  }

  /**
   * C++: a message still queued when stop takes mSubLock leaves stop in
   * join, waiting for a receiver that waits for the lock.
   */
  method CppStopWithPendingMessageScenario(msg: seq<Frame>) returns (r1: ErrorCode, hung: bool, calls: seq<Callback>)
    requires IsMessage(msg)
    ensures r1 == Ok && hung && calls == []
  {
    var api := new CppEmfApi();
    var ok := api.Initialize();
    var s := new CppSubscriber("localhost", 5562, api);
    r1 := s.Start(7, true);
    var r := s.SubscribeAll(k => true);
    EmptyPrefixAdmitsAll(Subscriptions(s.subscriber.value.filters), msg[0].data);
    s.Arrival(msg);
    r := s.Stop();
    hung, calls := s.hung, s.delivered;
  }

  // ---------------------------------------------------------------- Go

  /** EMFSubscriber (Go). */
  class GoSubscriber {
    const ip: string
    const port: int
    const context: ZmqContext?
    var subscriber: Option<SubSocket>
    /** isReceiverStarted: set by Start, cleared only by Stop. */
    var receiverStarted: bool
    /** The receiving goroutine is inside its loop; a failed read ends it and leaves the flag set. */
    var receiving: bool
    var delivered: seq<Callback>

    predicate Valid()
      reads this
    {
      (receiving ==> receiverStarted) &&
      (receiverStarted ==> subscriber.Some?) &&
      (subscriber.Some? ==> WellFramed(subscriber.value.inbox))
    }

    function Others(): (bool, bool, seq<Callback>)
      reads this
    {
      (receiverStarted, receiving, delivered)
    }

    /** GetEMFSubscriber. */
    constructor(ip: string, port: int, api: GoEmfApi)
      ensures this.ip == ip && this.port == port && context == api.context
      ensures subscriber.None? && !receiverStarted && !receiving && delivered == []
      ensures Valid()
    {
      this.ip := ip;
      this.port := port;
      context := api.context;
      subscriber := None;
      receiverStarted, receiving := false, false;
      delivered := [];
    }

    /**
     * `createOk` and `connectOk` are the outcomes of creating and connecting a
     * new SUB socket; `handleOnError` tells whether the socket library hands
     * back a socket object together with its creation error. Start stores
     * whatever it is handed, so a stored handle (from a failed creation or a
     * failed connect) makes the next start report OK without connecting; such
     * a handle is modelled as a socket that was never connected. A goroutine
     * is started only when the flag is clear, so one that ended on a failed
     * read is not restarted.
     */
    method Start(createOk: bool, connectOk: bool, handleOnError: bool) returns (r: ErrorCode)
      requires Valid()
      modifies this
      ensures Valid()
      ensures r != InvalidTopic && delivered == old(delivered)
      ensures context == null ==> r == Error && unchanged(this)
      ensures context != null && old(subscriber).Some? ==>
                r == Ok && subscriber == old(subscriber) && receiverStarted &&
                (receiving <==> old(receiving) || !old(receiverStarted))
      ensures context != null && old(subscriber).None? && !createOk ==>
                r == Error && !receiverStarted && !receiving &&
                subscriber == (if handleOnError then Some(SubSocket(None, [], [])) else None)
      ensures context != null && old(subscriber).None? && createOk && !connectOk ==>
                r == Error && subscriber == Some(SubSocket(None, [], [])) && !receiverStarted && !receiving
      ensures context != null && old(subscriber).None? && createOk && connectOk ==>
                r == Ok && subscriber == Some(SubSocket(Some(SubSocketAddress(ip, port)), [], [])) &&
                receiverStarted && receiving
    {
      if context == null {
        return Error;
      }
      if subscriber.None? {
        if !createOk {
          if handleOnError {
            subscriber := Some(SubSocket(None, [], []));
          }
          return Error;
        }
        subscriber := Some(SubSocket(None, [], []));
        if !connectOk {
          return Error;
        }
        subscriber := Some(SubSocket(Some(SubSocketAddress(ip, port)), [], []));
      }
      if !receiverStarted {
        receiverStarted, receiving := true, true;
      }
      r := Ok;
    }

    method Arrival(msg: seq<Frame>)
      requires Valid() && IsMessage(msg)
      modifies this
      ensures Valid()
      ensures subscriber == if old(subscriber).None? then None else Some(Arrive(old(subscriber).value, msg))
      ensures Others() == old(Others())
    {
      if subscriber.Some? {
        ArriveKeepsFraming(subscriber.value, msg);
        subscriber := Some(Arrive(subscriber.value, msg));
      }
    }

    /**
     * The receiving goroutine reading the queued messages. A failed read ends
     * the goroutine; the flag stays set and the unread frames stay queued.
     */
    method Receive(parse: Parser, recvOk: RecvOutcome)
      requires Valid()
      modifies this
      ensures Valid()
      ensures !old(receiving) ==> unchanged(this)
      ensures receiverStarted == old(receiverStarted)
      ensures old(receiving) ==>
                var u := ParsedDeliveriesUntil(old(subscriber).value.inbox, parse, recvOk, |old(delivered)|);
                subscriber == Some(old(subscriber).value.(inbox := u.1)) &&
                delivered == old(delivered) + u.0 &&
                receiving == !u.2
    {
      if receiving {
        var calls, rest, failed := DrainParsed(subscriber.value.inbox, parse, recvOk, |delivered|);
        delivered := delivered + calls;
        subscriber := Some(subscriber.value.(inbox := rest));
        if failed {
          receiving := false;
        }
      }
    }

    /** Installs the SUB socket an option call left behind; nothing else changes. */
    method Replace(s: Option<SubSocket>)
      requires Valid() && SameSocket(subscriber, s)
      modifies this
      ensures Valid() && Others() == old(Others()) && subscriber == s
    {
      subscriber := s;
    }

    method SubscribeAll(ok: OptionOutcome) returns (r: ErrorCode)
      requires Valid()
      modifies this
      ensures Valid() && Others() == old(Others())
      ensures (r, subscriber) == GoSubscribeAll(old(subscriber), ok)
    {
      var res := GoSubscribeAll(subscriber, ok);
      r := res.0;
      Replace(res.1);
    }

    method Subscribe(topic: string, ok: OptionOutcome) returns (r: ErrorCode)
      requires Valid()
      modifies this
      ensures Valid() && Others() == old(Others())
      ensures (r, subscriber) == GoSubscribe(old(subscriber), topic, ok)
    {
      var res := GoSubscribe(subscriber, topic, ok);
      r := res.0;
      Replace(res.1);
    }

    method UnsubscribeAll(ok: OptionOutcome) returns (r: ErrorCode)
      requires Valid()
      modifies this
      ensures Valid() && Others() == old(Others())
      ensures (r, subscriber) == GoUnsubscribeAll(old(subscriber), ok)
    {
      var res := GoUnsubscribeAll(subscriber, ok);
      r := res.0;
      Replace(res.1);
    }

    method Unsubscribe(topic: string, ok: OptionOutcome) returns (r: ErrorCode)
      requires Valid()
      modifies this
      ensures Valid() && Others() == old(Others())
      ensures (r, subscriber) == GoUnsubscribe(old(subscriber), topic, ok)
    {
      var res := GoUnsubscribe(subscriber, topic, ok);
      r := res.0;
      Replace(res.1);
    }

    method SubscribeList(topics: seq<string>, ok: OptionOutcome) returns (r: ErrorCode)
      requires Valid()
      modifies this
      ensures Valid() && Others() == old(Others())
      ensures (r, subscriber) == GoSubscribeList(old(subscriber), topics, ok)
    {
      if topics == [] {
        return InvalidTopic;
      }
      ghost var s0 := subscriber;
      var i := 0;
      while i < |topics|
        invariant 0 <= i <= |topics|
        invariant Valid() && Others() == old(Others())
        invariant ApplyUntilFailure(s0, topics[..i], GoSubscribeStep(ok)) == (Ok, subscriber)
      {
        ghost var t := subscriber;
        r := Subscribe(topics[i], ok);
        FoldStep(s0, topics, i, GoSubscribeStep(ok), t);
        if r != Ok {
          return;
        }
        i := i + 1;
      }
      assert topics[..i] == topics;
      r := Ok;
    }

    method UnsubscribeList(topics: seq<string>, ok: OptionOutcome) returns (r: ErrorCode)
      requires Valid()
      modifies this
      ensures Valid() && Others() == old(Others())
      ensures (r, subscriber) == GoUnsubscribeList(old(subscriber), topics, ok)
    {
      if topics == [] {
        return InvalidTopic;
      }
      ghost var s0 := subscriber;
      var i := 0;
      while i < |topics|
        invariant 0 <= i <= |topics|
        invariant Valid() && Others() == old(Others())
        invariant ApplyUntilFailure(s0, topics[..i], GoUnsubscribeStep(ok)) == (Ok, subscriber)
      {
        ghost var t := subscriber;
        r := Unsubscribe(topics[i], ok);
        FoldStep(s0, topics, i, GoUnsubscribeStep(ok), t);
        if r != Ok {
          return;
        }
        i := i + 1;
      }
      assert topics[..i] == topics;
      r := Ok;
    }

    /** Closes the socket; a failed close reports ERROR and leaves everything as it was. */
    method Stop(closeOk: bool) returns (r: ErrorCode)
      requires Valid()
      modifies this
      ensures Valid()
      ensures delivered == old(delivered)
      ensures r == Ok <==> old(subscriber).None? || closeOk
      ensures r != InvalidTopic
      ensures r == Ok ==> subscriber.None? && !receiverStarted && !receiving
      ensures r != Ok ==> unchanged(this)
    {
      if subscriber.Some? && !closeOk {
        return Error;
      }
      subscriber := None;
      receiverStarted, receiving := false, false;
      r := Ok;
    }
  }

  /** Go: a subscriber started on an initialised API, connected and with an empty queue. */
  method GoStarted() returns (s: GoSubscriber, r1: ErrorCode)
    ensures fresh(s) && s.Valid() && s.context != null
    ensures r1 == Ok && s.receiverStarted && s.receiving && s.delivered == []
    ensures s.subscriber == Some(SubSocket(Some(SubSocketAddress("localhost", 5562)), [], []))
  {
    var api := new GoEmfApi();
    var ok := api.Initialize(true, false);
    s := new GoSubscriber("localhost", 5562, api);
    r1 := s.Start(true, true, false);
  }

  /** Go: a started subscriber, subscribed to everything, with one message queued. */
  method GoQueued(msg: seq<Frame>) returns (s: GoSubscriber, r1: ErrorCode)
    requires IsMessage(msg)
    ensures fresh(s) && s.Valid() && s.context != null && s.subscriber.Some?
    ensures r1 == Ok && s.receiverStarted && s.receiving && s.delivered == [] && s.subscriber.value.inbox == msg
  {
    s, r1 := GoStarted();
    var r := s.SubscribeAll(k => true);
    EmptyPrefixAdmitsAll(Subscriptions(s.subscriber.value.filters), msg[0].data);
    s.Arrival(msg);
  }

  /** Go: a started subscriber whose goroutine's first read failed, leaving the message queued. */
  method GoFailedRead(parse: Parser, msg: seq<Frame>) returns (s: GoSubscriber, r1: ErrorCode)
    requires IsMessage(msg)
    ensures fresh(s) && s.Valid() && s.context != null && s.subscriber.Some?
    ensures r1 == Ok && s.receiverStarted && !s.receiving && s.delivered == []
  {
    s, r1 := GoQueued(msg);
    var fail: RecvOutcome := k => false;
    assert ParsedDeliveriesUntil(msg, parse, fail, 0) == ([], msg, true);
    s.Receive(parse, fail);
  }

  /**
   * Go: when the goroutine's first read fails, the flag stays set, so a
   * second Start reports OK without starting a new goroutine: nothing reads
   * the queue any more.
   */
  method GoStartAfterFailedReadScenario(parse: Parser, msg: seq<Frame>)
    returns (r1: ErrorCode, r2: ErrorCode, started: bool, receiving: bool, calls: seq<Callback>)
    requires IsMessage(msg)
    ensures r1 == Ok && r2 == Ok && started && !receiving && calls == []
  {
    var s;
    s, r1 := GoFailedRead(parse, msg);
    r2 := s.Start(true, true, false);
    started, receiving, calls := s.receiverStarted, s.receiving, s.delivered;
  }

  /**
   * Go: when socket creation fails but hands back a socket object, that
   * object is kept; the next Start reports OK with a socket that was never
   * connected.
   */
  method GoStartAfterFailedCreateScenario() returns (r1: ErrorCode, r2: ErrorCode, connected: bool)
    ensures r1 == Error && r2 == Ok && !connected
  {
    var api := new GoEmfApi();
    var ok := api.Initialize(true, false);
    var s := new GoSubscriber("localhost", 5562, api);
    r1 := s.Start(false, true, true);
    r2 := s.Start(true, true, true);
    connected := s.subscriber.Some? && s.subscriber.value.endpoint.Some?;
  }
}

=== FILE: topic.dfy ===
/*
 * Topic validation and normalisation. All three bindings accept a topic that
 * fully matches the character class [a-zA-Z0-9-_./]+ and append a trailing
 * '/' when one is missing; they differ only in how a rejection is reported
 * (Java null, C++ and Go the empty string) and in how the trailing '/' is
 * detected (Go looks up the last '/').
 */
module Topic {
  import opened EmfTypes

  /** One character of the topic pattern: a letter, a digit, '-', '_', '.' or '/'. */
  predicate IsTopicChar(c: char)
  {
    ('a' <= c <= 'z') || ('A' <= c <= 'Z') || ('0' <= c <= '9') ||
    c == '-' || c == '_' || c == '.' || c == '/'
  }

  /** Full match of the pattern [a-zA-Z0-9-_./]+ (non-empty, every character in the class). */
  predicate MatchesTopicPattern(t: string)
  {
    |t| > 0 && forall i :: 0 <= i < |t| ==> IsTopicChar(t[i])
  }

  predicate EndsWithSlash(t: string)
  {
    |t| > 0 && t[|t| - 1] == '/'
  }

  /** The form every accepted topic takes on the wire: valid and '/'-terminated. */
  predicate IsNormalTopic(t: string)
  {
    MatchesTopicPattern(t) && EndsWithSlash(t)
  }

  /**
   * `r` is a normalisation of `t`: a normal topic that extends `t` by at most
   * one character and leaves a topic that already ends in '/' as it is.
   */
  predicate Normalises(t: string, r: string)
  {
    IsNormalTopic(r) && t <= r && |r| <= |t| + 1 && (EndsWithSlash(t) ==> r == t)
  }

  /** EMFSubscriber.validateTopic / EMFPublisher.validateTopic (Java): null means rejected. */
  function JavaValidateTopic(topic: Option<string>): (r: Option<string>)
    ensures r.Some? <==> topic.Some? && MatchesTopicPattern(topic.value)
    ensures r.Some? ==> Normalises(topic.value, r.value)
  {
    if topic.None? || topic.value == "" then None
    else if !MatchesTopicPattern(topic.value) then None
    else if !EndsWithSlash(topic.value) then Some(topic.value + "/")
    else topic
  }

  /** EMFSubscriber::sanitizeTopic (C++, regex branch compiled in): "" means rejected. */
  function CppSanitizeTopic(topic: string): (r: string)
    ensures r != "" <==> MatchesTopicPattern(topic)
    ensures r != "" ==> Normalises(topic, r)
  {
    if topic == "" then ""
    else if !MatchesTopicPattern(topic) then ""
    else if topic[|topic| - 1] != '/' then topic + "/"
    else topic
  }

  /** EMFPublisher::sanitizeTopic (C++): hands back its (empty) argument for empty input. */
  function CppPublisherSanitizeTopic(topic: string): (r: string)
    ensures r != "" <==> MatchesTopicPattern(topic)
    ensures r != "" ==> Normalises(topic, r)
  {
    if topic == "" then topic
    else if !MatchesTopicPattern(topic) then ""
    else if topic[|topic| - 1] != '/' then topic + "/"
    else topic
  }

  /** strings.LastIndex(s, string(c)): the position of the last `c` in `s`, or -1. */
  function LastIndexOf(s: string, c: char): (k: int)
    ensures -1 <= k < |s|
    ensures k >= 0 ==> s[k] == c
    ensures forall j :: k < j < |s| ==> s[j] != c
  {
    if s == [] then -1
    else if s[|s| - 1] == c then |s| - 1
    else LastIndexOf(s[..|s| - 1], c)
  }

  /** sanitizeTopic (Go): anchored pattern, then '/' appended unless the last '/' is the final character. */
  function GoSanitizeTopic(topic: string): (r: string)
    ensures r != "" <==> MatchesTopicPattern(topic)
    ensures r != "" ==> Normalises(topic, r)
  {
    if topic == "" then topic
    else if !MatchesTopicPattern(topic) then ""
    else
      var index := LastIndexOf(topic, '/');
      if index == -1 then topic + "/"
      else if index != |topic| - 1 then topic + "/"
      else topic
  }

  /** A topic has exactly one normalisation. */
  lemma NormalisationUnique(t: string, r1: string, r2: string)
    requires Normalises(t, r1) && Normalises(t, r2)
    ensures r1 == r2
  {
    if !EndsWithSlash(t) {
      assert r1 != t && r2 != t;
      assert |r1| == |t| + 1 == |r2|;
      assert r1[..|t|] == t == r2[..|t|];
      assert r1[|t|] == '/' == r2[|t|];
      assert r1 == r1[..|t|] + [r1[|t|]];
      assert r2 == r2[..|t|] + [r2[|t|]];
    }
  }

  /** The four normalisers accept the same topics and produce the same normal topic. */
  lemma BindingsAgree(t: string)
    ensures CppPublisherSanitizeTopic(t) == CppSanitizeTopic(t)
    ensures GoSanitizeTopic(t) == CppSanitizeTopic(t)
    ensures JavaValidateTopic(Some(t)) == if CppSanitizeTopic(t) == "" then None else Some(CppSanitizeTopic(t))
  {
    if MatchesTopicPattern(t) {
      NormalisationUnique(t, CppPublisherSanitizeTopic(t), CppSanitizeTopic(t));
      NormalisationUnique(t, GoSanitizeTopic(t), CppSanitizeTopic(t));
      NormalisationUnique(t, JavaValidateTopic(Some(t)).value, CppSanitizeTopic(t));
    }
  }

  /** A normal topic is a fixed point of validation. */
  lemma NormalTopicIsFixedPoint(t: string)
    requires IsNormalTopic(t)
    ensures JavaValidateTopic(Some(t)) == Some(t)
    ensures CppSanitizeTopic(t) == t
  {
    NormalisationUnique(t, t, JavaValidateTopic(Some(t)).value);
    NormalisationUnique(t, t, CppSanitizeTopic(t));
  }

  /** Validating an accepted topic a second time returns it unchanged. */
  lemma ValidateIdempotent(t: Option<string>)
    ensures JavaValidateTopic(JavaValidateTopic(t)) == JavaValidateTopic(t)
  {
    var r := JavaValidateTopic(t);
    if r.Some? {
      NormalTopicIsFixedPoint(r.value);
    }
  }

  /**
   * Two valid topics are normalised to the same topic exactly when they are
   * equal or one is the other with the missing trailing '/' added.
   */
  lemma SameNormalTopic(a: string, b: string)
    requires MatchesTopicPattern(a) && MatchesTopicPattern(b)
    ensures CppSanitizeTopic(a) == CppSanitizeTopic(b) <==>
            (a == b || (a == b + "/" && !EndsWithSlash(b)) || (b == a + "/" && !EndsWithSlash(a)))
  {
    var ra, rb := CppSanitizeTopic(a), CppSanitizeTopic(b);
    if ra == rb {
      if ra == a + "/" && rb == b + "/" {
        assert a == ra[..|ra| - 1] == b;
      } else if ra == a + "/" {
        assert rb == b;
        assert !EndsWithSlash(a);
      } else if rb == b + "/" {
        assert ra == a;
        assert !EndsWithSlash(b);
      }
    }
  }

  /** Every topic of a list fully matches the pattern. */
  predicate AllTopicsValid(topics: seq<string>)
  {
    forall i :: 0 <= i < |topics| ==> MatchesTopicPattern(topics[i])
  }

  /** A Java topic as text: a null entry reads as the empty topic, which every binding rejects like null. */
  function JavaTopicText(topic: Option<string>): (t: string)
    ensures JavaValidateTopic(topic) == JavaValidateTopic(Some(t))
  {
    if topic.None? then "" else topic.value
  }

  /** The entries of a Java topic list as text, one per entry. */
  function JavaTopicTexts(topics: seq<Option<string>>): (ts: seq<string>)
    ensures |ts| == |topics|
  {
    seq(|topics|, i requires 0 <= i < |topics| => JavaTopicText(topics[i]))
  }

  /** A Java list whose every entry validates is a valid list of texts. */
  lemma JavaTopicsValid(topics: seq<Option<string>>)
    requires forall i :: 0 <= i < |topics| ==> JavaValidateTopic(topics[i]).Some?
    ensures AllTopicsValid(JavaTopicTexts(topics))
  {
    forall i | 0 <= i < |topics|
      ensures MatchesTopicPattern(JavaTopicTexts(topics)[i])
    {
      assert JavaValidateTopic(Some(JavaTopicTexts(topics)[i])).Some?;
    }
  }

  // ---------------------------------------------------------------- segments

  /** The position of the first '/' of a string that holds one. */
  function FirstSlash(t: string): (i: nat)
    requires '/' in t
    ensures i < |t| && t[i] == '/'
    ensures forall j :: 0 <= j < i ==> t[j] != '/'
  {
    if t[0] == '/' then 0
    else
      assert '/' in t[1..] by {
        var k :| 0 <= k < |t| && t[k] == '/';
        assert t[1..][k - 1] == '/';
      }
      1 + FirstSlash(t[1..])
  }

  /** A string that is empty or ends with '/': a sequence of whole path segments. */
  predicate SegmentAligned(t: string)
  {
    t == [] || EndsWithSlash(t)
  }

  /** The path segments of a normal topic, each without its terminating '/': "a/b/" has ["a", "b"]. */
  function Segments(t: string): (segs: seq<string>)
    requires SegmentAligned(t)
    ensures |segs| <= |t|
    decreases |t|
  {
    if t == [] then []
    else
      assert t[|t| - 1] == '/';
      var i := FirstSlash(t);
      [t[..i]] + Segments(t[i + 1..])
  }

  /** A prefix that holds a '/' has its first '/' where the longer string has it. */
  lemma FirstSlashOfPrefix(a: string, b: string)
    requires '/' in a && a <= b
    ensures '/' in b && FirstSlash(b) == FirstSlash(a)
  {
    var i := FirstSlash(a);
    assert b[i] == '/';
    var j := FirstSlash(b);
    assert forall k :: 0 <= k < i ==> b[k] == a[k];
  }

  /** A prefix of aligned strings has segments that start the longer one's segments. */
  lemma {:induction false} PrefixSegments(a: string, b: string)
    requires SegmentAligned(a) && SegmentAligned(b) && a <= b
    ensures Segments(a) <= Segments(b)
    decreases |a|
  {
    if a != [] {
      assert a[|a| - 1] == '/';
      FirstSlashOfPrefix(a, b);
      var i := FirstSlash(a);
      assert a[..i] == b[..i];
      assert a[i + 1..] <= b[i + 1..];
      PrefixSegments(a[i + 1..], b[i + 1..]);
    }
  }

  /** Two strings that agree up to `i` and whose tails from `i` are in the prefix order are. */
  lemma PrefixAfter(a: string, b: string, i: nat)
    requires i <= |a| && i <= |b| && a[..i] == b[..i] && a[i..] <= b[i..]
    ensures a <= b
  {
    assert a == a[..i] + a[i..];
    assert b == b[..i] + b[i..];
  }

  /** The segments of an aligned non-empty string: the one before its first '/', then the rest. */
  lemma SegmentsCons(t: string)
    requires SegmentAligned(t) && t != []
    ensures '/' in t
    ensures SegmentAligned(t[FirstSlash(t) + 1..])
    ensures Segments(t) == [t[..FirstSlash(t)]] + Segments(t[FirstSlash(t) + 1..])
  {
    assert t[|t| - 1] == '/';
  }

  /** A non-empty prefix of a sequence shares its head, and its tail is a prefix of the other's tail. */
  lemma PrefixHeadTail<T>(s: seq<T>, t: seq<T>)
    requires s != [] && s <= t
    ensures t != [] && s[0] == t[0] && s[1..] <= t[1..]
  {
  }

  /** When the segments of `a` start those of `b`, both strings begin with the same first segment. */
  lemma SameFirstSegment(a: string, b: string)
    requires SegmentAligned(a) && SegmentAligned(b) && a != [] && Segments(a) <= Segments(b)
    ensures b != [] && '/' in a && '/' in b && FirstSlash(a) == FirstSlash(b)
    ensures a[..FirstSlash(a)] == b[..FirstSlash(a)]
    ensures Segments(a[FirstSlash(a) + 1..]) <= Segments(b[FirstSlash(a) + 1..])
  {
    SegmentsCons(a);
    PrefixHeadTail(Segments(a), Segments(b));
    SegmentsCons(b);
    var i := FirstSlash(a);
    assert |a[..i]| == |b[..FirstSlash(b)]|;
  }

  /** Up to a '/', a string is its part before the '/' followed by the '/'. */
  lemma SlashPrefix(t: string, i: nat)
    requires i < |t| && t[i] == '/'
    ensures t[..i + 1] == t[..i] + "/"
  {
  }

  /** Aligned strings whose segments start another's segments are a prefix of it. */
  lemma {:induction false} SegmentsPrefix(a: string, b: string)
    requires SegmentAligned(a) && SegmentAligned(b) && Segments(a) <= Segments(b)
    ensures a <= b
    decreases |a|
  {
    if a != [] {
      SameFirstSegment(a, b);
      SegmentsCons(a);
      SegmentsCons(b);
      var i := FirstSlash(a);
      SegmentsPrefix(a[i + 1..], b[i + 1..]);
      SlashPrefix(a, i);
      SlashPrefix(b, i);
      PrefixAfter(a, b, i + 1);
    }
  }

  /**
   * One aligned string is a prefix of another exactly when its segments start
   * the other's segments: a prefix never ends inside a segment.
   */
  lemma SegmentPrefix(a: string, b: string)
    requires SegmentAligned(a) && SegmentAligned(b)
    ensures a <= b <==> Segments(a) <= Segments(b)
  {
    if a <= b {
      PrefixSegments(a, b);
    }
    if Segments(a) <= Segments(b) {
      SegmentsPrefix(a, b);
    }
  }

  /** Topic characters are ASCII; this is the byte a topic character is sent as. */
  function CharByte(c: char): byte
    requires IsTopicChar(c)
  {
    c as int as byte
  }

  /** The bytes of a topic frame (String.getBytes, std::string data, []byte conversion). */
  function TopicBytes(t: string): (b: Bytes)
    requires forall i :: 0 <= i < |t| ==> IsTopicChar(t[i])
    ensures |b| == |t|
    ensures forall i :: 0 <= i < |t| ==> b[i] as int == t[i] as int
  {
    if t == [] then [] else [CharByte(t[0])] + TopicBytes(t[1..])
  }

  /** The text of a received topic frame, one character per byte. */
  function BytesText(b: Bytes): (t: string)
    ensures |t| == |b|
    ensures forall i :: 0 <= i < |b| ==> t[i] as int == b[i] as int
  {
    if b == [] then "" else [b[0] as int as char] + BytesText(b[1..])
  }

  /** A topic sent as a frame is read back as the same text. */
  lemma TopicBytesRoundTrip(t: string)
    requires forall i :: 0 <= i < |t| ==> IsTopicChar(t[i])
    ensures BytesText(TopicBytes(t)) == t
  {
  }

  /** Distinct topics go out as distinct frames, so prefix filtering sees what the application wrote. */
  lemma TopicBytesPrefix(a: string, b: string)
    requires forall i :: 0 <= i < |a| ==> IsTopicChar(a[i])
    requires forall i :: 0 <= i < |b| ==> IsTopicChar(b[i])
    ensures TopicBytes(a) <= TopicBytes(b) <==> a <= b
  {
    if a <= b {
      assert forall i :: 0 <= i < |a| ==> TopicBytes(a)[i] == TopicBytes(b)[i];
    }
    if TopicBytes(a) <= TopicBytes(b) {
      assert forall i :: 0 <= i < |a| ==> a[i] as int == b[i] as int;
      assert forall i :: 0 <= i < |a| ==> a[i] == b[i];
    }
  }
}

=== FILE: topic_list.dfy ===
/*
 * The shape shared by publish(list), subscribe(list) and unSubscribe(list) in
 * every binding: apply the single-topic operation to each topic in order,
 * return the first code other than OK, and keep whatever the earlier topics
 * did (nothing is rolled back).
 */
module TopicList {
  import opened EmfTypes

  /** Fold `step` over `xs` from the front, stopping at the first non-OK code. */
  function ApplyUntilFailure<S, X>(s: S, xs: seq<X>, step: (S, X) -> (ErrorCode, S)): (ErrorCode, S)
  {
    if xs == [] then (Ok, s)
    else
      var r := step(s, xs[0]);
      if r.0 != Ok then r else ApplyUntilFailure(r.1, xs[1..], step)
  }

  /** Running over `a + b` is running over `a`, then over `b` if `a` ended with OK. */
  lemma {:induction false} ApplySplit<S, X>(s: S, a: seq<X>, b: seq<X>, step: (S, X) -> (ErrorCode, S))
    ensures ApplyUntilFailure(s, a + b, step) ==
            (var r := ApplyUntilFailure(s, a, step); if r.0 != Ok then r else ApplyUntilFailure(r.1, b, step))
  {
    if a != [] {
      var r := step(s, a[0]);
      assert (a + b)[0] == a[0];
      assert (a + b)[1..] == a[1..] + b;
      if r.0 == Ok {
        ApplySplit(r.1, a[1..], b, step);
      }
    } else {
      assert a + b == b;
    }
  }

  /** A first element whose step returns OK hands its state on to the rest of the list. */
  lemma ApplyCons<S, X>(s: S, xs: seq<X>, step: (S, X) -> (ErrorCode, S))
    requires xs != [] && step(s, xs[0]).0 == Ok
    ensures ApplyUntilFailure(s, xs, step) == ApplyUntilFailure(step(s, xs[0]).1, xs[1..], step)
  {
  }

  /** One more element after an all-OK prefix: the result is exactly that element's step. */
  lemma ApplySnoc<S, X>(s: S, xs: seq<X>, x: X, step: (S, X) -> (ErrorCode, S))
    requires ApplyUntilFailure(s, xs, step).0 == Ok
    ensures ApplyUntilFailure(s, xs + [x], step) == step(ApplyUntilFailure(s, xs, step).1, x)
  {
    ApplySplit(s, xs, [x], step);
  }

  /**
   * One iteration of a loop that applies `step` to `xs[i]` after the first `i`
   * elements all ran with OK: either the prefix grows by one, or the loop
   * stops with the result of the whole list.
   */
  lemma FoldStep<S, X>(s0: S, xs: seq<X>, i: nat, step: (S, X) -> (ErrorCode, S), t: S)
    requires i < |xs| && ApplyUntilFailure(s0, xs[..i], step) == (Ok, t)
    ensures step(t, xs[i]).0 == Ok ==> ApplyUntilFailure(s0, xs[..i + 1], step) == step(t, xs[i])
    ensures step(t, xs[i]).0 != Ok ==> ApplyUntilFailure(s0, xs, step) == step(t, xs[i])
  {
    assert xs[..i + 1] == xs[..i] + [xs[i]];
    ApplySnoc(s0, xs[..i], xs[i], step);
    ApplySplit(s0, xs[..i + 1], xs[i + 1..], step);
    assert xs == xs[..i + 1] + xs[i + 1..];
  }

  /** An OK result means that every prefix ran with OK as well. */
  lemma {:induction false} OkPrefixes<S, X>(s: S, xs: seq<X>, step: (S, X) -> (ErrorCode, S), k: nat)
    requires ApplyUntilFailure(s, xs, step).0 == Ok && k <= |xs|
    ensures ApplyUntilFailure(s, xs[..k], step).0 == Ok
  {
    assert xs == xs[..k] + xs[k..];
    ApplySplit(s, xs[..k], xs[k..], step);
  }

  /** An OK result means that the step for every element returned OK. */
  lemma AllStepsOk<S, X>(s: S, xs: seq<X>, step: (S, X) -> (ErrorCode, S), k: nat)
    requires ApplyUntilFailure(s, xs, step).0 == Ok && k < |xs|
    ensures ApplyUntilFailure(s, xs[..k], step).0 == Ok
    ensures step(ApplyUntilFailure(s, xs[..k], step).1, xs[k]).0 == Ok
  {
    OkPrefixes(s, xs, step, k);
    OkPrefixes(s, xs, step, k + 1);
    assert xs[..k + 1] == xs[..k] + [xs[k]];
    ApplySnoc(s, xs[..k], xs[k], step);
  }

  /**
   * A failing result is the result of the first failing element: the topics
   * before it all ran with OK, and their effects are part of the final state.
   */
  lemma {:induction false} FirstFailure<S, X>(s: S, xs: seq<X>, step: (S, X) -> (ErrorCode, S))
    requires ApplyUntilFailure(s, xs, step).0 != Ok
    ensures exists k :: 0 <= k < |xs| && ApplyUntilFailure(s, xs[..k], step).0 == Ok &&
                        step(ApplyUntilFailure(s, xs[..k], step).1, xs[k]) == ApplyUntilFailure(s, xs, step)
  {
    assert xs != [];
    var r := step(s, xs[0]);
    assert xs[..0] == [];
    if r.0 == Ok {
      FirstFailure(r.1, xs[1..], step);
      var k :| 0 <= k < |xs[1..]| && ApplyUntilFailure(r.1, xs[1..][..k], step).0 == Ok &&
               step(ApplyUntilFailure(r.1, xs[1..][..k], step).1, xs[1..][k]) == ApplyUntilFailure(r.1, xs[1..], step);
      assert xs[..k + 1] == [xs[0]] + xs[1..][..k];
      ApplySplit(s, [xs[0]], xs[1..][..k], step);
      assert ApplyUntilFailure(s, [xs[0]], step) == (Ok, r.1) by {
        assert [xs[0]][1..] == [];
      }
      assert ApplyUntilFailure(s, xs[..k + 1], step) == ApplyUntilFailure(r.1, xs[1..][..k], step);
    }
  }

  /** A property every step keeps is kept by the whole list, whatever code it ends with. */
  lemma {:induction false} ApplyPreserves<S, X>(s: S, xs: seq<X>, step: (S, X) -> (ErrorCode, S), inv: S -> bool)
    requires inv(s)
    requires forall t, x :: inv(t) ==> inv(step(t, x).1)
    ensures inv(ApplyUntilFailure(s, xs, step).1)
  {
    if xs != [] {
      var r := step(s, xs[0]);
      if r.0 == Ok {
        ApplyPreserves(r.1, xs[1..], step, inv);
      }
    }
  }

  /** Two steps that agree on every state and element give the same list result. */
  lemma {:induction false} ApplySameSteps<S, X>(s: S, xs: seq<X>, step1: (S, X) -> (ErrorCode, S),
                                                step2: (S, X) -> (ErrorCode, S))
    requires forall t, x :: step1(t, x) == step2(t, x)
    ensures ApplyUntilFailure(s, xs, step1) == ApplyUntilFailure(s, xs, step2)
  {
    if xs != [] {
      var r := step1(s, xs[0]);
      if r.0 == Ok {
        ApplySameSteps(r.1, xs[1..], step1, step2);
      }
    }
  }

  /**
   * When every element is acceptable and the step succeeds from every state
   * satisfying `inv` on every acceptable element, keeping `inv`, the whole
   * list succeeds.
   */
  lemma {:induction false} ApplyAllOk<S, X>(s: S, xs: seq<X>, step: (S, X) -> (ErrorCode, S),
                                            inv: S -> bool, good: X -> bool)
    requires inv(s)
    requires forall i :: 0 <= i < |xs| ==> good(xs[i])
    requires forall t, x :: inv(t) && good(x) ==> step(t, x).0 == Ok && inv(step(t, x).1)
    ensures ApplyUntilFailure(s, xs, step).0 == Ok
  {
    if xs != [] {
      assert good(xs[0]);
      assert forall i :: 0 <= i < |xs[1..]| ==> xs[1..][i] == xs[i + 1];
      ApplyAllOk(step(s, xs[0]).1, xs[1..], step, inv, good);
    }
  }

  /**
   * Folding `step1` over `xs` is folding `step2` over `ys` when `ys` is `xs`
   * translated element by element and `step1` is `step2` on the translation.
   */
  lemma {:induction false} ApplyMapped<S, X, Y>(s: S, xs: seq<X>, ys: seq<Y>, f: X -> Y,
                                                step1: (S, X) -> (ErrorCode, S), step2: (S, Y) -> (ErrorCode, S))
    requires |xs| == |ys| && forall i :: 0 <= i < |xs| ==> ys[i] == f(xs[i])
    requires forall t, x :: step1(t, x) == step2(t, f(x))
    ensures ApplyUntilFailure(s, xs, step1) == ApplyUntilFailure(s, ys, step2)
  {
    if xs != [] {
      assert step1(s, xs[0]) == step2(s, ys[0]);
      var r := step1(s, xs[0]);
      if r.0 == Ok {
        assert forall i :: 0 <= i < |xs[1..]| ==> ys[1..][i] == f(xs[1..][i]);
        ApplyMapped(r.1, xs[1..], ys[1..], f, step1, step2);
      }
    }
  }
}

=== FILE: types.dfy ===
/*
 * Values shared by the Java, C++ and Go bindings of the EMF publish/subscribe
 * layer: return and status codes, wire frames, the event schema, callbacks,
 * and the abstract ZeroMQ sockets the layer drives.
 */
module EmfTypes {

  /** The only results of the public operations (EMF_OK, EMF_ERROR, EMF_INVALID_TOPIC). */
  datatype ErrorCode = Ok | Error | InvalidTopic

  /** Status of the process-wide API instance. */
  datatype StatusCode = Unknown | Constructed | Initialized | Terminated

  /** A nullable reference (Java null, C++ nullptr, Go nil) or a value that may be missing. */
  datatype Option<T> = None | Some(value: T)

  newtype byte = x: int | 0 <= x < 256

  type Bytes = seq<byte>

  /** One frame of a ZeroMQ message; `more` tells that another frame of the same message follows. */
  datatype Frame = Frame(data: Bytes, more: bool)

  /** A complete ZeroMQ message: every frame but the last is flagged `more`. */
  predicate IsMessage(msg: seq<Frame>)
  {
    |msg| > 0 && !msg[|msg| - 1].more &&
    forall i :: 0 <= i < |msg| - 1 ==> msg[i].more
  }

  /** A queue of frames that does not stop in the middle of a multipart message. */
  predicate WellFramed(q: seq<Frame>)
  {
    q == [] || !q[|q| - 1].more
  }

  /** The event schema carried in a payload frame. */
  datatype Reading = Reading(name: string, value: string, device: string, id: string,
                             created: int, modified: int, origin: int, pushed: int)

  datatype Event = Event(device: string, id: string, created: int, modified: int,
                         origin: int, pushed: int, readings: seq<Reading>)

  /** Serialisation of an event; None when the protobuf layer reports failure. */
  type Encoder = Event -> Option<Bytes>

  /** Java decoding: None when the converter returns null. */
  type Decoder = Bytes -> Option<Event>

  /** C++ and Go decoding: the parse result is not checked, so some event always comes out. */
  type Parser = Bytes -> Event

  /** The two subscriber callbacks: onMessage(event) and onMessage(topic, event). */
  datatype Callback = OnMessage(event: Event) | OnTopicMessage(topic: string, event: Event)

  /** A socket option set on a SUB socket (ZMQ_SUBSCRIBE or ZMQ_UNSUBSCRIBE with a prefix). */
  datatype FilterOp = Subscribe(prefix: Bytes) | Unsubscribe(prefix: Bytes)

  /**
   * A SUB socket: the endpoint it is connected to (None while created but not
   * connected), the options set on it so far, and the frames waiting to be read.
   */
  datatype SubSocket = SubSocket(endpoint: Option<string>, filters: seq<FilterOp>, inbox: seq<Frame>)

  /** The prefixes a SUB socket is subscribed to after a sequence of options; ZeroMQ counts duplicates. */
  function Subscriptions(log: seq<FilterOp>): multiset<Bytes>
  {
    if log == [] then multiset{}
    else
      var earlier := Subscriptions(log[..|log| - 1]);
      match log[|log| - 1]
      case Subscribe(p) => earlier + multiset{p}
      case Unsubscribe(p) => earlier - multiset{p}
  }

  /** A message whose first frame starts with a subscribed prefix passes the SUB socket's filter. */
  predicate Admits(subs: multiset<Bytes>, first: Bytes)
  {
    exists p :: p in subs && p <= first
  }

  /** Arrival of one message at a SUB socket: queued when connected and admitted, dropped otherwise. */
  function Arrive(s: SubSocket, msg: seq<Frame>): (r: SubSocket)
    requires IsMessage(msg)
    ensures r.endpoint == s.endpoint && r.filters == s.filters
    ensures r.inbox == s.inbox || r.inbox == s.inbox + msg
    ensures r.inbox == s.inbox + msg <==> s.endpoint.Some? && Admits(Subscriptions(s.filters), msg[0].data)
  {
    if s.endpoint.Some? && Admits(Subscriptions(s.filters), msg[0].data)
    then s.(inbox := s.inbox + msg)
    else s
  }

  /** Subscribing to a prefix and then unsubscribing from the same prefix restores the subscriptions. */
  lemma SubscribeThenUnsubscribe(log: seq<FilterOp>, p: Bytes)
    ensures Subscriptions(log + [Subscribe(p), Unsubscribe(p)]) == Subscriptions(log)
  {
    var l1 := log + [Subscribe(p)];
    assert (log + [Subscribe(p), Unsubscribe(p)])[..|l1|] == l1;
    assert l1[..|log|] == log;
  }

  /** The empty prefix admits every message (subscribe() means "all topics"). */
  lemma EmptyPrefixAdmitsAll(subs: multiset<Bytes>, first: Bytes)
    requires [] in subs
    ensures Admits(subs, first)
  {
    assert [] <= first;
  }

  /** An admitted message is queued whole at the end of the inbox, and the queue stays well framed. */
  lemma ArriveKeepsFraming(s: SubSocket, msg: seq<Frame>)
    requires IsMessage(msg) && WellFramed(s.inbox)
    ensures WellFramed(Arrive(s, msg).inbox)
  {
  }
}
